=== FILE: README.md ===
# SmartFit-Coach core, modelled in Dafny

SmartFit-Coach turns a stream of body keypoints (33 landmarks per camera
frame) into repetition counts, movement-quality scores and coaching
messages for squats and push-ups, and gathers them into workout-session
statistics. This project models the per-frame coaching pipeline and proves
what it guarantees:

- `geometry.dfy` (module `Geometry`): joint angles, distances, the
  visibility test, the body centre and the alignment check. The
  floating-point angle kernel (arccos of the clipped cosine) is a parameter
  of type `AngleMeasure`. All that is known of it is what the computation
  guarantees: a result in [0, 180] that does not change when the outer
  points are swapped.
- `pose.dfy` (module `Pose`): keypoints, the 33-name landmark table, pixel
  conversion with truncation toward zero, lookup by name and by id, the
  export records and the landmark-to-keypoint mapping of detection.
- `squat_counter.dfy`, `pushup_counter.dfy`: the two repetition counters.
  Each is a class whose `Update` is proved equal to a pure step function.
  The pure step has:
  - a frame gate: one complete side visible, and for squats the body
    upright;
  - side selection;
  - a four-phase machine with hysteresis;
  - a debounced count;
  - per-rep metrics and phase messages.

  Lemmas about runs of frames show the following:
  - the count never falls;
  - counted reps are at least 0.5 s (squat) or 0.3 s (push-up) apart;
  - the rep history always matches the count;
  - a rep needs a full cycle of four phase changes.
- `posture_analyzer.dfy` (module `PostureAnalysis`): additive penalty
  scoring of squats and push-ups.
  - Each error type is reported exactly when its fault is present.
  - Scores stay in [25, 100] (squat) and [30, 100] (push-up).
  - A score history is capped at 100, and per-type error counters are
    kept.
  - Exercise names are dispatched case-insensitively.
- `feedback_generator.dfy` (module `FeedbackGeneration`): the message
  arbiter.
  - A 3-second cool-down.
  - The first error of highest severity wins.
  - Six success messages rotate, and every tenth rep is announced.
  - A 50-message history, the workout summary and the message statistics.
- `workout_session.dfy` (module `Session`): the session accumulator.
  - Repetitions, feedback and error counts.
  - A pause/resume machine and the active duration.
  - The calorie estimate and the duration format.
  - The final statistics.
- `exercise_classifier.dfy` (module `Classification`): the exercise
  classifier around its neural model.
  - Feature flattening and a bounded frame buffer.
  - Prediction gating, and padding or truncating the model input.
  - Argmax over the model's answer.
  - The 8-of-10 agreement rule that smooths the current exercise.

  The model itself is represented by its answer, a probability vector.
- `stats.dfy`, `tally.dfy`, `text.dfy`, `wrappers.dfy`: the Python idioms
  the core relies on:
  - means and counts;
  - the bounded FIFO of `deque(maxlen=…)` and `pop(0)`;
  - dictionaries counted with `get(k, 0) + 1`;
  - a stable descending sort cut to three entries;
  - `str(int)`, `lower()` and substring `in`.

Every reading of the clock is an explicit parameter `now: real`.

Behaviour of the code worth knowing, which the model follows:

- The squat counter makes exactly one phase change per frame. The knee
  angles 175, 170, 150, 120, 90, 160, 175 therefore end in ASCENDING with
  nothing counted, and one more upright frame completes the rep
  (`SquatCounting.OneSquat`).
- The squat counter has no first-frame initialisation: it starts and
  resets in STANDING. Only the push-up counter initialises its phase from
  its first frame.
- A fresh push-up counter is in no phase at all ("initialisation").
  `reset` puts it in UP. `tests/test_counting.py:239-243` expects a fresh
  counter in UP; the model follows the code.
- A fresh push-up counter can count a rep on its second frame: a first
  angle in (105, 110] lands in ASCENDING (`PushUpCounting.MidRepStart`).
- Joint angles never exceed 180°. So in the squat counter the hip
  condition of validity always holds, and the remarks that need an angle
  above 185° or 190° are never given (`SquatCounting.RemarksWithinRange`).
- `get_average_quality(0)` averages the whole history, because Python's
  `h[-0:]` is the whole list.
- In the push-up analysis of a list of 17 to 28 keypoints, the depth test
  runs before the failing index. A depth error can then be reported beside
  `detection_error`.
- A session ended during a pause keeps its pause open: `end_session` does
  not resume. Its duration then goes on falling as the clock advances
  (`Session.EndedWhilePausedKeepsFalling`); only a session ended outside a
  pause has a frozen duration (`Session.EndFreezesDuration`).
- The squat and push-up counters use their own hard-coded thresholds:
  - squat knee 165°/175° and hip 160°, debounce 0.5 s;
  - push-up elbow 100°/160°, debounce 0.3 s.

  They do not use the values of the configuration modules.

## Model

| member | source | states |
|---|---|---|
| Geometry.CalculateAngle | src/counting/angle_calculator.py:11-49 | the angle at b depends on the x and y coordinates only, is in [0, 180] and equals the angle with the outer points swapped |
| Geometry.AngleSymmetric | src/counting/angle_calculator.py:37-41 | swapping the outer points leaves the angle unchanged |
| Geometry.AnglePlanar | src/counting/angle_calculator.py:37-41 | depth, visibility, id and name never change the angle |
| Geometry.KneeAngle | src/counting/angle_calculator.py:202-214 | the knee angle is the angle at the knee between hip and ankle, in [0, 180] |
| Geometry.ElbowAngle | src/counting/angle_calculator.py:217-231 | the elbow angle is the angle at the elbow between shoulder and wrist, in [0, 180] |
| Geometry.HipAngle | src/counting/angle_calculator.py:234-246 | the hip angle is the angle at the hip between shoulder and knee, in [0, 180] |
| Geometry.VerticalDistance | src/counting/angle_calculator.py:86-99 | non-negative, and one of a.y − b.y or b.y − a.y |
| Geometry.HorizontalDistance | src/counting/angle_calculator.py:102-113 | non-negative, and one of a.x − b.x or b.x − a.x |
| Geometry.DistancesSymmetric | src/counting/angle_calculator.py:86-113 | both distances are symmetric and zero from a point to itself |
| Geometry.IsKeypointVisible | src/counting/angle_calculator.py:132-143 | visible iff the confidence is at least the threshold (0.5 by default), the same test as the detector's |
| Geometry.BodyCenter | src/counting/angle_calculator.py:146-161 | the centre is equidistant from both hips in x and in y |
| Geometry.BodyAlignment | src/counting/angle_calculator.py:164-199 | the deviation is 180 less the angle to a point above the hip, lies in [0, 180], and the body is aligned iff it is at most the allowed deviation |
| Pose.NameTable | src/detection/pose_detector.py:63-97 | the name table has 33 entries and every index constant names its own landmark |
| Pose.Trunc | src/detection/pose_detector.py:45 | Python's int() truncates toward zero: within 1 below a positive value, within 1 above a negative one |
| Pose.ScaleToPixels | src/detection/pose_detector.py:45 | the truncated product, and a coordinate in [0, 1] lands within [0, n] |
| Pose.ToPixelCoords | src/detection/pose_detector.py:34-45 | each coordinate is scaled and truncated, and normalised coordinates land inside the image |
| Pose.IsVisible | src/detection/pose_detector.py:212-223 | visible iff the confidence reaches the threshold, 0.5 by default |
| Pose.PixelCoordsOfCentre | src/detection/pose_detector.py:34-45 | (0.5, 0.5) in a 640×480 image is pixel (320, 240) |
| Pose.Detect | src/detection/pose_detector.py:122-153 | no landmarks give None; otherwise one keypoint per landmark, with id i, the i-th name, and x, y, z and visibility copied |
| Pose.FirstIndexOfName | src/detection/pose_detector.py:168-171 | the position of the first keypoint with the name, or the length when none has it |
| Pose.GetKeypointByName | src/detection/pose_detector.py:155-171 | None iff no keypoint has the name; otherwise the first one that has it |
| Pose.GetKeypointsByIds | src/detection/pose_detector.py:173-186 | exactly the keypoints whose id is listed, each as often as in the input, in their original order |
| Pose.KeypointsToDict | src/detection/pose_detector.py:188-210 | one record per keypoint, in order, with its id and name |
| Pose.RecordsToKeypoints | src/detection/pose_detector.py:198-209 | one keypoint per exported record |
| Pose.ExportRoundTrip | src/detection/pose_detector.py:188-210 | reading the export back gives the keypoints unchanged, in order |
| Pose.VisibleAtLowerThreshold | src/detection/pose_detector.py:212-223 | visible iff the confidence reaches the threshold, and visible at every lower threshold |
| SquatCounting.RejectionHint | src/counting/exercise_detectors/squat_counter.py:115-130 | the feet hint iff a hip but no ankle is seen; the head hint iff a hip and an ankle but no shoulder are seen; the generic hint otherwise |
| SquatCounting.IsUpright | src/counting/exercise_detectors/squat_counter.py:139-147 | an upright frame has the hips lower in the image than the shoulders (mean hip y above mean shoulder y) |
| SquatCounting.CheckFrame | src/counting/exercise_detectors/squat_counter.py:105-155 | accepted iff one side is fully visible and the hips are more than 0.05 below the shoulders; both sides iff both visible; the rejection hint of each refusal |
| SquatCounting.FrameAngles | src/counting/exercise_detectors/squat_counter.py:157-174 | the knee and hip angles of the visible side; with both sides visible, each angle lies midway between the two sides' (their mean), the knee angle between them; all in [0, 180] |
| SquatCounting.NextPhase | src/counting/exercise_detectors/squat_counter.py:216-235 | at most one step along the cycle, taken iff its threshold is crossed (below 165, at most 165, above 170, at least 165) |
| SquatCounting.Analyze | src/counting/exercise_detectors/squat_counter.py:237-277 | depth score in [0, 1] (1 at 165° or less, 0 at 175° or more, linear between); valid iff knee ≤ 165 and hip ≤ 180; "Descends plus bas" iff knee > 185, "Penche-toi plus en avant" iff knee ≤ 185 and hip > 190, "Bonne profondeur !" when valid, and no remark otherwise |
| SquatCounting.DepthMonotone | src/counting/exercise_detectors/squat_counter.py:248-256 | a deeper squat never scores a smaller depth |
| SquatCounting.RemarksWithinRange | src/counting/exercise_detectors/squat_counter.py:258-305 | for angles in [0, 180], validity is knee ≤ 165, and the messages needing angles above 185° are never given |
| SquatCounting.PhaseFeedback | src/counting/exercise_detectors/squat_counter.py:279-310 | the message of every phase and case: "go lower" at BOTTOM iff invalid above 165, "keep descending" iff DESCENDING above 185, and the fixed texts of STANDING, ASCENDING, the other DESCENDING case and the other two BOTTOM cases |
| SquatCounting.AngleStep | src/counting/exercise_detectors/squat_counter.py:176-206 | the phase advances by NextPhase; the count rises by one iff ASCENDING→STANDING at least 0.5 s after the last rep, which then records the time and the metrics; otherwise nothing else changes |
| SquatCounting.SquatStep | src/counting/exercise_detectors/squat_counter.py:73-206 | a refused frame changes nothing and reports the hint without metrics; an accepted frame is AngleStep on its knee and hip angles (one side's, or the midpoint of both), so its phase, count, time, history and report follow those angles; the count rises by at most one, only on ASCENDING→STANDING after the debounce; consistency is kept |
| SquatCounting.RunDebounced | src/counting/exercise_detectors/squat_counter.py:183-192 | over any run the count never falls and the reps counted are at least 0.5 s apart |
| SquatCounting.RunConsistent | src/counting/exercise_detectors/squat_counter.py:183-192 | over any run the rep history stays as long as the count, with depths in [0, 1] |
| SquatCounting.RunNeedsFullCycles | src/counting/exercise_detectors/squat_counter.py:179-235 | n frames count at most (n + stage)/4 reps: a rep needs four phase changes |
| SquatCounting.OneSquat | src/counting/exercise_detectors/squat_counter.py:216-235 | the knee angles 175…175 end in ASCENDING with no rep, and one more upright frame counts it |
| SquatCounting.BounceSuppressed | src/counting/exercise_detectors/squat_counter.py:184-192 | the same squat done twice within 0.2 s counts once |
| SquatCounting.AverageDepth | src/counting/exercise_detectors/squat_counter.py:312-321 | 0 without reps; otherwise the mean depth score (times the number of reps it is their sum), in [0, 1] |
| SquatCounting.MeanDepthBounded | src/counting/exercise_detectors/squat_counter.py:312-321 | the mean of depth scores in [0, 1] is in [0, 1] |
| SquatCounting.StatsOf | src/counting/exercise_detectors/squat_counter.py:323-338 | total reps is the count; valid reps are those marked valid, at most the total; the average depth is AverageDepth of the reps; success rate × total = valid × 100, 0 without reps, in [0, 100] and 100 iff every rep is valid |
| SquatCounting.SquatCounter.constructor | src/counting/exercise_detectors/squat_counter.py:59-64 | count 0, STANDING, last rep time 0, empty history |
| SquatCounting.SquatCounter.Reset | src/counting/exercise_detectors/squat_counter.py:66-71 | back to the initial state |
| SquatCounting.SquatCounter.UpdatePhase | src/counting/exercise_detectors/squat_counter.py:208-235 | the phase becomes NextPhase of the old one |
| SquatCounting.SquatCounter.Update | src/counting/exercise_detectors/squat_counter.py:73-206 | the new state and the report are those of SquatStep on the old state |
| SquatCounting.SquatCounter.GetStats | src/counting/exercise_detectors/squat_counter.py:323-338 | the statistics of the current state |
| PushUpCounting.PhaseName | src/counting/exercise_detectors/pushup_counter.py:112-120 | the phase's value, and "initialisation" iff there is no phase |
| PushUpCounting.VisibleSide | src/counting/exercise_detectors/pushup_counter.py:102-110 | none iff neither side is fully visible; both, left or right exactly as the sides are visible |
| PushUpCounting.FrameElbowAngle | src/counting/exercise_detectors/pushup_counter.py:122-133 | the visible side's elbow angle; with both sides visible, the angle midway between the two (their mean); in [0, 180] |
| PushUpCounting.InitialPhase | src/counting/exercise_detectors/pushup_counter.py:178-186 | a first frame never starts in ASCENDING: UP iff at least 150°, DOWN iff at most 110°, DESCENDING iff strictly between |
| PushUpCounting.Transition | src/counting/exercise_detectors/pushup_counter.py:188-207 | at most one step along the cycle, taken iff its threshold is crossed (below 150, at most 100, above 105, at least 150) |
| PushUpCounting.NextPhase | src/counting/exercise_detectors/pushup_counter.py:171-207 | an established phase makes one transition; a first frame starts in UP from 150°, DOWN at 110° or less, else DESCENDING, then transitions in the same call |
| PushUpCounting.Analyze | src/counting/exercise_detectors/pushup_counter.py:209-234 | valid iff elbow ≤ 100; "go lower" iff above 120; "good depth" iff valid; no remark in between |
| PushUpCounting.PhaseFeedback | src/counting/exercise_detectors/pushup_counter.py:236-267 | the message of every phase and case: "keep descending" iff DESCENDING above 120, and the fixed texts of UP, ASCENDING, the other DESCENDING case and the three DOWN cases; when validity is exactly elbow ≤ 100, DOWN never reaches its last text |
| PushUpCounting.AngleStep | src/counting/exercise_detectors/pushup_counter.py:135-169 | the phase advances by NextPhase; the count rises by one iff ASCENDING→UP at least 0.3 s after the last rep, which then records the time and the metrics |
| PushUpCounting.PushUpStep | src/counting/exercise_detectors/pushup_counter.py:70-169 | a frame without a visible side changes nothing; otherwise the step is AngleStep on the frame's elbow angle and the left shoulder–hip height, so phase, count, time, history and report follow that angle; the count rises by at most one, never on the initialising frame; consistency is kept |
| PushUpCounting.RunDebounced | src/counting/exercise_detectors/pushup_counter.py:145-154 | over any run the count never falls and counted reps are at least 0.3 s apart |
| PushUpCounting.RunConsistent | src/counting/exercise_detectors/pushup_counter.py:145-154 | over any run the rep history stays as long as the count |
| PushUpCounting.RunNeedsFullCycles | src/counting/exercise_detectors/pushup_counter.py:141-207 | n frames count at most (n + stage)/4 reps, a counter without a phase starting at stage 2 |
| PushUpCounting.MidRepStart | src/counting/exercise_detectors/pushup_counter.py:178-207 | a fresh counter that sees 107° then 155° counts one rep |
| PushUpCounting.OnePushUpThenBounce | src/counting/exercise_detectors/pushup_counter.py:145-154 | one full push-up from UP counts one rep, and a second within 0.3 s does not count |
| PushUpCounting.StatsOf | src/counting/exercise_detectors/pushup_counter.py:269-283 | total reps is the count; valid reps are those marked valid, at most the total; success rate × total = valid × 100, 0 without reps, in [0, 100] and 100 iff every rep is valid |
| PushUpCounting.PushUpCounter.constructor | src/counting/exercise_detectors/pushup_counter.py:56-61 | count 0, no phase, last rep time 0, empty history |
| PushUpCounting.PushUpCounter.Reset | src/counting/exercise_detectors/pushup_counter.py:63-68 | count 0, UP, last rep time 0, empty history |
| PushUpCounting.PushUpCounter.UpdatePhase | src/counting/exercise_detectors/pushup_counter.py:171-207 | the phase becomes NextPhase of the old one |
| PushUpCounting.PushUpCounter.Update | src/counting/exercise_detectors/pushup_counter.py:70-169 | the new state and the report are those of PushUpStep on the old state |
| PushUpCounting.PushUpCounter.GetStats | src/counting/exercise_detectors/pushup_counter.py:269-283 | the statistics of the current state |
| PostureAnalysis.PenaltyValues | src/feedback/posture_analyzer.py:71-259 | depth costs 20, knee alignment, knee forward and elbow symmetry 15, back and hips 25, hands 10 |
| PostureAnalysis.Check | src/feedback/posture_analyzer.py:71-80 | a test appends its error exactly when it fails and takes off its penalty, a passing one changes nothing; score plus penalties is preserved |
| PostureAnalysis.HasKindCheck | src/feedback/posture_analyzer.py:71-127 | after a test an error type is present iff it was before or the test failed with that type |
| PostureAnalysis.SquatChecks | src/feedback/posture_analyzer.py:69-127 | the errors are exactly depth, knee alignment, back and knee forward, each once and in that order, for the faults present; the score is 100 less their penalties, in [25, 100] |
| PostureAnalysis.SquatKindFound | src/feedback/posture_analyzer.py:69-127 | an error type is among a squat's errors iff the test adding it fails |
| PostureAnalysis.SquatFaults | src/feedback/posture_analyzer.py:69-127 | depth iff mean knee > 100; knee alignment iff knees differ by more than 15; back iff back angle < 150; knee forward iff knee and ankle are more than 0.1 apart; never a detection error |
| PostureAnalysis.SquatReport | src/feedback/posture_analyzer.py:40-155 | too few keypoints give score 0 and a detection error; otherwise the checks' errors, score 100 less their penalties, and the mean knee angle; score in [0, 100] |
| PostureAnalysis.PushUpChecks | src/feedback/posture_analyzer.py:186-259 | the errors are exactly depth, hips low, hips high, elbows and hands, each once and in that order, for the faults present; the score is 100 less their penalties, in [30, 100] |
| PostureAnalysis.PushUpKindFound | src/feedback/posture_analyzer.py:186-259 | an error type is among a push-up's errors iff a test adding it fails |
| PostureAnalysis.PushUpFaults | src/feedback/posture_analyzer.py:186-259 | depth iff elbow > 100; hips_low iff the hips are off the line and above the shoulders, hips_high iff off the line otherwise, never both; elbows iff they differ by more than 15; hands iff outside [0.8, 1.5] shoulder widths |
| PostureAnalysis.PushUpReport | src/feedback/posture_analyzer.py:157-287 | at most 16 keypoints: score 0 and a detection error; 17 to 28: score 0, the depth error if any, then the detection error; otherwise the checks' errors and score; score in [0, 100] |
| PostureAnalysis.KindOf | src/feedback/posture_analyzer.py:300-306 | squat iff the lowered name contains "squat"; push-up iff it does not but contains "push" or "pompe"; unsupported otherwise |
| PostureAnalysis.SquatName | src/feedback/posture_analyzer.py:300-303 | "Squat" is analysed as a squat |
| PostureAnalysis.PushUpName | src/feedback/posture_analyzer.py:300-305 | "Push-up" is analysed as a push-up |
| PostureAnalysis.PompesName | src/feedback/posture_analyzer.py:300-305 | "Pompes" is analysed as a push-up |
| PostureAnalysis.UnknownName | src/feedback/posture_analyzer.py:300-319 | "lunge" is not analysed |
| PostureAnalysis.Report | src/feedback/posture_analyzer.py:289-319 | a squat name gives SquatReport, a push-up name PushUpReport, and the neutral report (50, one unsupported error) iff the name is unsupported; the score is in [0, 100] |
| PostureAnalysis.Kinds | src/feedback/posture_analyzer.py:147-149 | the error types of a report, one per error, in order |
| PostureAnalysis.QualityCategory | src/feedback/posture_analyzer.py:351-368 | Excellent/green, Bon/lightgreen, Moyen/orange or red, each iff the score is in the band 85+, 70–85, 50–70 or below 50 |
| PostureAnalysis.Recent | src/feedback/posture_analyzer.py:334 | the last n scores, or the whole history when n is 0 or at least its length |
| PostureAnalysis.AverageQuality | src/feedback/posture_analyzer.py:321-335 | 0 on an empty history; otherwise the mean of the recent scores, in [0, 100] |
| PostureAnalysis.MeanRecentBounded | src/feedback/posture_analyzer.py:321-335 | the mean of recent scores in [0, 100] is in [0, 100] |
| PostureAnalysis.Record | src/feedback/posture_analyzer.py:141-149 | an unsupported name changes nothing; otherwise the report's score is pushed onto the history capped at 100 and each error type's count rises by its occurrences in the report, scores staying in [0, 100] |
| PostureAnalysis.PostureAnalyzer.constructor | src/feedback/posture_analyzer.py:35-38 | empty history and no error counts |
| PostureAnalysis.PostureAnalyzer.CountErrors | src/feedback/posture_analyzer.py:146-149 | each error's type is counted once more, in order |
| PostureAnalysis.PostureAnalyzer.RecordScore | src/feedback/posture_analyzer.py:141-144 | the score joins the history, the oldest leaving beyond 100 |
| PostureAnalysis.PostureAnalyzer.AnalyzeSquat | src/feedback/posture_analyzer.py:40-155 | returns SquatReport; records its score and counts its errors |
| PostureAnalysis.PostureAnalyzer.AnalyzePushUp | src/feedback/posture_analyzer.py:157-287 | returns PushUpReport; records its score and counts its errors |
| PostureAnalysis.PostureAnalyzer.Analyze | src/feedback/posture_analyzer.py:289-319 | returns Report and moves to the state Record describes |
| PostureAnalysis.PostureAnalyzer.GetAverageQuality | src/feedback/posture_analyzer.py:321-335 | the average of the recent scores, in [0, 100] |
| PostureAnalysis.PostureAnalyzer.GetErrorSummary | src/feedback/posture_analyzer.py:337-344 | a copy of the error counts |
| PostureAnalysis.PostureAnalyzer.Reset | src/feedback/posture_analyzer.py:346-349 | empty history and no error counts |
| FeedbackGeneration.Priority | src/feedback/feedback_generator.py:25 | 3 iff high, 2 iff medium, 1 for anything else |
| FeedbackGeneration.FirstMaxPriority | src/feedback/feedback_generator.py:157-164 | an error of the highest priority, with every earlier error strictly lower: what a stable descending sort puts first |
| FeedbackGeneration.HighestPriorityError | src/feedback/feedback_generator.py:139-164 | the placeholder for no errors; otherwise an error of the list with no other of higher priority |
| FeedbackGeneration.SeverityColor | src/feedback/feedback_generator.py:166-177 | red iff high, orange iff medium, yellow iff low, gray iff anything else |
| FeedbackGeneration.SuccessMessage | src/feedback/feedback_generator.py:127-137 | starts with the indexed success message, and is longer iff the rep count is a positive multiple of 10 |
| FeedbackGeneration.SuccessMessageAnnouncesCount | src/feedback/feedback_generator.py:134-135 | the appended number reads back as the rep count |
| FeedbackGeneration.Compose | src/feedback/feedback_generator.py:65-108 | success iff score ≥ 85 and no errors: the green SuccessMessage of the index, which advances mod 6; with errors the top error's message, colour, icon, severity and type; otherwise no error type and, at 50 or more, the orange low-priority "Maintiens cette qualité" with 💡, below 50 the red high-priority "Vérifie ta posture" with 🔴 |
| FeedbackGeneration.FeedbackStep | src/feedback/feedback_generator.py:44-115 | within 3 s of the last message the current one is returned and nothing changes; otherwise the composed message becomes current, the time is now, the message joins the 50-entry history and the success index is the composed one |
| FeedbackGeneration.Run | src/feedback/feedback_generator.py:44-115 | repeated calls keep the generator's state consistent |
| FeedbackGeneration.RunSpacing | src/feedback/feedback_generator.py:59-113 | n new messages put the last one at least 3n s after the start, and the history holds min(50, old + n) |
| FeedbackGeneration.SuccessRotation | src/feedback/feedback_generator.py:128-131 | after k success messages the index is (start + k) mod 6 |
| FeedbackGeneration.NextModSix | src/feedback/feedback_generator.py:129-131 | advancing a reduced index wraps as advancing the unreduced one |
| FeedbackGeneration.SuccessIndexAfter | src/feedback/feedback_generator.py:128-131 | the index stays below 6 |
| FeedbackGeneration.ForceMessage | src/feedback/feedback_generator.py:237-262 | the message, medium priority, score 50, becomes current at time now; the history and index are untouched |
| FeedbackGeneration.Encouragement | src/feedback/feedback_generator.py:264-284 | a message iff the rep count is 5, 10, 15, 20, 25, 30 or 50, and then the milestone text of that count |
| FeedbackGeneration.Qualities | src/feedback/feedback_generator.py:196 | the scores of the messages, in order |
| FeedbackGeneration.SuccessesAreExcellent | src/feedback/feedback_generator.py:199-203 | the successes counted are exactly the scores in the excellent band |
| FeedbackGeneration.SummaryOf | src/feedback/feedback_generator.py:179-228 | zeros and no distribution when empty; otherwise the mean score, the success share in [0, 100], the bands and the top three error types |
| FeedbackGeneration.MeanScoreBounded | src/feedback/feedback_generator.py:195-197 | the mean of scores in [0, 100] is in [0, 100] |
| FeedbackGeneration.CommonErrorsCounted | src/feedback/feedback_generator.py:205-215 | each common error carries its true number of occurrences in the history |
| FeedbackGeneration.MessageStatsOf | src/feedback/feedback_generator.py:286-312 | none iff empty; otherwise the total, and each priority and colour count is the number of messages with that priority or colour, each group summing to at most the total |
| FeedbackGeneration.PrioritiesPartition | src/feedback/feedback_generator.py:296-304 | the priority counts sum to at most the total, and to the total when every priority is high, medium or low |
| FeedbackGeneration.ColoursPartition | src/feedback/feedback_generator.py:305-311 | the colour counts sum to at most the total |
| FeedbackGeneration.FeedbackGenerator.constructor | src/feedback/feedback_generator.py:37-42 | time 0, no message, empty history, index 0 |
| FeedbackGeneration.FeedbackGenerator.NextSuccessMessage | src/feedback/feedback_generator.py:117-137 | returns SuccessMessage of the old index and advances the index mod 6 |
| FeedbackGeneration.FeedbackGenerator.GenerateFeedback | src/feedback/feedback_generator.py:44-115 | the new state and the answer are those of FeedbackStep |
| FeedbackGeneration.FeedbackGenerator.CountErrorTypes | src/feedback/feedback_generator.py:206-210 | the error types of the history counted in order |
| FeedbackGeneration.FeedbackGenerator.GetWorkoutSummary | src/feedback/feedback_generator.py:179-228 | the summary of the history |
| FeedbackGeneration.FeedbackGenerator.Reset | src/feedback/feedback_generator.py:230-235 | back to the initial state |
| FeedbackGeneration.FeedbackGenerator.Force | src/feedback/feedback_generator.py:237-262 | the new state and message are those of ForceMessage |
| FeedbackGeneration.FeedbackGenerator.GetMessageStats | src/feedback/feedback_generator.py:286-312 | the statistics of the history |
| Session.Start | src/session/workout_session.py:23-50 | active, not paused, no reps, no end, consistent |
| Session.WithRepetition | src/session/workout_session.py:52-69 | one more rep, its score appended and a detail numbered with the new count; nothing else changes |
| Session.WithFeedback | src/session/workout_session.py:71-92 | exactly one entry appended; the count of its error type rises by one iff it names one, no other count changes |
| Session.Paused | src/session/workout_session.py:94-98 | an active unpaused session starts a pause at now; otherwise nothing changes |
| Session.Resumed | src/session/workout_session.py:100-105 | a pause ends and its length is added to the total; without a pause nothing changes |
| Session.EndOf | src/session/workout_session.py:126 | the end time once one is set and not 0.0, otherwise now |
| Session.ActiveTime | src/session/workout_session.py:126-131 | outside a pause, the time from start to end less all pauses; during a pause of a running session, the time up to the pause, whatever the clock |
| Session.Duration | src/session/workout_session.py:119-133 | the active time (end or now, less all pauses and the current one), floored at 0 |
| Session.PausedClockStops | src/session/workout_session.py:119-133 | while paused and not ended, the duration does not grow |
| Session.PauseKeepsDuration | src/session/workout_session.py:94-98 | pausing does not change the duration at that moment |
| Session.ResumeKeepsDuration | src/session/workout_session.py:100-105 | resuming does not change the duration at that moment |
| Session.Ended | src/session/workout_session.py:114-115 | the end time is now and the session is inactive |
| Session.EndFreezesDuration | src/session/workout_session.py:107-133 | once a session has ended outside a pause, its duration no longer depends on the clock |
| Session.EndedWhilePausedKeepsFalling | src/session/workout_session.py:107-133 | a session ended during a pause keeps its pause open, so its active time goes on falling with the clock |
| Session.AverageQuality | src/session/workout_session.py:135-144 | 0 without scores, otherwise their mean, in [0, 100] |
| Session.MeanQualityBounded | src/session/workout_session.py:135-144 | the mean of scores in [0, 100] is in [0, 100] |
| Session.FirstMatch | src/session/workout_session.py:165-168 | the first table entry whose name occurs in the exercise, or none iff no name occurs |
| Session.BaseCalories | src/session/workout_session.py:154-171 | the rate of the first table entry (squat, push-up, pompe, lunge, fente) whose name occurs in the lowered exercise name, the default 0.3 iff none does; always in [0.29, 0.35] |
| Session.SquatCalories | src/session/workout_session.py:154-168 | "Squat" gets the squat rate 0.32 |
| Session.CaloriesEstimate | src/session/workout_session.py:146-180 | between reps × rate and twice that, and 0 without reps |
| Session.CaloriesFormula | src/session/workout_session.py:146-180 | exactly reps × the exercise's rate × DurationFactor of the active duration, so exactly double from ten active minutes on |
| Session.ScaledByDuration | src/session/workout_session.py:175-178 | n × b scaled by the duration factor is the product n × b × factor, and twice n × b from 600 s on |
| Session.DurationFactor | src/session/workout_session.py:175-178 | min(1 + minutes × 0.1, 2): below 600 s the excess over 1 is seconds / 600, from 600 s on exactly 2; always in [1, 2] |
| Session.Scaled | src/session/workout_session.py:178 | the product n × b × f, which for f in [1, 2] lies between n × b and 2 n × b, and is 0 for no reps |
| Session.NonNegProduct | src/session/workout_session.py:178 | a product of non-negative factors is non-negative |
| Session.DurationParts | src/session/workout_session.py:236-237 | whole minutes and seconds under 60 whose total is the duration's floor |
| Session.FormatDuration | src/session/workout_session.py:226-242 | ends in 's', and shows minutes iff there is at least one |
| Session.DigitRun | src/session/workout_session.py:239-242 | the leading digits of a string |
| Session.DigitRunOf | src/session/workout_session.py:239-242 | digits followed by a non-digit have exactly their own length as leading run |
| Session.FormatDurationReadsBack | src/session/workout_session.py:226-242 | the leading digits read back as the minutes, followed by "m " and the seconds, or the seconds alone below a minute |
| Session.RepsPerMinute | src/session/workout_session.py:206 | 0 when no time has passed; otherwise the pace times the duration is 60 × reps |
| Session.Statistics | src/session/workout_session.py:182-224 | duration, average quality, calories and pace are those of Duration, AverageQuality, CaloriesEstimate and RepsPerMinute, so the pace is 0 at duration 0; both non-negative; the bands partition the reps; the top errors are the top three counts; the formatted duration matches |
| Session.TopErrorsCounted | src/session/workout_session.py:200-203 | each top error carries its true number of reports |
| Session.WorkoutSession.constructor | src/session/workout_session.py:23-50 | the state of Start at now |
| Session.WorkoutSession.AddRepetition | src/session/workout_session.py:52-69 | the state becomes WithRepetition of the old one |
| Session.WorkoutSession.AddFeedback | src/session/workout_session.py:71-92 | the state becomes WithFeedback of the old one |
| Session.WorkoutSession.Pause | src/session/workout_session.py:94-98 | the state becomes Paused of the old one |
| Session.WorkoutSession.Resume | src/session/workout_session.py:100-105 | the state becomes Resumed of the old one |
| Session.WorkoutSession.EndSession | src/session/workout_session.py:107-117 | the state becomes Ended, and the statistics of the ended state are returned |
| Classification.Features | src/recognition/exercise_classifier.py:120-148 | three values per keypoint, in order: x, y and the visibility or 1.0 |
| Classification.Zeros | src/recognition/exercise_classifier.py:192 | n zeros |
| Classification.ModelInput | src/recognition/exercise_classifier.py:186-199 | exactly maxLen rows: the buffered frames then rows of zeros, or the first maxLen frames; frames of the model's width stay so |
| Classification.ArgMax | src/recognition/exercise_classifier.py:206 | a largest probability, and the first of them |
| Classification.ProbabilityMapEntries | src/recognition/exercise_classifier.py:211-214 | an entry iff a class name, with its own probability when the names are distinct |
| Classification.Count | src/recognition/exercise_classifier.py:226-227 | at most the history's length |
| Classification.CountAbsent | src/recognition/exercise_classifier.py:226-227 | a name not in the history counts 0 |
| Classification.CountTwo | src/recognition/exercise_classifier.py:226-227 | two different names share the history |
| Classification.MajorityUnique | src/recognition/exercise_classifier.py:225-231 | in ten entries at most one name reaches eight |
| Classification.MajorityFrom | src/recognition/exercise_classifier.py:225-231 | a name from position i on that reaches eight, or none iff none does |
| Classification.Majority | src/recognition/exercise_classifier.py:225-231 | the name reaching eight, or none iff no name does |
| Classification.Smooth | src/recognition/exercise_classifier.py:216-235 | unsure: history cleared, nothing else; confident: the name joins the last ten; the current exercise and confidence change only when ten full entries have a name eight agree on, which becomes current with the new confidence |
| Classification.SmoothAll | src/recognition/exercise_classifier.py:216-235 | over any run of predictions the history never exceeds ten |
| Classification.NoSwitchBeforeTen | src/recognition/exercise_classifier.py:225-231 | fewer than ten answers from an empty history never change the current exercise |
| Classification.Initial | src/recognition/exercise_classifier.py:42-54 | the state before a model is loaded is consistent |
| Classification.Loaded | src/recognition/exercise_classifier.py:96-114 | the model is set, the buffer emptied and sized to the model's sequence length |
| Classification.WithFrame | src/recognition/exercise_classifier.py:150-161 | the features join the buffer, the oldest leaving at capacity, and the frame is counted; nothing else changes |
| Classification.PredictStep | src/recognition/exercise_classifier.py:163-241 | an answer iff a model is loaded, it is time or forced, 30 frames are buffered and the answer is usable; then the argmax class, its probability and the map, with the smoothing applied; otherwise no change |
| Classification.Cleared | src/recognition/exercise_classifier.py:261-266 | buffer, frame count, current exercise and confidence cleared; history, model and capacity kept |
| Classification.IsReady | src/recognition/exercise_classifier.py:268-279 | ready iff a forced prediction would consult the model |
| Classification.ReadyAfterFrames | src/recognition/exercise_classifier.py:175-184 | after a reset and k frames: ready iff k ≥ 30, and an unforced prediction is due iff also k is a multiple of 15 |
| Classification.AddFrames | src/recognition/exercise_classifier.py:150-161 | adding frames keeps the state consistent |
| Classification.WithFrameLength | src/recognition/exercise_classifier.py:160 | one frame grows the buffer by one up to its capacity |
| Classification.AddFramesLength | src/recognition/exercise_classifier.py:150-161 | k frames add k to the count and fill the buffer up to its capacity; the model and capacity are kept |
| Classification.ExerciseClassifier.constructor | src/recognition/exercise_classifier.py:32-54 | the state before a model is loaded |
| Classification.ExerciseClassifier.LoadModel | src/recognition/exercise_classifier.py:79-118 | succeeds and moves to the Loaded state |
| Classification.ExerciseClassifier.ExtractFeatures | src/recognition/exercise_classifier.py:120-148 | the features of the keypoints |
| Classification.ExerciseClassifier.AddFrame | src/recognition/exercise_classifier.py:150-161 | the state becomes WithFrame of the old one |
| Classification.ExerciseClassifier.Predict | src/recognition/exercise_classifier.py:163-241 | the new state and answer are those of PredictStep |
| Classification.ExerciseClassifier.UpdateHistory | src/recognition/exercise_classifier.py:216-235 | history, current exercise and confidence become those of Smooth |
| Classification.ExerciseClassifier.Reset | src/recognition/exercise_classifier.py:261-266 | the state becomes Cleared of the old one |
| Stats.SumAppend | src/session/workout_session.py:144 | the sum of a list with one more value is the old sum plus that value |
| Stats.SumBounds | src/session/workout_session.py:144 | values in [lo, hi] sum to between n·lo and n·hi |
| Stats.Mean | src/session/workout_session.py:144 | the mean times the number of values is their sum |
| Stats.MeanBounds | src/session/workout_session.py:144 | the mean of values in [lo, hi] is in [lo, hi] |
| Stats.CountWhere | src/counting/exercise_detectors/squat_counter.py:330 | at most the list's length |
| Stats.CountWhereAppend | src/counting/exercise_detectors/squat_counter.py:330 | one more element adds one iff it satisfies the test |
| Stats.CountBand | src/session/workout_session.py:194-197 | at most the list's length |
| Stats.DistributionOf | src/session/workout_session.py:193-198 | the four band counts sum to the number of scores |
| Stats.PartitionBands | src/session/workout_session.py:193-198 | every score is in exactly one band |
| Stats.Push | src/feedback/posture_analyzer.py:142-144 | the value joins at the end and the oldest entries leave beyond the capacity: the last cap entries of the extended list |
| Stats.PushWithin | src/feedback/posture_analyzer.py:142-144 | a capped history of values in [lo, hi] stays in [lo, hi] |
| Stats.Percent | src/counting/exercise_detectors/squat_counter.py:335 | the share p with p × total = part × 100, in [0, 100], 100 iff the part is the whole |
| Tally.LookupEntry | src/feedback/posture_analyzer.py:149 | each entry of a counter holds its key's count |
| Tally.Bump | src/feedback/posture_analyzer.py:149 | the key's count rises by one, no other count changes, keys stay unique; an existing key keeps its position and a new key is appended last with count 1 |
| Tally.BumpAll | src/feedback/posture_analyzer.py:147-149 | counting keys keeps the keys unique |
| Tally.BumpAllCounts | src/feedback/posture_analyzer.py:147-149 | each count rises by the key's number of occurrences |
| Tally.BumpAllAppend | src/feedback/posture_analyzer.py:147-149 | counting one more key is one more increment |
| Tally.Insert | src/session/workout_session.py:201-203 | the entry is inserted into a sorted counter keeping it sorted, nothing lost |
| Tally.InsertAhead | src/session/workout_session.py:201-203 | inserting an entry puts it ahead of every entry with the same count, the step that makes the sort stable |
| Tally.SortDesc | src/session/workout_session.py:201-203 | sorted by decreasing count, a permutation of the counter, and stable: for every count the entries with that count keep their counter order |
| Tally.AllTiedKeepOrder | src/session/workout_session.py:201-203 | a counter whose entries all have the same count sorts to itself; with BumpAllOrder, ties go to the earliest-reported type |
| Tally.BumpAllOrder | src/feedback/feedback_generator.py:206-211 | counting a list of keys into an empty counter leaves its keys in order of first occurrence |
| Tally.TopThree | src/session/workout_session.py:201-203 | the first three entries (or all, if fewer) of the stable SortDesc, so none left out outranks one kept and ties keep counter order |
| Tally.TopThreeCounts | src/feedback/feedback_generator.py:206-215 | each of the top three carries its key's true number of occurrences |
| Text.DigitChar | src/feedback/feedback_generator.py:135 | the digit character of a value below 10 |
| Text.NatToString | src/feedback/feedback_generator.py:135 | non-empty decimal digits without a leading zero |
| Text.ParseNatToString | src/feedback/feedback_generator.py:135 | the rendered number reads back as itself |
| Text.NatToStringInjective | src/feedback/feedback_generator.py:135 | different numbers render differently |
| Text.ToLower | src/feedback/posture_analyzer.py:300 | same length, each character lowered, no capital letter left |
| Text.MismatchAt | src/feedback/posture_analyzer.py:302 | a mismatching character rules out an occurrence there |
| Text.Contains | src/feedback/posture_analyzer.py:302 | true iff the substring occurs at some position |

## Left out

- The floating-point kernel of `calculate_angle` (norms, arccos, degrees)
  is a parameter. Only its range [0, 180] and its symmetry in the outer
  points are known.
- `calculate_angle_3d` and `calculate_euclidean_distance` are not modelled.
  They are numerics (the 3-D arccos, a square root) that no modelled
  operation uses.
- Every `round(...)` is left out: results are unrounded reals.
- Floats are modelled as exact reals, and Python integers as unbounded
  integers.
- The clock is a parameter `now`. A Python method that reads
  `time.time()` several times gets one reading. Examples are
  `get_statistics` (through `get_duration` and `get_calories_estimate`)
  and `get_duration` during a pause.
- `session_id` and the start `date` of the statistics (date formatting)
  are left out.
- `save_to_file`, `export_to_csv`, `get_summary_text` and `__repr__` are
  file output and text formatting. `get_info` is a read-out of fields.
- `get_current_exercise` and `get_confidence` read the fields
  `currentExercise` and `confidence` of `Classification.ExerciseClassifier`
  directly.
- Pose estimation, the camera, `PoseDetector.__init__` and `release` are
  not modelled. Detection takes the library's landmarks as input.
- Pose.Detect: requires at most 33 landmarks. The library always produces
  33, and more would fail on the name table.
- SquatCounting.SquatStep and SquatCounting.SquatCounter.Update require a
  frame of at least 29 keypoints, and PushUpCounting.PushUpStep and
  PushUpCounting.PushUpCounter.Update one of at least 25: one more than the
  highest index each counter reads. The source raises IndexError on
  shorter lists; the detector always produces 33.
- Posture errors, feedback messages and session entries are records, not
  dictionaries. A severity missing from an error dictionary, which the
  analyzer never produces, is not represented.
- The TensorFlow model and its loading are left out, including
  TensorFlow's availability and unreadable files.
  Classification.ExerciseClassifier.LoadModel models only the successful
  load. `predict` receives the model's answer `p` as a parameter.
- The classifier reads keypoints that always carry x and y. The failing
  extraction of `extract_features_from_keypoints` (a missing coordinate
  returns None) is therefore not modelled, and `add_frame` always appends.
- `prediction_history` is created on first use in the source. The model
  starts it empty, which behaves the same.
- Classification.ProbabilityMapEntries: gives each class its own
  probability only when the class names are distinct. With a repeated name
  the dictionary keeps the later probability, and the map is built that
  way but not specified further.
- `str.lower()` is modelled for the ASCII letters only.
- Session.EndOf: an end time of 0.0 counts as unset, as Python's falsy 0
  does.

=== FILE: exercise_classifier.dfy ===
/**
 * The exercise classifier: keeps a bounded buffer of per-frame feature
 * vectors, asks a sequence model for class probabilities every fifteenth
 * frame once thirty frames are buffered, and switches the current exercise
 * only after eight of the last ten confident predictions agree.  The model
 * itself is not part of this module: its answer, a probability vector, is
 * a parameter of `Predict`.
 */
module Classification {
  import opened Wrappers
  import Pose
  import Stats

  const DEFAULT_BUFFER_SIZE: nat := 60
  const PREDICTION_INTERVAL: nat := 15
  const MIN_FRAMES: nat := 30
  const CONFIDENCE_THRESHOLD: real := 0.85
  const HISTORY_SIZE: nat := 10
  const MAJORITY: nat := 8

  /** A keypoint as the classifier reads it; a dictionary may lack the visibility. */
  datatype Landmark = Landmark(x: real, y: real, visibility: Option<real>)

  function FromKeypoint(k: Pose.Keypoint): Landmark {
    Landmark(k.x, k.y, Some(k.visibility))
  }

  /** The metadata of a loaded model. */
  datatype ModelInfo = ModelInfo(classes: seq<string>, maxSequenceLength: nat, nFeatures: nat)

  // ----- features ----------------------------------------------------------

  /** `extract_features_from_keypoints`: x, y and visibility (1.0 when absent) of each keypoint, in order. */
  function Features(kps: seq<Landmark>): (f: seq<real>)
    ensures |f| == 3 * |kps|
    ensures forall i :: 0 <= i < |kps| ==>
              f[3 * i] == kps[i].x && f[3 * i + 1] == kps[i].y && f[3 * i + 2] == kps[i].visibility.GetOr(1.0)
  {
    if kps == [] then []
    else
      var k := kps[|kps| - 1];
      Features(kps[..|kps| - 1]) + [k.x, k.y, k.visibility.GetOr(1.0)]
  }

  // ----- the model input ---------------------------------------------------

  function Zeros(n: nat): (z: seq<real>)
    ensures |z| == n && forall i :: 0 <= i < n ==> z[i] == 0.0
  {
    seq(n, _ => 0.0)
  }

  /** Every buffered frame has the width the model expects. */
  predicate Shaped(buffer: seq<seq<real>>, nFeatures: nat) {
    forall i :: 0 <= i < |buffer| ==> |buffer[i]| == nFeatures
  }

  /**
   * The sequence handed to the model: the buffered frames followed by
   * rows of zeros up to `maxLen`, or the first `maxLen` frames.
   */
  function ModelInput(buffer: seq<seq<real>>, maxLen: nat, nFeatures: nat): (r: seq<seq<real>>)
    ensures |r| == maxLen
    ensures forall i :: 0 <= i < maxLen ==> r[i] == if i < |buffer| then buffer[i] else Zeros(nFeatures)
    ensures Shaped(buffer, nFeatures) ==> Shaped(r, nFeatures)
  {
    if |buffer| < maxLen then buffer + seq(maxLen - |buffer|, _ => Zeros(nFeatures))
    else buffer[..maxLen]
  }

  // ----- reading the model's answer ----------------------------------------

  /** `np.argmax`: the first position of a largest probability. */
  function ArgMax(p: seq<real>): (i: nat)
    requires p != []
    ensures i < |p|
    ensures forall j :: 0 <= j < |p| ==> p[j] <= p[i]
    ensures forall j :: 0 <= j < i ==> p[j] < p[i]
  {
    if |p| == 1 then 0
    else
      var k := ArgMax(p[..|p| - 1]);
      if p[|p| - 1] > p[k] then |p| - 1 else k
  }

  /** No class name is listed twice. */
  predicate Distinct(classes: seq<string>) {
    forall i, j :: 0 <= i < j < |classes| ==> classes[i] != classes[j]
  }

  /**
   * The probability of each class name, built in order as a dictionary
   * is (a name listed twice keeps its later probability).
   */
  function ProbabilityMap(classes: seq<string>, p: seq<real>): map<string, real>
    requires |classes| <= |p|
  {
    if classes == [] then map[]
    else ProbabilityMap(classes[..|classes| - 1], p)[classes[|classes| - 1] := p[|classes| - 1]]
  }

  /** Every class has an entry and nothing else has, each with its own probability when the names are distinct. */
  lemma {:induction false} ProbabilityMapEntries(classes: seq<string>, p: seq<real>)
    requires |classes| <= |p|
    ensures forall k :: k in ProbabilityMap(classes, p) <==> k in classes
    ensures Distinct(classes) ==> forall i :: 0 <= i < |classes| ==> ProbabilityMap(classes, p)[classes[i]] == p[i]
  {
    if classes != [] {
      var n := |classes| - 1;
      ProbabilityMapEntries(classes[..n], p);
      assert classes == classes[..n] + [classes[n]];
      if Distinct(classes) {
        assert Distinct(classes[..n]);
        forall i | 0 <= i < |classes| ensures ProbabilityMap(classes, p)[classes[i]] == p[i] {
          if i < n {
            assert classes[..n][i] == classes[i] != classes[n];
          }
        }
      }
    }
  }

  /** Whether the model's answer can be read: a class for its argmax and a probability for each class. */
  predicate Readable(classes: seq<string>, p: seq<real>) {
    p != [] && ArgMax(p) < |classes| && |classes| <= |p|
  }

  datatype Prediction = Prediction(exercise: string, confidence: real, probabilities: map<string, real>)

  // ----- smoothing ---------------------------------------------------------

  function Count(h: seq<string>, x: string): (n: nat)
    ensures n <= |h|
  {
    if h == [] then 0 else Count(h[..|h| - 1], x) + if h[|h| - 1] == x then 1 else 0
  }

  lemma {:induction false} CountAbsent(h: seq<string>, x: string)
    requires x !in h
    ensures Count(h, x) == 0
  {
    if h != [] {
      assert x !in h[..|h| - 1];
      CountAbsent(h[..|h| - 1], x);
    }
  }

  /** Two different labels share the history. */
  lemma {:induction false} CountTwo(h: seq<string>, x: string, y: string)
    requires x != y
    ensures Count(h, x) + Count(h, y) <= |h|
  {
    if h != [] {
      CountTwo(h[..|h| - 1], x, y);
    }
  }

  /** In a history of ten, at most one name reaches eight. */
  lemma MajorityUnique(h: seq<string>, x: string, y: string)
    requires |h| <= HISTORY_SIZE
    requires Count(h, x) >= MAJORITY && Count(h, y) >= MAJORITY
    ensures x == y
  {
    if x != y {
      CountTwo(h, x, y);
    }
  }

  /** The first name from position `i` on that reaches the majority. */
  function MajorityFrom(h: seq<string>, i: nat): (r: Option<string>)
    requires i <= |h|
    ensures r.Some? ==> r.value in h[i..] && Count(h, r.value) >= MAJORITY
    ensures r.None? ==> forall j :: i <= j < |h| ==> Count(h, h[j]) < MAJORITY
    decreases |h| - i
  {
    if i == |h| then None
    else if Count(h, h[i]) >= MAJORITY then Some(h[i])
    else MajorityFrom(h, i + 1)
  }

  /**
   * The name eight or more entries of the history agree on, if any: the
   * most common name when its count reaches eight, whichever way ties
   * among less common labels would be broken.
   */
  function Majority(h: seq<string>): (r: Option<string>)
    ensures r.Some? ==> Count(h, r.value) >= MAJORITY
    ensures r.None? ==> forall x :: Count(h, x) < MAJORITY
  {
    var r := MajorityFrom(h, 0);
    if r.None? then
      forall x ensures Count(h, x) < MAJORITY {
        if x !in h {
          CountAbsent(h, x);
        }
      }
      r
    else r
  }

  datatype Smoothing = Smoothing(history: seq<string>, current: Option<string>, confidence: real)

  /**
   * One prediction through the smoothing: a confident one joins the last
   * ten, and when those are ten and eight agree their name becomes
   * current; an unsure one empties the history and changes nothing else.
   */
  function Smooth(s: Smoothing, name: string, confidence: real): (r: Smoothing)
    requires |s.history| <= HISTORY_SIZE
    ensures |r.history| <= HISTORY_SIZE
    ensures confidence < CONFIDENCE_THRESHOLD ==> r == s.(history := [])
    ensures confidence >= CONFIDENCE_THRESHOLD ==> r.history == Stats.Push(s.history, name, HISTORY_SIZE)
    ensures r.current != s.current || r.confidence != s.confidence ==>
              |r.history| == HISTORY_SIZE && r.current.Some? && Count(r.history, r.current.value) >= MAJORITY
              && r.confidence == confidence
    ensures |r.history| == HISTORY_SIZE && Majority(r.history).Some? ==>
              r.current == Majority(r.history) && r.confidence == confidence
  {
    if confidence >= CONFIDENCE_THRESHOLD then
      var h := Stats.Push(s.history, name, HISTORY_SIZE);
      if |h| == HISTORY_SIZE && Majority(h).Some? then Smoothing(h, Majority(h), confidence)
      else s.(history := h)
    else s.(history := [])
  }

  /** The smoothing over a run of predictions: the history never grows beyond ten entries. */
  function SmoothAll(s: Smoothing, answers: seq<(string, real)>): (r: Smoothing)
    requires |s.history| <= HISTORY_SIZE
    ensures |r.history| <= HISTORY_SIZE
    decreases |answers|
  {
    if answers == [] then s
    else SmoothAll(Smooth(s, answers[0].0, answers[0].1), answers[1..])
  }

  /**
   * Starting from an empty history, fewer than ten predictions can never
   * change the current exercise: a switch needs ten confident ones in a row.
   */
  lemma {:induction false} NoSwitchBeforeTen(s: Smoothing, answers: seq<(string, real)>)
    requires |s.history| + |answers| < HISTORY_SIZE
    ensures SmoothAll(s, answers).current == s.current
    ensures |SmoothAll(s, answers).history| <= |s.history| + |answers|
    decreases |answers|
  {
    if answers != [] {
      NoSwitchBeforeTen(Smooth(s, answers[0].0, answers[0].1), answers[1..]);
    }
  }

  // ----- the classifier ----------------------------------------------------

  datatype ClassifierState = ClassifierState(
    model: Option<ModelInfo>, buffer: seq<seq<real>>, bufferCap: nat, frameCount: nat,
    currentExercise: Option<string>, confidence: real, history: seq<string>)

  predicate Consistent(s: ClassifierState) {
    |s.buffer| <= s.bufferCap && |s.history| <= HISTORY_SIZE
  }

  /** The classifier before any model is loaded. */
  function Initial(): (s: ClassifierState)
    ensures Consistent(s)
  {
    ClassifierState(None, [], DEFAULT_BUFFER_SIZE, 0, None, 0.0, [])
  }

  /** `load_model` once the files are read: the buffer is emptied and sized to the model's sequence length. */
  function Loaded(s: ClassifierState, info: ModelInfo): (r: ClassifierState)
    ensures Consistent(s) ==> Consistent(r)
    ensures r == s.(model := Some(info), buffer := [], bufferCap := info.maxSequenceLength)
  {
    s.(model := Some(info), buffer := [], bufferCap := info.maxSequenceLength)
  }

  /** `add_frame`: the frame's features join the buffer, the oldest leaving when it is full, and the frame is counted. */
  function WithFrame(s: ClassifierState, kps: seq<Landmark>): (r: ClassifierState)
    requires Consistent(s)
    ensures Consistent(r)
    ensures r.frameCount == s.frameCount + 1
    ensures r.buffer == Stats.Push(s.buffer, Features(kps), s.bufferCap)
    ensures s.bufferCap > 0 ==> r.buffer[|r.buffer| - 1] == Features(kps)
    ensures r.(buffer := s.buffer, frameCount := s.frameCount) == s
  {
    s.(buffer := Stats.Push(s.buffer, Features(kps), s.bufferCap), frameCount := s.frameCount + 1)
  }

  /** Whether `predict` consults the model: one is loaded, it is time (or forced) and thirty frames are buffered. */
  predicate Due(s: ClassifierState, force: bool) {
    s.model.Some? && (force || s.frameCount % PREDICTION_INTERVAL == 0) && |s.buffer| >= MIN_FRAMES
  }

  /**
   * `predict`, where `p` stands for whatever the neural model answers; it
   * is unconstrained, so nothing ties it to `ModelInput` of the buffer, and
   * `Shaped` stands for the reshape and padding of that input succeeding.
   * No answer, and no change, when the model is not consulted or its input
   * or answer cannot be used; otherwise the most probable class,
   * its probability and every class's probability, with the smoothing
   * applied to the classifier's current exercise.
   */
  function PredictStep(s: ClassifierState, force: bool, p: seq<real>): (r: (ClassifierState, Option<Prediction>))
    requires Consistent(s)
    ensures Consistent(r.0)
    ensures r.1.Some? <==> Due(s, force) && Shaped(s.buffer, s.model.value.nFeatures) && Readable(s.model.value.classes, p)
    ensures r.1.None? ==> r.0 == s
    ensures r.1.Some? ==>
              var classes := s.model.value.classes;
              r.1.value == Prediction(classes[ArgMax(p)], p[ArgMax(p)], ProbabilityMap(classes, p))
              && Smoothing(r.0.history, r.0.currentExercise, r.0.confidence)
                 == Smooth(Smoothing(s.history, s.currentExercise, s.confidence), r.1.value.exercise, r.1.value.confidence)
    ensures r.0.(history := s.history, currentExercise := s.currentExercise, confidence := s.confidence) == s
  {
    if !Due(s, force) then (s, None)
    else
      var info := s.model.value;
      if !Shaped(s.buffer, info.nFeatures) || !Readable(info.classes, p) then (s, None)
      else
        var i := ArgMax(p);
        var prediction := Prediction(info.classes[i], p[i], ProbabilityMap(info.classes, p));
        var sm := Smooth(Smoothing(s.history, s.currentExercise, s.confidence), prediction.exercise, prediction.confidence);
        (s.(history := sm.history, currentExercise := sm.current, confidence := sm.confidence), Some(prediction))
  }

  /** `reset`: the buffer, the frame count and the current exercise are cleared; the history is kept. */
  function Cleared(s: ClassifierState): (r: ClassifierState)
    requires Consistent(s)
    ensures Consistent(r)
    ensures r.buffer == [] && r.frameCount == 0 && r.currentExercise.None? && r.confidence == 0.0
    ensures r.history == s.history && r.model == s.model && r.bufferCap == s.bufferCap
  {
    s.(buffer := [], frameCount := 0, currentExercise := None, confidence := 0.0)
  }

  /** `is_ready`: a model is loaded and thirty frames are buffered. */
  predicate IsReady(s: ClassifierState): (ready: bool)
    ensures ready <==> Due(s, true)
  {
    s.model.Some? && |s.buffer| >= MIN_FRAMES
  }

  /**
   * After a reset the classifier is not ready again until thirty frames
   * have been added, and an unforced prediction then falls due exactly
   * when the number of frames added is a multiple of fifteen.
   */
  lemma {:induction false} ReadyAfterFrames(s: ClassifierState, frames: seq<seq<Landmark>>)
    requires Consistent(s) && s.model.Some? && s.bufferCap >= MIN_FRAMES
    ensures var r := AddFrames(Cleared(s), frames);
            && (IsReady(r) <==> |frames| >= MIN_FRAMES)
            && (Due(r, false) <==> |frames| >= MIN_FRAMES && |frames| % PREDICTION_INTERVAL == 0)
  {
    var c := Cleared(s);
    AddFramesLength(c, frames);
    var r := AddFrames(c, frames);
    assert r.model.Some? && r.frameCount == |frames|;
    assert |r.buffer| == Filled(0, |frames|, s.bufferCap);
  }

  function AddFrames(s: ClassifierState, frames: seq<seq<Landmark>>): (r: ClassifierState)
    requires Consistent(s)
    ensures Consistent(r)
    decreases |frames|
  {
    if frames == [] then s else AddFrames(WithFrame(s, frames[0]), frames[1..])
  }

  /** The size of a buffer of capacity `cap` holding `n` frames after `k` more were added. */
  function Filled(n: nat, k: nat, cap: nat): nat {
    if n + k < cap then n + k else cap
  }

  lemma WithFrameLength(s: ClassifierState, kps: seq<Landmark>)
    requires Consistent(s)
    ensures |WithFrame(s, kps).buffer| == Filled(|s.buffer|, 1, s.bufferCap)
  {
  }

  lemma {:induction false} AddFramesLength(s: ClassifierState, frames: seq<seq<Landmark>>)
    requires Consistent(s)
    ensures AddFrames(s, frames).model == s.model
    ensures AddFrames(s, frames).bufferCap == s.bufferCap
    ensures AddFrames(s, frames).frameCount == s.frameCount + |frames|
    ensures |AddFrames(s, frames).buffer| == Filled(|s.buffer|, |frames|, s.bufferCap)
    decreases |frames|
  {
    if frames != [] {
      var t := WithFrame(s, frames[0]);
      WithFrameLength(s, frames[0]);
      AddFramesLength(t, frames[1..]);
    }
  }

  class ExerciseClassifier {
    var model: Option<ModelInfo>
    var frameBuffer: seq<seq<real>>
    var bufferCap: nat
    var frameCount: nat
    var currentExercise: Option<string>
    var confidence: real
    var predictionHistory: seq<string>

    function State(): ClassifierState
      reads this
    {
      ClassifierState(model, frameBuffer, bufferCap, frameCount, currentExercise, confidence, predictionHistory)
    }

    /** A classifier without a model; loading one from disk is `LoadModel`. */
    constructor ()
      ensures State() == Initial()
    {
      model := None;
      frameBuffer := [];
      bufferCap := DEFAULT_BUFFER_SIZE;
      frameCount := 0;
      currentExercise := None;
      confidence := 0.0;
      predictionHistory := [];
    }

    method LoadModel(info: ModelInfo) returns (ok: bool)
      modifies this
      ensures ok
      ensures State() == Loaded(old(State()), info)
    {
      model := Some(info);
      frameBuffer := [];
      bufferCap := info.maxSequenceLength;
      ok := true;
    }

    /** `extract_features_from_keypoints`. */
    method ExtractFeatures(kps: seq<Landmark>) returns (features: seq<real>)
      ensures features == Features(kps)
    {
      features := [];
      var i := 0;
      while i < |kps|
        invariant 0 <= i <= |kps|
        invariant features == Features(kps[..i])
      {
        var k := kps[i];
        assert kps[..i + 1][..i] == kps[..i];
        features := features + [k.x, k.y, k.visibility.GetOr(1.0)];
        i := i + 1;
      }
      assert kps[..i] == kps;
    }

    method AddFrame(kps: seq<Landmark>)
      requires Consistent(State())
      modifies this
      ensures State() == WithFrame(old(State()), kps)
    {
      var features := ExtractFeatures(kps);
      frameBuffer := Stats.Push(frameBuffer, features, bufferCap);
      frameCount := frameCount + 1;
    }

    /** `predict`, given the model's answer `p` to the current input. */
    method Predict(p: seq<real>, force: bool := false) returns (r: Option<Prediction>)
      requires Consistent(State())
      modifies this
      ensures (State(), r) == PredictStep(old(State()), force, p)
    {
      if model.None? || (!force && frameCount % PREDICTION_INTERVAL != 0) || |frameBuffer| < MIN_FRAMES {
        return None;
      }
      var info := model.value;
      if !Shaped(frameBuffer, info.nFeatures) || !Readable(info.classes, p) {
        return None;
      }
      var i := ArgMax(p);
      var name := info.classes[i];
      var c := p[i];
      r := Some(Prediction(name, c, ProbabilityMap(info.classes, p)));
      UpdateHistory(name, c);
    }

    /** The smoothing step of `predict`. */
    method UpdateHistory(name: string, c: real)
      requires |predictionHistory| <= HISTORY_SIZE
      modifies this`predictionHistory, this`currentExercise, this`confidence
      ensures Smoothing(predictionHistory, currentExercise, confidence)
              == Smooth(Smoothing(old(predictionHistory), old(currentExercise), old(confidence)), name, c)
    {
      if c >= CONFIDENCE_THRESHOLD {
        predictionHistory := Stats.Push(predictionHistory, name, HISTORY_SIZE);
        if |predictionHistory| == HISTORY_SIZE {
          var majority := Majority(predictionHistory);
          if majority.Some? {
            currentExercise := majority;
            confidence := c;
          }
        }
      } else {
        predictionHistory := [];
      }
    }

    method Reset()
      requires Consistent(State())
      modifies this
      ensures State() == Cleared(old(State()))
    {
      frameBuffer := [];
      frameCount := 0;
      currentExercise := None;
      confidence := 0.0;
    }
  }
}

=== FILE: feedback_generator.dfy ===
/**
 * The feedback generator: turns a quality score and the errors of a frame
 * into one coaching message, at most one new message every three seconds,
 * rotating the success messages; it keeps the last 50 messages, from which
 * it summarises the workout and counts messages by priority and colour.
 */
module FeedbackGeneration {
  import opened Wrappers
  import Stats
  import Tally
  import Text
  import PostureAnalysis

  const MIN_MESSAGE_INTERVAL: real := 3.0
  const HISTORY_CAP: nat := 50

  const SUCCESS_MESSAGES: seq<string> := [
    "✅ Parfait !",
    "✅ Excellent mouvement !",
    "✅ Très bien !",
    "✅ Continue comme ça !",
    "✅ Super forme !",
    "✅ Impeccable !"
  ]

  /** One message shown to the user; only messages about an error carry its type. */
  datatype Feedback = Feedback(message: string, color: string, icon: string, priority: string,
                               qualityScore: real, errorType: Option<string>)

  /** The rank of a severity: high 3, medium 2, anything else 1. */
  function Priority(severity: string): (p: nat)
    ensures 1 <= p <= 3
    ensures p == 3 <==> severity == "high"
    ensures p == 2 <==> severity == "medium"
  {
    if severity == "high" then 3 else if severity == "medium" then 2 else 1
  }

  /**
   * The position of the error a stable sort by decreasing priority puts
   * first: an error of the highest priority, and the earliest of those.
   */
  function FirstMaxPriority(errors: seq<PostureAnalysis.ErrorEvent>): (i: nat)
    requires errors != []
    ensures i < |errors|
    ensures forall j :: 0 <= j < |errors| ==> Priority(errors[j].severity) <= Priority(errors[i].severity)
    ensures forall j :: 0 <= j < i ==> Priority(errors[j].severity) < Priority(errors[i].severity)
    decreases |errors|
  {
    if |errors| == 1 then 0
    else
      var k := FirstMaxPriority(errors[..|errors| - 1]);
      if Priority(errors[|errors| - 1].severity) > Priority(errors[k].severity) then |errors| - 1 else k
  }

  /** `_get_highest_priority_error`, with its placeholder for an empty list. */
  function HighestPriorityError(errors: seq<PostureAnalysis.ErrorEvent>): (e: PostureAnalysis.ErrorEvent)
    ensures errors == [] ==> e == PostureAnalysis.ErrorEvent("unknown", "Position non détectée", "low", "⚪")
    ensures errors != [] ==> e in errors
    ensures forall j :: 0 <= j < |errors| ==> Priority(errors[j].severity) <= Priority(e.severity)
  {
    if errors == [] then PostureAnalysis.ErrorEvent("unknown", "Position non détectée", "low", "⚪")
    else errors[FirstMaxPriority(errors)]
  }

  /** `_severity_to_color`. */
  function SeverityColor(severity: string): (c: string)
    ensures c == "red" <==> severity == "high"
    ensures c == "orange" <==> severity == "medium"
    ensures c == "yellow" <==> severity == "low"
    ensures c == "gray" <==> severity !in {"high", "medium", "low"}
  {
    if severity == "high" then "red"
    else if severity == "medium" then "orange"
    else if severity == "low" then "yellow"
    else "gray"
  }

  const REPS_SUFFIX := " répétitions !"

  /** `_generate_success_message`'s text: every tenth rep is announced with its number. */
  function SuccessMessage(index: nat, repCount: int): (msg: string)
    requires index < |SUCCESS_MESSAGES|
    ensures SUCCESS_MESSAGES[index] <= msg
    ensures repCount > 0 && repCount % 10 == 0 <==> |msg| > |SUCCESS_MESSAGES[index]|
  {
    if repCount > 0 && repCount % 10 == 0 then
      SUCCESS_MESSAGES[index] + " " + Text.NatToString(repCount) + REPS_SUFFIX
    else SUCCESS_MESSAGES[index]
  }

  /** The number announced in a success message can be read back from it. */
  lemma SuccessMessageAnnouncesCount(index: nat, repCount: int)
    requires index < |SUCCESS_MESSAGES|
    requires repCount > 0 && repCount % 10 == 0
    ensures var msg := SuccessMessage(index, repCount);
            var digits := msg[|SUCCESS_MESSAGES[index]| + 1..|msg| - |REPS_SUFFIX|];
            Text.AllDigits(digits) && Text.ParseDigits(digits) == repCount
  {
    var digits := Text.NatToString(repCount);
    var msg := SUCCESS_MESSAGES[index] + " " + digits + REPS_SUFFIX;
    assert msg[|SUCCESS_MESSAGES[index]| + 1..|msg| - |REPS_SUFFIX|] == digits;
    Text.ParseNatToString(repCount);
  }

  /** The generator's state. */
  datatype GenState = GenState(lastMessageTime: real, currentMessage: Option<Feedback>,
                               messageHistory: seq<Feedback>, successIndex: nat)

  predicate Consistent(s: GenState) {
    s.successIndex < |SUCCESS_MESSAGES| && |s.messageHistory| <= HISTORY_CAP
  }

  function Initial(): GenState {
    GenState(0.0, None, [], 0)
  }

  /**
   * The message `generate_feedback` composes outside the cool-down, with
   * the next success index: a rotating success message for a score of 85
   * or more without errors, the most urgent error when there is one, and
   * otherwise an orange hint from 50 and a red warning below.
   */
  function Compose(quality: real, errors: seq<PostureAnalysis.ErrorEvent>, repCount: int, index: nat): (r: (Feedback, nat))
    requires index < |SUCCESS_MESSAGES|
    ensures r.1 < |SUCCESS_MESSAGES|
    ensures r.0.qualityScore == quality
    ensures r.0.errorType.Some? <==> errors != []
    ensures r.1 != index <==> quality >= 85.0 && errors == []
    ensures r.1 != index ==> r.1 == (index + 1) % |SUCCESS_MESSAGES|
                             && r.0 == Feedback(SuccessMessage(index, repCount), "green", "✅", "low", quality, None)
    ensures errors != [] ==>
              var e := HighestPriorityError(errors);
              r.0 == Feedback(e.message, SeverityColor(e.severity), e.icon, e.severity, quality, Some(e.kind))
    ensures errors == [] && 50.0 <= quality < 85.0 ==>
              r.0 == Feedback("💡 Maintiens cette qualité", "orange", "💡", "low", quality, None)
    ensures errors == [] && quality < 50.0 ==>
              r.0 == Feedback("🔴 Vérifie ta posture", "red", "🔴", "high", quality, None)
  {
    if quality >= 85.0 && errors == [] then
      assert |SUCCESS_MESSAGES| == 6;
      (Feedback(SuccessMessage(index, repCount), "green", "✅", "low", quality, None),
       (index + 1) % |SUCCESS_MESSAGES|)
    else if errors != [] then
      var e := HighestPriorityError(errors);
      (Feedback(e.message, SeverityColor(e.severity), e.icon, e.severity, quality, Some(e.kind)), index)
    else if quality >= 50.0 then
      (Feedback("💡 Maintiens cette qualité", "orange", "💡", "low", quality, None), index)
    else
      (Feedback("🔴 Vérifie ta posture", "red", "🔴", "high", quality, None), index)
  }

  /** Whether a call at time `now` falls within the cool-down of the last message. */
  predicate CoolingDown(s: GenState, now: real) {
    now - s.lastMessageTime < MIN_MESSAGE_INTERVAL
  }

  /**
   * `generate_feedback` at time `now`: within three seconds of the last
   * message the current one is returned again and nothing changes;
   * otherwise a new message becomes current and joins the history.
   */
  function FeedbackStep(s: GenState, quality: real, errors: seq<PostureAnalysis.ErrorEvent>, repCount: int, now: real)
    : (r: (GenState, Option<Feedback>))
    requires Consistent(s)
    ensures Consistent(r.0)
    ensures CoolingDown(s, now) ==> r == (s, s.currentMessage)
    ensures !CoolingDown(s, now) ==>
              r.1.Some? && r.0.currentMessage == r.1 && r.0.lastMessageTime == now
              && r.1.value == Compose(quality, errors, repCount, s.successIndex).0
              && r.0.messageHistory == Stats.Push(s.messageHistory, r.1.value, HISTORY_CAP)
              && r.0.successIndex == Compose(quality, errors, repCount, s.successIndex).1
  {
    if CoolingDown(s, now) then (s, s.currentMessage)
    else
      var (f, index) := Compose(quality, errors, repCount, s.successIndex);
      (GenState(now, Some(f), Stats.Push(s.messageHistory, f, HISTORY_CAP), index), Some(f))
  }

  /** The inputs of one call of `generate_feedback` (the exercise name is not used). */
  datatype Request = Request(quality: real, errors: seq<PostureAnalysis.ErrorEvent>, repCount: int, now: real)

  /** The state after a sequence of calls, and how many of them produced a new message. */
  function Run(s: GenState, requests: seq<Request>): (r: (GenState, nat))
    requires Consistent(s)
    ensures Consistent(r.0)
    decreases |requests|
  {
    if requests == [] then (s, 0)
    else
      var q := requests[0];
      var next := FeedbackStep(s, q.quality, q.errors, q.repCount, q.now).0;
      var rest := Run(next, requests[1..]);
      (rest.0, rest.1 + if CoolingDown(s, q.now) then 0 else 1)
  }

  /**
   * New messages are at least three seconds apart: after n of them the
   * time of the last is at least 3n seconds past the one before the run,
   * and the history holds the newest of them up to its capacity of 50.
   */
  lemma {:induction false} RunSpacing(s: GenState, requests: seq<Request>)
    requires Consistent(s)
    ensures Run(s, requests).0.lastMessageTime
            >= s.lastMessageTime + MIN_MESSAGE_INTERVAL * Run(s, requests).1 as real
    ensures |Run(s, requests).0.messageHistory|
            == if |s.messageHistory| + Run(s, requests).1 < HISTORY_CAP
               then |s.messageHistory| + Run(s, requests).1 else HISTORY_CAP
    decreases |requests|
  {
    if requests != [] {
      var q := requests[0];
      RunSpacing(FeedbackStep(s, q.quality, q.errors, q.repCount, q.now).0, requests[1..]);
    }
  }

  /** Six successes in a row go through all six success messages and back to the first. */
  lemma {:induction false} SuccessRotation(index: nat, k: nat)
    requires index < |SUCCESS_MESSAGES|
    ensures SuccessIndexAfter(index, k) == (index + k) % |SUCCESS_MESSAGES|
  {
    if k > 0 {
      SuccessRotation(index, k - 1);
      var prev := SuccessIndexAfter(index, k - 1);
      assert Compose(100.0, [], 0, prev).1 == (prev + 1) % |SUCCESS_MESSAGES|;
      NextModSix(index + k - 1);
    }
  }

  lemma NextModSix(a: nat)
    ensures (a % 6 + 1) % 6 == (a + 1) % 6
  {
  }

  /** The success index after `k` success messages. */
  function SuccessIndexAfter(index: nat, k: nat): (i: nat)
    requires index < |SUCCESS_MESSAGES|
    ensures i < |SUCCESS_MESSAGES|
  {
    if k == 0 then index
    else Compose(100.0, [], 0, SuccessIndexAfter(index, k - 1)).1
  }

  /** `force_message`: shown at once with medium priority, without entering the history. */
  function ForceMessage(s: GenState, message: string, now: real, color: string := "blue", icon: string := "💬")
    : (r: (GenState, Feedback))
    ensures r.0 == s.(currentMessage := Some(r.1), lastMessageTime := now)
    ensures r.1 == Feedback(message, color, icon, "medium", 50.0, None)
  {
    var f := Feedback(message, color, icon, "medium", 50.0, None);
    (s.(currentMessage := Some(f), lastMessageTime := now), f)
  }

  /** The milestone messages of `get_encouragement`, by repetition count. */
  const ENCOURAGEMENTS: map<int, string> := map[
    5 := "🎯 5 reps ! Tu démarres fort !",
    10 := "🔥 10 reps ! Continue !",
    15 := "💪 15 reps ! Tu gères !",
    20 := "⭐ 20 reps ! Incroyable !",
    25 := "🏆 25 reps ! Champion !",
    30 := "👑 30 reps ! Respect !",
    50 := "🚀 50 reps ! C'est énorme !"]

  /** `get_encouragement`: a message at 5, 10, 15, 20, 25, 30 and 50 reps only. */
  function Encouragement(repCount: int): (msg: Option<string>)
    ensures msg.Some? <==> repCount in {5, 10, 15, 20, 25, 30, 50}
    ensures repCount in ENCOURAGEMENTS ==> msg == Some(ENCOURAGEMENTS[repCount])
  {
    if repCount in ENCOURAGEMENTS then Some(ENCOURAGEMENTS[repCount]) else None
  }

  // ----- workout summary ---------------------------------------------------

  function Qualities(h: seq<Feedback>): (qs: seq<real>)
    ensures |qs| == |h| && forall i :: 0 <= i < |h| ==> qs[i] == h[i].qualityScore
  {
    seq(|h|, i requires 0 <= i < |h| => h[i].qualityScore)
  }

  /** The error types of the messages that carry one, in order. */
  function ErrorTypes(h: seq<Feedback>): seq<string> {
    if h == [] then []
    else
      var last := h[|h| - 1];
      ErrorTypes(h[..|h| - 1]) + (if last.errorType.Some? then [last.errorType.value] else [])
  }

  predicate IsSuccess(q: real) {
    q >= 85.0
  }

  /** A success (85 or more) is exactly a score in the excellent band. */
  lemma {:induction false} SuccessesAreExcellent(qs: seq<real>)
    ensures Stats.CountWhere(qs, IsSuccess) == Stats.CountBand(qs, Stats.Excellent)
  {
    if qs != [] {
      SuccessesAreExcellent(qs[1..]);
    }
  }

  datatype WorkoutSummary = WorkoutSummary(totalFeedback: nat, avgQuality: real, successRate: real,
                                           commonErrors: Tally.Counts,
                                           distribution: Option<Stats.Distribution>)

  /**
   * `get_workout_summary`: the number of messages, their mean score, the
   * share of successes, the three most frequent error types and the
   * distribution over the quality bands; an empty history has no
   * distribution.
   */
  function SummaryOf(h: seq<Feedback>): (r: WorkoutSummary)
    ensures h == [] ==> r == WorkoutSummary(0, 0.0, 0.0, [], None)
    ensures r.totalFeedback == |h|
    ensures h != [] ==>
              r.distribution == Some(Stats.DistributionOf(Qualities(h)))
              && r.successRate == Stats.Percent(r.distribution.value.excellent, |h|)
              && r.commonErrors == Tally.TopThree(Tally.BumpAll([], ErrorTypes(h)))
    ensures h != [] ==> r.avgQuality == Stats.Mean(Qualities(h))
    ensures 0.0 <= r.successRate <= 100.0
    ensures (forall i :: 0 <= i < |h| ==> 0.0 <= h[i].qualityScore <= 100.0) ==> 0.0 <= r.avgQuality <= 100.0
  {
    if h == [] then WorkoutSummary(0, 0.0, 0.0, [], None)
    else
      var qs := Qualities(h);
      var successes := Stats.CountWhere(qs, IsSuccess);
      SuccessesAreExcellent(qs);
      Stats.PartitionBands(qs);
      MeanScoreBounded(h);
      WorkoutSummary(|h|, Stats.Mean(qs), Stats.Percent(successes, |h|),
                     Tally.TopThree(Tally.BumpAll([], ErrorTypes(h))),
                     Some(Stats.DistributionOf(qs)))
  }

  lemma MeanScoreBounded(h: seq<Feedback>)
    requires h != []
    ensures (forall i :: 0 <= i < |h| ==> 0.0 <= h[i].qualityScore <= 100.0) ==>
            0.0 <= Stats.Mean(Qualities(h)) <= 100.0
  {
    if forall i :: 0 <= i < |h| ==> 0.0 <= h[i].qualityScore <= 100.0 {
      Stats.MeanBounds(Qualities(h), 0.0, 100.0);
    }
  }

  /**
   * The common errors are reported with their true number of occurrences
   * (that none left out occurs more often is TopThree's own contract).
   */
  lemma CommonErrorsCounted(h: seq<Feedback>)
    ensures var top := SummaryOf(h).commonErrors;
            forall i :: 0 <= i < |top| ==> top[i].1 == Tally.Occurrences(ErrorTypes(h), top[i].0)
  {
    var top := SummaryOf(h).commonErrors;
    forall i | 0 <= i < |top| ensures top[i].1 == Tally.Occurrences(ErrorTypes(h), top[i].0) {
      Tally.TopThreeCounts(ErrorTypes(h), top[i]);
    }
  }

  // ----- message statistics ------------------------------------------------

  datatype MessageStats =
    | NoMessages
    | MessageStats(total: nat, high: nat, medium: nat, low: nat, green: nat, orange: nat, red: nat)

  predicate IsHigh(f: Feedback) { f.priority == "high" }
  predicate IsMedium(f: Feedback) { f.priority == "medium" }
  predicate IsLow(f: Feedback) { f.priority == "low" }
  predicate IsGreen(f: Feedback) { f.color == "green" }
  predicate IsOrange(f: Feedback) { f.color == "orange" }
  predicate IsRed(f: Feedback) { f.color == "red" }

  /** `get_message_stats`: the number of messages by priority and by colour. */
  function MessageStatsOf(h: seq<Feedback>): (r: MessageStats)
    ensures r.NoMessages? <==> h == []
    ensures r.MessageStats? ==> r.total == |h| && r.high + r.medium + r.low <= r.total
    ensures r.MessageStats? ==> r.green + r.orange + r.red <= r.total
    ensures r.MessageStats? ==>
              r.high == Stats.CountWhere(h, IsHigh) && r.medium == Stats.CountWhere(h, IsMedium)
              && r.low == Stats.CountWhere(h, IsLow)
    ensures r.MessageStats? ==>
              r.green == Stats.CountWhere(h, IsGreen) && r.orange == Stats.CountWhere(h, IsOrange)
              && r.red == Stats.CountWhere(h, IsRed)
  {
    if h == [] then NoMessages
    else
      PrioritiesPartition(h);
      ColoursPartition(h);
      MessageStats(|h|, Stats.CountWhere(h, IsHigh), Stats.CountWhere(h, IsMedium), Stats.CountWhere(h, IsLow),
                   Stats.CountWhere(h, IsGreen),
                   Stats.CountWhere(h, IsOrange),
                   Stats.CountWhere(h, IsRed))
  }

  /**
   * Every message counts under at most one priority, and under exactly one
   * when all priorities are high, medium or low, as those of generated
   * messages are for the analyzer's errors.
   */
  lemma {:induction false} PrioritiesPartition(h: seq<Feedback>)
    ensures Stats.CountWhere(h, IsHigh) + Stats.CountWhere(h, IsMedium) + Stats.CountWhere(h, IsLow) <= |h|
    ensures (forall i :: 0 <= i < |h| ==> h[i].priority in {"high", "medium", "low"}) ==>
            Stats.CountWhere(h, IsHigh) + Stats.CountWhere(h, IsMedium) + Stats.CountWhere(h, IsLow) == |h|
  {
    if h != [] {
      PrioritiesPartition(h[1..]);
    }
  }

  lemma {:induction false} ColoursPartition(h: seq<Feedback>)
    ensures Stats.CountWhere(h, IsGreen)
            + Stats.CountWhere(h, IsOrange)
            + Stats.CountWhere(h, IsRed) <= |h|
  {
    if h != [] {
      ColoursPartition(h[1..]);
    }
  }

  class FeedbackGenerator {
    var lastMessageTime: real
    var currentMessage: Option<Feedback>
    var messageHistory: seq<Feedback>
    var successIndex: nat

    function State(): GenState
      reads this
    {
      GenState(lastMessageTime, currentMessage, messageHistory, successIndex)
    }

    constructor ()
      ensures State() == Initial()
    {
      lastMessageTime := 0.0;
      currentMessage := None;
      messageHistory := [];
      successIndex := 0;
    }

    /** `_generate_success_message`: takes the next success message and advances the rotation. */
    method NextSuccessMessage(repCount: int) returns (msg: string)
      requires successIndex < |SUCCESS_MESSAGES|
      modifies this`successIndex
      ensures msg == SuccessMessage(old(successIndex), repCount)
      ensures successIndex == (old(successIndex) + 1) % |SUCCESS_MESSAGES|
    {
      msg := SUCCESS_MESSAGES[successIndex];
      successIndex := (successIndex + 1) % |SUCCESS_MESSAGES|;
      if repCount > 0 && repCount % 10 == 0 {
        msg := msg + " " + Text.NatToString(repCount) + REPS_SUFFIX;
      }
    }

    /** `generate_feedback` at time `now`. */
    method GenerateFeedback(quality: real, errors: seq<PostureAnalysis.ErrorEvent>, exercise: string, repCount: int, now: real)
      returns (f: Option<Feedback>)
      requires Consistent(State())
      modifies this
      ensures (State(), f) == FeedbackStep(old(State()), quality, errors, repCount, now)
    {
      if now - lastMessageTime < MIN_MESSAGE_INTERVAL {
        return currentMessage;
      }
      var feedback: Feedback;
      if quality >= 85.0 && errors == [] {
        var message := NextSuccessMessage(repCount);
        feedback := Feedback(message, "green", "✅", "low", quality, None);
      } else if errors != [] {
        var e := HighestPriorityError(errors);
        feedback := Feedback(e.message, SeverityColor(e.severity), e.icon, e.severity, quality, Some(e.kind));
      } else if quality >= 50.0 {
        feedback := Feedback("💡 Maintiens cette qualité", "orange", "💡", "low", quality, None);
      } else {
        feedback := Feedback("🔴 Vérifie ta posture", "red", "🔴", "high", quality, None);
      }
      currentMessage := Some(feedback);
      lastMessageTime := now;
      messageHistory := Stats.Push(messageHistory, feedback, HISTORY_CAP);
      f := Some(feedback);
    }

    /** The counting loop of `get_workout_summary`. */
    method CountErrorTypes() returns (counts: Tally.Counts)
      ensures counts == Tally.BumpAll([], ErrorTypes(messageHistory))
    {
      counts := [];
      var i := 0;
      while i < |messageHistory|
        invariant 0 <= i <= |messageHistory|
        invariant counts == Tally.BumpAll([], ErrorTypes(messageHistory[..i]))
      {
        var msg := messageHistory[i];
        assert messageHistory[..i + 1][..i] == messageHistory[..i];
        if msg.errorType.Some? {
          assert ErrorTypes(messageHistory[..i + 1]) == ErrorTypes(messageHistory[..i]) + [msg.errorType.value];
          Tally.BumpAllAppend([], ErrorTypes(messageHistory[..i]), msg.errorType.value);
          counts := Tally.Bump(counts, msg.errorType.value);
        } else {
          assert ErrorTypes(messageHistory[..i + 1]) == ErrorTypes(messageHistory[..i]);
        }
        i := i + 1;
      }
      assert messageHistory[..i] == messageHistory;
    }

    /** `get_workout_summary`. */
    method GetWorkoutSummary() returns (r: WorkoutSummary)
      ensures r == SummaryOf(messageHistory)
    {
      if messageHistory == [] {
        return WorkoutSummary(0, 0.0, 0.0, [], None);
      }
      var counts := CountErrorTypes();
      var qs := Qualities(messageHistory);
      SuccessesAreExcellent(qs);
      Stats.PartitionBands(qs);
      r := WorkoutSummary(|messageHistory|, Stats.Mean(qs),
                          Stats.Percent(Stats.CountWhere(qs, IsSuccess), |messageHistory|),
                          Tally.TopThree(counts), Some(Stats.DistributionOf(qs)));
    }

    /** `reset`. */
    method Reset()
      modifies this
      ensures State() == Initial()
    {
      lastMessageTime := 0.0;
      currentMessage := None;
      messageHistory := [];
      successIndex := 0;
    }

    /** `force_message` at time `now`. */
    method Force(message: string, now: real, color: string := "blue", icon: string := "💬") returns (f: Feedback)
      modifies this
      ensures (State(), f) == ForceMessage(old(State()), message, now, color, icon)
    {
      f := Feedback(message, color, icon, "medium", 50.0, None);
      currentMessage := Some(f);
      lastMessageTime := now;
    }

    /** `get_message_stats`. */
    function GetMessageStats(): (r: MessageStats)
      reads this
      ensures r == MessageStatsOf(messageHistory)
    {
      MessageStatsOf(messageHistory)
    }
  }
}

=== FILE: geometry.dfy ===
/**
 * Geometry over keypoints: joint angles, distances, the visibility test,
 * the body centre and the body alignment check.
 *
 * The angle at a vertex is computed from the clipped cosine of the two
 * rays through the inverse cosine; the floating-point kernel (dot product,
 * norms, arccos, conversion to degrees) is not modelled. It is a parameter
 * `m` of type AngleMeasure, of which exactly what the computation
 * guarantees is known: the result is in [0, 180] because the cosine is
 * clipped to [-1, 1] before the inverse cosine, and it does not change when
 * the two outer points are swapped, because the dot product and the
 * product of the norms are symmetric.
 */
module Geometry {
  import opened Pose

  /** The image-plane position of a keypoint: the only coordinates the angle reads. */
  function Planar(k: Keypoint): (real, real) {
    (k.x, k.y)
  }

  ghost predicate IsAngleMeasure(f: ((real, real), (real, real), (real, real)) -> real) {
    forall a, b, c :: 0.0 <= f(a, b, c) <= 180.0 && f(a, b, c) == f(c, b, a)
  }

  /**
   * An angle kernel over image-plane positions: degrees in [0, 180],
   * symmetric in the two outer points.
   */
  type AngleMeasure = f: ((real, real), (real, real), (real, real)) -> real | IsAngleMeasure(f)
    witness (a: (real, real), b: (real, real), c: (real, real)) => 90.0

  /**
   * `calculate_angle`: the angle at vertex b between the rays b→a and b→c,
   * in degrees, from the x and y coordinates alone.
   */
  function CalculateAngle(m: AngleMeasure, a: Keypoint, b: Keypoint, c: Keypoint): (deg: real)
    ensures 0.0 <= deg <= 180.0
    ensures deg == m(Planar(c), Planar(b), Planar(a))
  {
    m(Planar(a), Planar(b), Planar(c))
  }

  /** Swapping the outer points leaves the angle unchanged. */
  lemma AngleSymmetric(m: AngleMeasure, a: Keypoint, b: Keypoint, c: Keypoint)
    ensures CalculateAngle(m, a, b, c) == CalculateAngle(m, c, b, a)
  {
  }

  /** Depth, visibility, id and name do not enter the angle. */
  lemma AnglePlanar(m: AngleMeasure, a: Keypoint, b: Keypoint, c: Keypoint, a': Keypoint, b': Keypoint, c': Keypoint)
    requires a.x == a'.x && a.y == a'.y && b.x == b'.x && b.y == b'.y && c.x == c'.x && c.y == c'.y
    ensures CalculateAngle(m, a, b, c) == CalculateAngle(m, a', b', c')
  {
  }

  /** `calculate_knee_angle`: the angle at the knee between hip and ankle. */
  function KneeAngle(m: AngleMeasure, hip: Keypoint, knee: Keypoint, ankle: Keypoint): (deg: real)
    ensures deg == CalculateAngle(m, hip, knee, ankle)
    ensures 0.0 <= deg <= 180.0
  {
    CalculateAngle(m, hip, knee, ankle)
  }

  /** `calculate_elbow_angle`: the angle at the elbow between shoulder and wrist. */
  function ElbowAngle(m: AngleMeasure, shoulder: Keypoint, elbow: Keypoint, wrist: Keypoint): (deg: real)
    ensures deg == CalculateAngle(m, shoulder, elbow, wrist)
    ensures 0.0 <= deg <= 180.0
  {
    CalculateAngle(m, shoulder, elbow, wrist)
  }

  /** `calculate_hip_angle`: the angle at the hip between shoulder and knee. */
  function HipAngle(m: AngleMeasure, shoulder: Keypoint, hip: Keypoint, knee: Keypoint): (deg: real)
    ensures deg == CalculateAngle(m, shoulder, hip, knee)
    ensures 0.0 <= deg <= 180.0
  {
    CalculateAngle(m, shoulder, hip, knee)
  }

  function Abs(r: real): real {
    if r < 0.0 then -r else r
  }

  /** `calculate_vertical_distance`: the absolute difference of the y coordinates. */
  function VerticalDistance(a: Keypoint, b: Keypoint): (d: real)
    ensures d >= 0.0
    ensures d == a.y - b.y || d == b.y - a.y
  {
    Abs(a.y - b.y)
  }

  /** `calculate_horizontal_distance`: the absolute difference of the x coordinates. */
  function HorizontalDistance(a: Keypoint, b: Keypoint): (d: real)
    ensures d >= 0.0
    ensures d == a.x - b.x || d == b.x - a.x
  {
    Abs(a.x - b.x)
  }

  /** Both distances are symmetric, and zero between a point and itself. */
  lemma DistancesSymmetric(a: Keypoint, b: Keypoint)
    ensures VerticalDistance(a, b) == VerticalDistance(b, a)
    ensures HorizontalDistance(a, b) == HorizontalDistance(b, a)
    ensures VerticalDistance(a, a) == 0.0 && HorizontalDistance(a, a) == 0.0
  {
  }

  /** `is_keypoint_visible`: confidence at least `minVisibility`, 0.5 by default. */
  function IsKeypointVisible(k: Keypoint, minVisibility: real := 0.5): (visible: bool)
    ensures visible <==> IsVisible(k, minVisibility)
    ensures visible <==> k.visibility >= minVisibility
  {
    k.visibility >= minVisibility
  }

  /** `get_body_center`: the point halfway between the two hips. */
  function BodyCenter(leftHip: Keypoint, rightHip: Keypoint): (c: (real, real))
    ensures c.0 - leftHip.x == rightHip.x - c.0
    ensures c.1 - leftHip.y == rightHip.y - c.1
  {
    ((leftHip.x + rightHip.x) / 2.0, (leftHip.y + rightHip.y) / 2.0)
  }

  /** The point 0.1 above the hip that `calculate_body_alignment` measures against. */
  function VirtualTop(hip: Keypoint): Keypoint {
    Keypoint(-1, "virtual_top", hip.x, hip.y - 0.1, hip.z, 1.0)
  }

  /**
   * `calculate_body_alignment`: the deviation from a straight line is
   * |180 − angle(shoulder, hip, point above the hip)|, and the body is
   * aligned when it is at most `maxDeviation` (15 by default). The knee
   * argument is accepted and not used.
   */
  function BodyAlignment(m: AngleMeasure, shoulder: Keypoint, hip: Keypoint, knee: Keypoint,
                         maxDeviation: real := 15.0): (r: (bool, real))
    ensures 0.0 <= r.1 <= 180.0
    ensures r.1 == 180.0 - CalculateAngle(m, shoulder, hip, VirtualTop(hip))
    ensures r.0 <==> r.1 <= maxDeviation
  {
    var angle := CalculateAngle(m, shoulder, hip, VirtualTop(hip));
    var deviation := Abs(180.0 - angle);
    (deviation <= maxDeviation, deviation)
  }

  /** Which complete side of the body a counter takes its angles from. */
  datatype Side = BothSides | LeftSide | RightSide

  function Min(a: real, b: real): real { if a <= b then a else b }
  function Max(a: real, b: real): real { if a <= b then b else a }
}

=== FILE: pose.dfy ===
/**
 * Keypoints as the pose stage delivers them, and the pose detector's pure
 * helpers: pixel conversion, the landmark-to-keypoint mapping of `detect`,
 * look-up by name or id, export to records and the visibility test.
 */
module Pose {
  import opened Wrappers

  /** One tracked landmark: id, name, normalised x/y, relative depth z, confidence. */
  datatype Keypoint = Keypoint(id: int, name: string, x: real, y: real, z: real, visibility: real)

  /** A raw landmark from the pose-estimation library, before it is named. */
  datatype Landmark = Landmark(x: real, y: real, z: real, visibility: real)

  /** The 33 landmark names, indexed by landmark id. */
  const KEYPOINT_NAMES: seq<string> := [
    "nose",
    "left_eye_inner", "left_eye", "left_eye_outer",
    "right_eye_inner", "right_eye", "right_eye_outer",
    "left_ear", "right_ear",
    "mouth_left", "mouth_right",
    "left_shoulder", "right_shoulder",
    "left_elbow", "right_elbow",
    "left_wrist", "right_wrist",
    "left_pinky", "right_pinky",
    "left_index", "right_index",
    "left_thumb", "right_thumb",
    "left_hip", "right_hip",
    "left_knee", "right_knee",
    "left_ankle", "right_ankle",
    "left_heel", "right_heel",
    "left_foot_index", "right_foot_index"
  ]

  const LEFT_SHOULDER: nat := 11
  const RIGHT_SHOULDER: nat := 12
  const LEFT_ELBOW: nat := 13
  const RIGHT_ELBOW: nat := 14
  const LEFT_WRIST: nat := 15
  const RIGHT_WRIST: nat := 16
  const LEFT_HIP: nat := 23
  const RIGHT_HIP: nat := 24
  const LEFT_KNEE: nat := 25
  const RIGHT_KNEE: nat := 26
  const LEFT_ANKLE: nat := 27
  const RIGHT_ANKLE: nat := 28

  /** The table has 33 entries and the index constants name the landmarks they stand for. */
  lemma NameTable()
    ensures |KEYPOINT_NAMES| == 33
    ensures KEYPOINT_NAMES[LEFT_SHOULDER] == "left_shoulder" && KEYPOINT_NAMES[RIGHT_SHOULDER] == "right_shoulder"
    ensures KEYPOINT_NAMES[LEFT_ELBOW] == "left_elbow" && KEYPOINT_NAMES[RIGHT_ELBOW] == "right_elbow"
    ensures KEYPOINT_NAMES[LEFT_WRIST] == "left_wrist" && KEYPOINT_NAMES[RIGHT_WRIST] == "right_wrist"
    ensures KEYPOINT_NAMES[LEFT_HIP] == "left_hip" && KEYPOINT_NAMES[RIGHT_HIP] == "right_hip"
    ensures KEYPOINT_NAMES[LEFT_KNEE] == "left_knee" && KEYPOINT_NAMES[RIGHT_KNEE] == "right_knee"
    ensures KEYPOINT_NAMES[LEFT_ANKLE] == "left_ankle" && KEYPOINT_NAMES[RIGHT_ANKLE] == "right_ankle"
  {
  }

  /** Python's `int(r)` on a float: truncation toward zero. */
  function Trunc(r: real): (n: int)
    ensures r >= 0.0 ==> n as real <= r < n as real + 1.0
    ensures r < 0.0 ==> n as real - 1.0 < r <= n as real
  {
    if r >= 0.0 then r.Floor else -((-r).Floor)
  }

  /** One coordinate scaled by an image dimension and truncated; a normalised coordinate lands inside the image. */
  function ScaleToPixels(f: real, n: int): (p: int)
    ensures p == Trunc(f * n as real)
    ensures 0.0 <= f <= 1.0 && 0 <= n ==> 0 <= p <= n
  {
    var r := f * n as real;
    assert 0.0 <= f <= 1.0 && 0 <= n ==> 0.0 <= r <= n as real by {
      if 0.0 <= f <= 1.0 && 0 <= n {
        assert f * n as real <= 1.0 * n as real;
      }
    }
    assert 0.0 <= r ==> Trunc(r) as real <= r;
    Trunc(r)
  }

  /** `Keypoint.to_pixel_coords`: normalised coordinates scaled to the image and truncated toward zero. */
  function ToPixelCoords(k: Keypoint, width: int, height: int): (p: (int, int))
    ensures p == (ScaleToPixels(k.x, width), ScaleToPixels(k.y, height))
    ensures 0.0 <= k.x <= 1.0 && 0 <= width ==> 0 <= p.0 <= width
    ensures 0.0 <= k.y <= 1.0 && 0 <= height ==> 0 <= p.1 <= height
  {
    (ScaleToPixels(k.x, width), ScaleToPixels(k.y, height))
  }

  /** The centre of a 640×480 image is pixel (320, 240). */
  lemma PixelCoordsOfCentre(k: Keypoint)
    requires k.x == 0.5 && k.y == 0.5
    ensures ToPixelCoords(k, 640, 480) == (320, 240)
  {
    assert k.x * 640 as real == 320.0;
    assert k.y * 480 as real == 240.0;
  }

  /**
   * The landmark-to-keypoint mapping of `PoseDetector.detect`: no landmarks
   * gives None; otherwise landmark i becomes the keypoint with id i and the
   * i-th name, its coordinates and visibility copied.
   */
  function Detect(landmarks: Option<seq<Landmark>>): (r: Option<seq<Keypoint>>)
    requires landmarks.Some? ==> |landmarks.value| <= |KEYPOINT_NAMES|
    ensures r.Some? <==> landmarks.Some?
    ensures r.Some? ==> |r.value| == |landmarks.value|
    ensures r.Some? ==> forall i :: 0 <= i < |r.value| ==>
      var k := r.value[i];
      var l := landmarks.value[i];
      k.id == i && k.name == KEYPOINT_NAMES[i] &&
      k.x == l.x && k.y == l.y && k.z == l.z && k.visibility == l.visibility
  {
    match landmarks
    case None => None
    case Some(lms) =>
      Some(seq(|lms|, i requires 0 <= i < |lms| =>
        Keypoint(i, KEYPOINT_NAMES[i], lms[i].x, lms[i].y, lms[i].z, lms[i].visibility)))
  }

  /** The position of the first keypoint called `name`, or |kps| when there is none. */
  function FirstIndexOfName(kps: seq<Keypoint>, name: string): (i: nat)
    ensures i <= |kps|
    ensures i < |kps| ==> kps[i].name == name
    ensures forall j :: 0 <= j < i ==> kps[j].name != name
  {
    if kps == [] then 0
    else if kps[0].name == name then 0
    else 1 + FirstIndexOfName(kps[1..], name)
  }

  /** `PoseDetector.get_keypoint_by_name`: the first keypoint with that name, or None. */
  function GetKeypointByName(kps: seq<Keypoint>, name: string): (r: Option<Keypoint>)
    ensures r.None? <==> forall j :: 0 <= j < |kps| ==> kps[j].name != name
    ensures r.Some? ==> exists i :: 0 <= i < |kps| && kps[i] == r.value && r.value.name == name &&
                                    forall j :: 0 <= j < i ==> kps[j].name != name
  {
    var i := FirstIndexOfName(kps, name);
    if i < |kps| then Some(kps[i]) else None
  }

  /** Keypoints whose id is in `ids`, in their original order: `[kp for kp in kps if kp.id in ids]`. */
  function GetKeypointsByIds(kps: seq<Keypoint>, ids: seq<int>): (r: seq<Keypoint>)
    ensures |r| <= |kps|
    ensures forall k :: k in r ==> k in kps && k.id in ids
    ensures forall k :: multiset(r)[k] == if k.id in ids then multiset(kps)[k] else 0
    ensures IsSubsequence(r, kps)
  {
    if kps == [] then []
    else
      var rest := GetKeypointsByIds(kps[1..], ids);
      assert kps == [kps[0]] + kps[1..];
      if kps[0].id in ids then [kps[0]] + rest else rest
  }

  /** `a` is `b` with some entries removed, the rest kept in order. */
  ghost predicate IsSubsequence<T>(a: seq<T>, b: seq<T>) {
    if a == [] then true
    else if b == [] then false
    else (a[0] == b[0] && IsSubsequence(a[1..], b[1..])) || IsSubsequence(a, b[1..])
  }

  /** One entry of the dictionary `keypoints_to_dict` exports. */
  datatype KeypointRecord = KeypointRecord(id: int, name: string, x: real, y: real, z: real, visibility: real)

  /** `PoseDetector.keypoints_to_dict`: one record per keypoint, in order. */
  function KeypointsToDict(kps: seq<Keypoint>): (r: seq<KeypointRecord>)
    ensures |r| == |kps|
    ensures forall i :: 0 <= i < |kps| ==> r[i].id == kps[i].id && r[i].name == kps[i].name
  {
    seq(|kps|, i requires 0 <= i < |kps| =>
      KeypointRecord(kps[i].id, kps[i].name, kps[i].x, kps[i].y, kps[i].z, kps[i].visibility))
  }

  /** Reading the exported records back as keypoints. */
  function RecordsToKeypoints(recs: seq<KeypointRecord>): (r: seq<Keypoint>)
    ensures |r| == |recs|
  {
    seq(|recs|, i requires 0 <= i < |recs| =>
      Keypoint(recs[i].id, recs[i].name, recs[i].x, recs[i].y, recs[i].z, recs[i].visibility))
  }

  /** The export loses nothing: reading it back gives the keypoints, in order. */
  lemma ExportRoundTrip(kps: seq<Keypoint>)
    ensures RecordsToKeypoints(KeypointsToDict(kps)) == kps
  {
    var r := RecordsToKeypoints(KeypointsToDict(kps));
    forall i | 0 <= i < |kps| ensures r[i] == kps[i] {
    }
  }

  /** `PoseDetector.is_visible`: confidence at least the threshold (0.5 by default). */
  predicate IsVisible(k: Keypoint, threshold: real := 0.5): (visible: bool)
    ensures visible <==> k.visibility >= threshold
  {
    k.visibility >= threshold
  }

  /** Visibility is monotone in the threshold: what passes a threshold passes every lower one. */
  lemma VisibleAtLowerThreshold(k: Keypoint, t: real, t': real)
    requires t' <= t && IsVisible(k, t)
    ensures IsVisible(k, t') && (IsVisible(k, t) <==> k.visibility >= t)
  {
  }
}

=== FILE: posture_analyzer.dfy ===
/**
 * The posture analyzer: per-frame quality scores for squats and push-ups
 * with the error taxonomy (type, message, severity, icon), the bounded
 * history of scores, the per-type error counters, the average quality and
 * the quality categories.
 *
 * A frame with too few keypoints makes the source raise an index error,
 * which it catches: that path is modelled as a report with the
 * `detection_error` event and a score of 0, keeping whatever the analysis
 * had already found before the failing index.
 */
module PostureAnalysis {
  import opened Wrappers
  import opened Pose
  import opened Geometry
  import Stats
  import Tally
  import Text

  const HISTORY_CAP: nat := 100

  /** One detected posture problem. */
  datatype ErrorEvent = ErrorEvent(kind: string, message: string, severity: string, icon: string)

  /** The result of analysing one frame. */
  datatype QualityReport = QualityReport(qualityScore: real, errors: seq<ErrorEvent>,
                                         angles: map<string, Option<real>>)

  const DEPTH := ErrorEvent("depth", "Descends plus bas", "medium", "⚠️")
  const KNEE_ALIGNMENT := ErrorEvent("knee_alignment", "Équilibre tes genoux", "medium", "⚠️")
  const BACK_POSTURE := ErrorEvent("back_posture", "Garde le dos droit", "high", "🔴")
  const KNEE_FORWARD := ErrorEvent("knee_forward", "Genoux en arrière", "medium", "⚠️")
  const HIPS_LOW := ErrorEvent("hips_low", "Remonte les hanches", "high", "🔴")
  const HIPS_HIGH := ErrorEvent("hips_high", "Baisse les hanches", "high", "🔴")
  const ELBOW_SYMMETRY := ErrorEvent("elbow_symmetry", "Équilibre tes bras", "medium", "⚠️")
  const HAND_POSITION := ErrorEvent("hand_position", "Ajuste la largeur des mains", "low", "💡")
  const DETECTION_ERROR := ErrorEvent("detection_error", "Position non détectée", "low", "⚪")
  const UNSUPPORTED := ErrorEvent("unsupported", "Exercice non analysé", "low", "💡")

  /** The points an error type costs; types that are not posture faults cost nothing. */
  function Penalty(kind: string): real {
    if kind == "depth" then 20.0
    else if kind == "knee_alignment" || kind == "knee_forward" || kind == "elbow_symmetry" then 15.0
    else if kind == "back_posture" || kind == "hips_low" || kind == "hips_high" then 25.0
    else if kind == "hand_position" then 10.0
    else 0.0
  }

  /** What each posture fault costs. */
  lemma PenaltyValues()
    ensures Penalty(DEPTH.kind) == 20.0
    ensures Penalty(KNEE_ALIGNMENT.kind) == 15.0 && Penalty(KNEE_FORWARD.kind) == 15.0
    ensures Penalty(ELBOW_SYMMETRY.kind) == 15.0
    ensures Penalty(BACK_POSTURE.kind) == 25.0 && Penalty(HIPS_LOW.kind) == 25.0 && Penalty(HIPS_HIGH.kind) == 25.0
    ensures Penalty(HAND_POSITION.kind) == 10.0
  {
  }

  /** The summed penalties of a list of errors. */
  function TotalPenalty(errors: seq<ErrorEvent>): real {
    if errors == [] then 0.0
    else TotalPenalty(errors[..|errors| - 1]) + Penalty(errors[|errors| - 1].kind)
  }

  /** The error a test contributes: its event when the fault holds, nothing otherwise. */
  function Found(fault: bool, e: ErrorEvent): seq<ErrorEvent> {
    if fault then [e] else []
  }

  predicate HasKind(errors: seq<ErrorEvent>, kind: string) {
    exists i :: 0 <= i < |errors| && errors[i].kind == kind
  }

  /**
   * One test of an analysis: when `fault` holds, the error is recorded and
   * its penalty taken off the running score. Each test keeps the score
   * equal to 100 less the penalties recorded so far.
   */
  function Check(acc: (seq<ErrorEvent>, real), fault: bool, e: ErrorEvent): (r: (seq<ErrorEvent>, real))
    ensures r.1 + TotalPenalty(r.0) == acc.1 + TotalPenalty(acc.0)
    ensures fault ==> r.0 == acc.0 + [e] && r.1 == acc.1 - Penalty(e.kind)
    ensures !fault ==> r == acc
    ensures r.0 == acc.0 + Found(fault, e)
  {
    if fault then
      assert (acc.0 + [e])[..|acc.0|] == acc.0;
      (acc.0 + [e], acc.1 - Penalty(e.kind))
    else acc
  }

  /** A test adds its error type to those already found exactly when its fault holds. */
  lemma HasKindCheck(acc: (seq<ErrorEvent>, real), fault: bool, e: ErrorEvent, k: string)
    ensures HasKind(Check(acc, fault, e).0, k) <==> HasKind(acc.0, k) || (fault && e.kind == k)
  {
    if fault {
      var es := acc.0 + [e];
      if HasKind(acc.0, k) {
        var i :| 0 <= i < |acc.0| && acc.0[i].kind == k;
        assert es[i].kind == k;
      }
      if e.kind == k {
        assert es[|acc.0|].kind == k;
      }
      if HasKind(es, k) {
        var i :| 0 <= i < |es| && es[i].kind == k;
        if i < |acc.0| {
          assert acc.0[i].kind == k;
        }
      }
    }
  }

  // ----- squat -------------------------------------------------------------

  function LeftKneeAngle(m: AngleMeasure, kps: seq<Keypoint>): real requires 28 < |kps| {
    CalculateAngle(m, kps[LEFT_HIP], kps[LEFT_KNEE], kps[LEFT_ANKLE])
  }
  function RightKneeAngle(m: AngleMeasure, kps: seq<Keypoint>): real requires 28 < |kps| {
    CalculateAngle(m, kps[RIGHT_HIP], kps[RIGHT_KNEE], kps[RIGHT_ANKLE])
  }
  function MeanKneeAngle(m: AngleMeasure, kps: seq<Keypoint>): real requires 28 < |kps| {
    (LeftKneeAngle(m, kps) + RightKneeAngle(m, kps)) / 2.0
  }
  /** The angle at the left hip between the left shoulder and the left knee. */
  function BackAngle(m: AngleMeasure, kps: seq<Keypoint>): real requires 28 < |kps| {
    CalculateAngle(m, kps[LEFT_SHOULDER], kps[LEFT_HIP], kps[LEFT_KNEE])
  }

  predicate SquatTooShallow(m: AngleMeasure, kps: seq<Keypoint>) requires 28 < |kps| {
    MeanKneeAngle(m, kps) > 80.0 + 20.0
  }
  predicate KneesUnbalanced(m: AngleMeasure, kps: seq<Keypoint>) requires 28 < |kps| {
    Abs(LeftKneeAngle(m, kps) - RightKneeAngle(m, kps)) > 15.0
  }
  predicate BackBent(m: AngleMeasure, kps: seq<Keypoint>) requires 28 < |kps| {
    BackAngle(m, kps) < 150.0
  }
  predicate KneeOffAnkle(kps: seq<Keypoint>) requires 28 < |kps| {
    Abs(kps[LEFT_KNEE].x - kps[LEFT_ANKLE].x) > 0.1
  }

  /**
   * The tests of `analyze_squat` in order, from a score of 100: not deep
   * enough (mean knee angle above 100°, −20), knees unbalanced (more than
   * 15° apart, −15), back bent (below 150°, −25), left knee more than 0.1
   * ahead of or behind the ankle (−15).
   */
  function SquatChecks(m: AngleMeasure, kps: seq<Keypoint>): (r: (seq<ErrorEvent>, real))
    requires 28 < |kps|
    ensures r.1 == 100.0 - TotalPenalty(r.0)
    ensures 25.0 <= r.1 <= 100.0 && |r.0| <= 4
    ensures r.0 == Found(SquatTooShallow(m, kps), DEPTH) + Found(KneesUnbalanced(m, kps), KNEE_ALIGNMENT)
                   + Found(BackBent(m, kps), BACK_POSTURE) + Found(KneeOffAnkle(kps), KNEE_FORWARD)
  {
    PenaltyValues();
    var a1 := Check(([], 100.0), SquatTooShallow(m, kps), DEPTH);
    var a2 := Check(a1, KneesUnbalanced(m, kps), KNEE_ALIGNMENT);
    var a3 := Check(a2, BackBent(m, kps), BACK_POSTURE);
    var a4 := Check(a3, KneeOffAnkle(kps), KNEE_FORWARD);
    assert a2.0 == Found(SquatTooShallow(m, kps), DEPTH) + Found(KneesUnbalanced(m, kps), KNEE_ALIGNMENT);
    a4
  }

  /** An error type is among a squat's errors exactly when the test adding it fails. */
  lemma SquatKindFound(m: AngleMeasure, kps: seq<Keypoint>, k: string)
    requires 28 < |kps|
    ensures HasKind(SquatChecks(m, kps).0, k) <==>
              (SquatTooShallow(m, kps) && k == "depth") || (KneesUnbalanced(m, kps) && k == "knee_alignment")
              || (BackBent(m, kps) && k == "back_posture") || (KneeOffAnkle(kps) && k == "knee_forward")
  {
    var a0: (seq<ErrorEvent>, real) := ([], 100.0);
    var a1 := Check(a0, SquatTooShallow(m, kps), DEPTH);
    var a2 := Check(a1, KneesUnbalanced(m, kps), KNEE_ALIGNMENT);
    var a3 := Check(a2, BackBent(m, kps), BACK_POSTURE);
    HasKindCheck(a0, SquatTooShallow(m, kps), DEPTH, k);
    HasKindCheck(a1, KneesUnbalanced(m, kps), KNEE_ALIGNMENT, k);
    HasKindCheck(a2, BackBent(m, kps), BACK_POSTURE, k);
    HasKindCheck(a3, KneeOffAnkle(kps), KNEE_FORWARD, k);
  }

  /** Each error type of a squat is reported exactly when its fault is present. */
  lemma SquatFaults(m: AngleMeasure, kps: seq<Keypoint>)
    requires 28 < |kps|
    ensures var es := SquatChecks(m, kps).0;
            (HasKind(es, "depth") <==> SquatTooShallow(m, kps))
            && (HasKind(es, "knee_alignment") <==> KneesUnbalanced(m, kps))
            && (HasKind(es, "back_posture") <==> BackBent(m, kps))
            && (HasKind(es, "knee_forward") <==> KneeOffAnkle(kps))
            && !HasKind(es, "detection_error")
  {
    SquatKindFound(m, kps, "depth");
    SquatKindFound(m, kps, "knee_alignment");
    SquatKindFound(m, kps, "back_posture");
    SquatKindFound(m, kps, "knee_forward");
    SquatKindFound(m, kps, "detection_error");
  }

  /** `analyze_squat`; with 28 keypoints or fewer the knee angles cannot be taken. */
  function SquatReport(m: AngleMeasure, kps: seq<Keypoint>): (r: QualityReport)
    ensures |kps| <= 28 ==> r == QualityReport(0.0, [DETECTION_ERROR], map["knee" := None])
    ensures 28 < |kps| ==> r.angles == map["knee" := Some(MeanKneeAngle(m, kps))]
    ensures 28 < |kps| ==> r.errors == SquatChecks(m, kps).0
    ensures 28 < |kps| ==> r.qualityScore == 100.0 - TotalPenalty(r.errors)
    ensures 0.0 <= r.qualityScore <= 100.0
  {
    if |kps| <= 28 then QualityReport(0.0, [DETECTION_ERROR], map["knee" := None])
    else
      var checked := SquatChecks(m, kps);
      QualityReport(checked.1, checked.0, map["knee" := Some(MeanKneeAngle(m, kps))])
  }

  // ----- push-up -----------------------------------------------------------

  function LeftElbowAngle(m: AngleMeasure, kps: seq<Keypoint>): real requires 16 < |kps| {
    CalculateAngle(m, kps[LEFT_SHOULDER], kps[LEFT_ELBOW], kps[LEFT_WRIST])
  }
  function RightElbowAngle(m: AngleMeasure, kps: seq<Keypoint>): real requires 16 < |kps| {
    CalculateAngle(m, kps[RIGHT_SHOULDER], kps[RIGHT_ELBOW], kps[RIGHT_WRIST])
  }
  function MeanElbowAngle(m: AngleMeasure, kps: seq<Keypoint>): real requires 16 < |kps| {
    (LeftElbowAngle(m, kps) + RightElbowAngle(m, kps)) / 2.0
  }

  function ShoulderY(kps: seq<Keypoint>): real requires 28 < |kps| {
    (kps[LEFT_SHOULDER].y + kps[RIGHT_SHOULDER].y) / 2.0
  }
  function HipY(kps: seq<Keypoint>): real requires 28 < |kps| {
    (kps[LEFT_HIP].y + kps[RIGHT_HIP].y) / 2.0
  }
  function AnkleY(kps: seq<Keypoint>): real requires 28 < |kps| {
    (kps[LEFT_ANKLE].y + kps[RIGHT_ANKLE].y) / 2.0
  }
  /** Hips more than 0.1 above or below the line from shoulders to ankles. */
  predicate HipsOffLine(kps: seq<Keypoint>) requires 28 < |kps| {
    Abs(HipY(kps) - (ShoulderY(kps) + AnkleY(kps)) / 2.0) > 0.1
  }
  /** Hands narrower than 0.8 or wider than 1.5 shoulder widths. */
  predicate HandsMisplaced(kps: seq<Keypoint>) requires 28 < |kps| {
    var hands := Abs(kps[RIGHT_WRIST].x - kps[LEFT_WRIST].x);
    var shoulders := Abs(kps[RIGHT_SHOULDER].x - kps[LEFT_SHOULDER].x);
    hands < shoulders * 0.8 || hands > shoulders * 1.5
  }

  predicate PushUpTooShallow(m: AngleMeasure, kps: seq<Keypoint>) requires 16 < |kps| {
    MeanElbowAngle(m, kps) > 70.0 + 30.0
  }
  predicate HipsLow(kps: seq<Keypoint>) requires 28 < |kps| {
    HipsOffLine(kps) && HipY(kps) < ShoulderY(kps)
  }
  predicate HipsHigh(kps: seq<Keypoint>) requires 28 < |kps| {
    HipsOffLine(kps) && !(HipY(kps) < ShoulderY(kps))
  }
  predicate ElbowsUnbalanced(m: AngleMeasure, kps: seq<Keypoint>) requires 16 < |kps| {
    Abs(LeftElbowAngle(m, kps) - RightElbowAngle(m, kps)) > 15.0
  }

  /**
   * The tests of `analyze_pushup` after the depth test, in order: hips off
   * the shoulder–ankle line (−25, "hips_low" when the hips are above the
   * shoulders in the image, "hips_high" otherwise), arms unbalanced (more
   * than 15° apart, −15), hands too narrow or too wide (−10).
   */
  function PushUpChecks(m: AngleMeasure, kps: seq<Keypoint>): (r: (seq<ErrorEvent>, real))
    requires 28 < |kps|
    ensures r.1 == 100.0 - TotalPenalty(r.0)
    ensures 30.0 <= r.1 <= 100.0 && |r.0| <= 4
    ensures r.0 == Found(PushUpTooShallow(m, kps), DEPTH) + Found(HipsLow(kps), HIPS_LOW)
                   + Found(HipsHigh(kps), HIPS_HIGH) + Found(ElbowsUnbalanced(m, kps), ELBOW_SYMMETRY)
                   + Found(HandsMisplaced(kps), HAND_POSITION)
  {
    PenaltyValues();
    var a1 := Check(([], 100.0), PushUpTooShallow(m, kps), DEPTH);
    var a2 := Check(a1, HipsLow(kps), HIPS_LOW);
    var a3 := Check(a2, HipsHigh(kps), HIPS_HIGH);
    assert 55.0 <= a3.1 && |a3.0| <= 2;
    var a4 := Check(a3, ElbowsUnbalanced(m, kps), ELBOW_SYMMETRY);
    var a5 := Check(a4, HandsMisplaced(kps), HAND_POSITION);
    assert a2.0 == Found(PushUpTooShallow(m, kps), DEPTH) + Found(HipsLow(kps), HIPS_LOW);
    a5
  }

  /** An error type is among a push-up's errors exactly when one of the tests adding it fails. */
  lemma PushUpKindFound(m: AngleMeasure, kps: seq<Keypoint>, k: string)
    requires 28 < |kps|
    ensures HasKind(PushUpChecks(m, kps).0, k) <==>
              (PushUpTooShallow(m, kps) && k == "depth") || (HipsLow(kps) && k == "hips_low")
              || (HipsHigh(kps) && k == "hips_high") || (ElbowsUnbalanced(m, kps) && k == "elbow_symmetry")
              || (HandsMisplaced(kps) && k == "hand_position")
  {
    var a0: (seq<ErrorEvent>, real) := ([], 100.0);
    var a1 := Check(a0, PushUpTooShallow(m, kps), DEPTH);
    var a2 := Check(a1, HipsLow(kps), HIPS_LOW);
    var a3 := Check(a2, HipsHigh(kps), HIPS_HIGH);
    var a4 := Check(a3, ElbowsUnbalanced(m, kps), ELBOW_SYMMETRY);
    HasKindCheck(a0, PushUpTooShallow(m, kps), DEPTH, k);
    HasKindCheck(a1, HipsLow(kps), HIPS_LOW, k);
    HasKindCheck(a2, HipsHigh(kps), HIPS_HIGH, k);
    HasKindCheck(a3, ElbowsUnbalanced(m, kps), ELBOW_SYMMETRY, k);
    HasKindCheck(a4, HandsMisplaced(kps), HAND_POSITION, k);
  }

  /**
   * Each error type of a push-up is reported exactly when its fault is
   * present, and the hips are never reported both low and high.
   */
  lemma PushUpFaults(m: AngleMeasure, kps: seq<Keypoint>)
    requires 28 < |kps|
    ensures var es := PushUpChecks(m, kps).0;
            (HasKind(es, "depth") <==> PushUpTooShallow(m, kps))
            && (HasKind(es, "hips_low") <==> HipsLow(kps))
            && (HasKind(es, "hips_high") <==> HipsHigh(kps))
            && !(HasKind(es, "hips_low") && HasKind(es, "hips_high"))
            && (HasKind(es, "elbow_symmetry") <==> ElbowsUnbalanced(m, kps))
            && (HasKind(es, "hand_position") <==> HandsMisplaced(kps))
            && !HasKind(es, "detection_error")
  {
    PushUpKindFound(m, kps, "depth");
    PushUpKindFound(m, kps, "hips_low");
    PushUpKindFound(m, kps, "hips_high");
    PushUpKindFound(m, kps, "elbow_symmetry");
    PushUpKindFound(m, kps, "hand_position");
    PushUpKindFound(m, kps, "detection_error");
  }

  /**
   * `analyze_pushup`. With 16 keypoints or fewer the elbow angles cannot be
   * taken; with 17 to 28 the elbow angle and the depth test are done before
   * the failing index, so the depth error is kept beside `detection_error`.
   */
  function PushUpReport(m: AngleMeasure, kps: seq<Keypoint>): (r: QualityReport)
    ensures |kps| <= 16 ==> r == QualityReport(0.0, [DETECTION_ERROR], map["elbow" := None])
    ensures 16 < |kps| <= 28 ==>
              r.qualityScore == 0.0 && r.angles == map["elbow" := Some(MeanElbowAngle(m, kps))]
              && r.errors == (if PushUpTooShallow(m, kps) then [DEPTH] else []) + [DETECTION_ERROR]
    ensures 28 < |kps| ==> r.angles == map["elbow" := Some(MeanElbowAngle(m, kps))]
    ensures 28 < |kps| ==> r.errors == PushUpChecks(m, kps).0
    ensures 28 < |kps| ==> r.qualityScore == 100.0 - TotalPenalty(r.errors)
    ensures 0.0 <= r.qualityScore <= 100.0
  {
    if |kps| <= 16 then QualityReport(0.0, [DETECTION_ERROR], map["elbow" := None])
    else if |kps| <= 28 then
      var a1 := Check(([], 100.0), PushUpTooShallow(m, kps), DEPTH);
      QualityReport(0.0, a1.0 + [DETECTION_ERROR], map["elbow" := Some(MeanElbowAngle(m, kps))])
    else
      var checked := PushUpChecks(m, kps);
      QualityReport(checked.1, checked.0, map["elbow" := Some(MeanElbowAngle(m, kps))])
  }

  // ----- dispatch ----------------------------------------------------------

  datatype ExerciseKind = SquatKind | PushUpKind | Unsupported

  /** `analyze`'s choice: case-insensitively, "squat" first, then "push" or "pompe". */
  function KindOf(exercise: string): (k: ExerciseKind)
    ensures k == SquatKind <==> Text.Contains(Text.ToLower(exercise), "squat")
    ensures k == PushUpKind <==> !Text.Contains(Text.ToLower(exercise), "squat")
                                 && (Text.Contains(Text.ToLower(exercise), "push")
                                     || Text.Contains(Text.ToLower(exercise), "pompe"))
  {
    var lower := Text.ToLower(exercise);
    if Text.Contains(lower, "squat") then SquatKind
    else if Text.Contains(lower, "push") || Text.Contains(lower, "pompe") then PushUpKind
    else Unsupported
  }

  /** Names as the interface passes them: any capitalisation, English or French. */
  lemma SquatName()
    ensures KindOf("Squat") == SquatKind
  {
  }

  lemma PushUpName()
    ensures KindOf("Push-up") == PushUpKind
  {
    assert Text.ToLower("Push-up") == "push-up";
    assert Text.OccursAt("push-up", "push", 0);
    forall i ensures !Text.OccursAt("push-up", "squat", i) {
      if 0 <= i < 2 {
        Text.MismatchAt("push-up", "squat", i, 0);
      } else if i == 2 {
        Text.MismatchAt("push-up", "squat", i, 1);
      }
    }
  }

  lemma PompesName()
    ensures KindOf("Pompes") == PushUpKind
  {
    assert Text.ToLower("Pompes") == "pompes";
    assert Text.OccursAt("pompes", "pompe", 0);
    forall i ensures !Text.OccursAt("pompes", "squat", i) {
      if 0 <= i <= 1 {
        Text.MismatchAt("pompes", "squat", i, 0);
      }
    }
  }

  lemma UnknownName()
    ensures KindOf("lunge") == Unsupported
  {
    assert Text.ToLower("lunge") == "lunge";
    forall i ensures !Text.OccursAt("lunge", "squat", i) && !Text.OccursAt("lunge", "push", i)
                     && !Text.OccursAt("lunge", "pompe", i) {
      if i == 0 {
        Text.MismatchAt("lunge", "squat", i, 0);
        Text.MismatchAt("lunge", "pompe", i, 0);
      }
      if 0 <= i <= 1 {
        Text.MismatchAt("lunge", "push", i, 0);
      }
    }
  }

  /** The neutral report for an exercise the analyzer does not know. */
  function UnsupportedReport(): QualityReport {
    QualityReport(50.0, [UNSUPPORTED], map[])
  }

  /** The report of `analyze` for an exercise name and a frame. */
  function Report(exercise: string, m: AngleMeasure, kps: seq<Keypoint>): (r: QualityReport)
    ensures KindOf(exercise) == Unsupported <==> r == UnsupportedReport()
    ensures KindOf(exercise) == SquatKind ==> r == SquatReport(m, kps)
    ensures KindOf(exercise) == PushUpKind ==> r == PushUpReport(m, kps)
    ensures 0.0 <= r.qualityScore <= 100.0
  {
    match KindOf(exercise)
    case SquatKind => SquatReport(m, kps)
    case PushUpKind => PushUpReport(m, kps)
    case Unsupported => UnsupportedReport()
  }

  /** The error types of a list of errors, in order. */
  function Kinds(errors: seq<ErrorEvent>): (ks: seq<string>)
    ensures |ks| == |errors| && forall i :: 0 <= i < |errors| ==> ks[i] == errors[i].kind
  {
    seq(|errors|, i requires 0 <= i < |errors| => errors[i].kind)
  }

  /** `get_quality_category`: the label and colour of a score. */
  function QualityCategory(score: real): (c: (string, string))
    ensures c == ("Excellent", "green") <==> Stats.BandOf(score) == Stats.Excellent
    ensures c == ("Bon", "lightgreen") <==> Stats.BandOf(score) == Stats.Good
    ensures c == ("Moyen", "orange") <==> Stats.BandOf(score) == Stats.Medium
    ensures c == ("À améliorer", "red") <==> Stats.BandOf(score) == Stats.Poor
  {
    if score >= 85.0 then ("Excellent", "green")
    else if score >= 70.0 then ("Bon", "lightgreen")
    else if score >= 50.0 then ("Moyen", "orange")
    else ("À améliorer", "red")
  }

  /** The scores `get_average_quality(lastN)` averages: Python's `h[-lastN:]`, the whole history when lastN is 0. */
  function Recent(h: seq<real>, lastN: nat): (r: seq<real>)
    ensures lastN == 0 || lastN >= |h| ==> r == h
    ensures 0 < lastN <= |h| ==> |r| == lastN && r == h[|h| - lastN..]
  {
    if lastN == 0 || lastN >= |h| then h else h[|h| - lastN..]
  }

  /** `get_average_quality`: the mean of the recent scores, 0 with no history. */
  function AverageQuality(h: seq<real>, lastN: nat): (avg: real)
    ensures h == [] ==> avg == 0.0
    ensures (forall i :: 0 <= i < |h| ==> 0.0 <= h[i] <= 100.0) ==> 0.0 <= avg <= 100.0
    ensures h != [] && (lastN == 0 || lastN >= |h|) ==> avg == Stats.Mean(h)
    ensures h != [] && 0 < lastN <= |h| ==> avg == Stats.Mean(h[|h| - lastN..])
  {
    if h == [] then 0.0
    else
      MeanRecentBounded(h, lastN);
      Stats.Mean(Recent(h, lastN))
  }

  lemma MeanRecentBounded(h: seq<real>, lastN: nat)
    requires h != []
    ensures (forall i :: 0 <= i < |h| ==> 0.0 <= h[i] <= 100.0) ==> 0.0 <= Stats.Mean(Recent(h, lastN)) <= 100.0
  {
    var r := Recent(h, lastN);
    if forall i :: 0 <= i < |h| ==> 0.0 <= h[i] <= 100.0 {
      assert forall i :: 0 <= i < |r| ==> r[i] == h[|h| - |r| + i];
      Stats.MeanBounds(r, 0.0, 100.0);
    }
  }

  /** The analyzer's state: the score history and the error counters. */
  datatype AnalyzerState = AnalyzerState(qualityHistory: seq<real>, errorCounts: Tally.Counts)

  predicate Consistent(s: AnalyzerState) {
    |s.qualityHistory| <= HISTORY_CAP
    && (forall i :: 0 <= i < |s.qualityHistory| ==> 0.0 <= s.qualityHistory[i] <= 100.0)
    && Tally.KeysUnique(s.errorCounts)
  }

  /**
   * The state after `analyze`: a supported exercise records its score in
   * the bounded history and counts each of its errors; an unsupported one
   * changes nothing.
   */
  function Record(s: AnalyzerState, exercise: string, m: AngleMeasure, kps: seq<Keypoint>): (s': AnalyzerState)
    requires |s.qualityHistory| <= HISTORY_CAP
    ensures KindOf(exercise) == Unsupported ==> s' == s
    ensures Consistent(s) ==> Consistent(s')
    ensures KindOf(exercise) != Unsupported ==>
              s'.qualityHistory == Stats.Push(s.qualityHistory, Report(exercise, m, kps).qualityScore, HISTORY_CAP)
              && s'.errorCounts == Tally.BumpAll(s.errorCounts, Kinds(Report(exercise, m, kps).errors))
    ensures KindOf(exercise) != Unsupported && Tally.KeysUnique(s.errorCounts) ==>
              forall k :: Tally.Lookup(s'.errorCounts, k)
                          == Tally.Lookup(s.errorCounts, k) + Tally.Occurrences(Kinds(Report(exercise, m, kps).errors), k)
  {
    if KindOf(exercise) == Unsupported then s
    else
      var r := Report(exercise, m, kps);
      var ks := Kinds(r.errors);
      assert forall k :: Tally.KeysUnique(s.errorCounts) ==>
        Tally.Lookup(Tally.BumpAll(s.errorCounts, ks), k) == Tally.Lookup(s.errorCounts, k) + Tally.Occurrences(ks, k) by {
        forall k | Tally.KeysUnique(s.errorCounts) {
          Tally.BumpAllCounts(s.errorCounts, ks, k);
        }
      }
      Stats.PushWithin(s.qualityHistory, r.qualityScore, HISTORY_CAP, 0.0, 100.0);
      AnalyzerState(Stats.Push(s.qualityHistory, r.qualityScore, HISTORY_CAP), Tally.BumpAll(s.errorCounts, ks))
  }

  class PostureAnalyzer {
    var qualityHistory: seq<real>
    var errorCounts: Tally.Counts

    function State(): AnalyzerState
      reads this
    {
      AnalyzerState(qualityHistory, errorCounts)
    }

    predicate Valid()
      reads this
    {
      Consistent(State())
    }

    constructor ()
      ensures Valid() && qualityHistory == [] && errorCounts == []
    {
      qualityHistory := [];
      errorCounts := [];
    }

    /** The loop that counts each error of a report under its type. */
    method CountErrors(errors: seq<ErrorEvent>)
      modifies this`errorCounts
      ensures errorCounts == Tally.BumpAll(old(errorCounts), Kinds(errors))
    {
      var i := 0;
      while i < |errors|
        invariant 0 <= i <= |errors|
        invariant errorCounts == Tally.BumpAll(old(errorCounts), Kinds(errors[..i]))
      {
        assert Kinds(errors[..i + 1]) == Kinds(errors[..i]) + [errors[i].kind];
        Tally.BumpAllAppend(old(errorCounts), Kinds(errors[..i]), errors[i].kind);
        errorCounts := Tally.Bump(errorCounts, errors[i].kind);
        i := i + 1;
      }
      assert errors[..i] == errors;
    }

    /** Appends a score to the history, dropping the oldest beyond 100 entries. */
    method RecordScore(score: real)
      requires |qualityHistory| <= HISTORY_CAP
      modifies this`qualityHistory
      ensures qualityHistory == Stats.Push(old(qualityHistory), score, HISTORY_CAP)
    {
      qualityHistory := qualityHistory + [score];
      if |qualityHistory| > HISTORY_CAP {
        qualityHistory := qualityHistory[1..];
      }
    }

    /** `analyze_squat`. */
    method AnalyzeSquat(m: AngleMeasure, kps: seq<Keypoint>) returns (r: QualityReport)
      requires Valid()
      modifies this
      ensures Valid()
      ensures r == SquatReport(m, kps)
      ensures qualityHistory == Stats.Push(old(qualityHistory), r.qualityScore, HISTORY_CAP)
      ensures errorCounts == Tally.BumpAll(old(errorCounts), Kinds(r.errors))
    {
      r := SquatReport(m, kps);
      Stats.PushWithin(qualityHistory, r.qualityScore, HISTORY_CAP, 0.0, 100.0);
      RecordScore(r.qualityScore);
      CountErrors(r.errors);
    }

    /** `analyze_pushup`. */
    method AnalyzePushUp(m: AngleMeasure, kps: seq<Keypoint>) returns (r: QualityReport)
      requires Valid()
      modifies this
      ensures Valid()
      ensures r == PushUpReport(m, kps)
      ensures qualityHistory == Stats.Push(old(qualityHistory), r.qualityScore, HISTORY_CAP)
      ensures errorCounts == Tally.BumpAll(old(errorCounts), Kinds(r.errors))
    {
      r := PushUpReport(m, kps);
      Stats.PushWithin(qualityHistory, r.qualityScore, HISTORY_CAP, 0.0, 100.0);
      RecordScore(r.qualityScore);
      CountErrors(r.errors);
    }

    /** `analyze`: dispatches on the exercise name. */
    method Analyze(exercise: string, m: AngleMeasure, kps: seq<Keypoint>) returns (r: QualityReport)
      requires Valid()
      modifies this
      ensures Valid()
      ensures r == Report(exercise, m, kps)
      ensures State() == Record(old(State()), exercise, m, kps)
    {
      var kind := KindOf(exercise);
      if kind == SquatKind {
        r := AnalyzeSquat(m, kps);
      } else if kind == PushUpKind {
        r := AnalyzePushUp(m, kps);
      } else {
        r := UnsupportedReport();
      }
    }

    /** `get_average_quality`. */
    function GetAverageQuality(lastN: nat := 10): (avg: real)
      reads this
      requires Valid()
      ensures 0.0 <= avg <= 100.0
      ensures avg == AverageQuality(qualityHistory, lastN)
    {
      AverageQuality(qualityHistory, lastN)
    }

    /** `get_error_summary`: the counts per error type. */
    function GetErrorSummary(): (c: Tally.Counts)
      reads this
      ensures c == errorCounts
    {
      errorCounts
    }

    /** `reset`. */
    method Reset()
      modifies this
      ensures Valid() && qualityHistory == [] && errorCounts == []
    {
      qualityHistory := [];
      errorCounts := [];
    }
  }
}

=== FILE: pushup_counter.dfy ===
/**
 * The push-up repetition counter: a frame gate (one complete side
 * visible), the elbow angle of the visible side(s), a four-phase state
 * machine on the elbow angle whose first phase is chosen from the first
 * accepted frame, a debounced count on the ASCENDING → UP transition,
 * per-rep metrics and the textual feedback of each phase.
 *
 * The counter's state is the class PushUpCounter; its `Update` is proved
 * against the pure step PushUpStep, about which the run lemmas are stated.
 */
module PushUpCounting {
  import opened Wrappers
  import opened Pose
  import opened Geometry
  import Stats

  const MIN_ELBOW_ANGLE: real := 100.0
  const MAX_ELBOW_ANGLE: real := 160.0
  const MIN_TIME_BETWEEN_REPS: real := 0.3

  const MSG_SHOW_PROFILE := "⚠️ Position toi de profil ou de face"

  datatype PushUpPhase = Up | Descending | Down | Ascending {
    /** The phase name reported to the caller. */
    function Value(): string {
      match this
      case Up => "position_haute"
      case Descending => "descente"
      case Down => "position_basse"
      case Ascending => "montée"
    }

    /** The phase that follows this one in a repetition. */
    function Next(): PushUpPhase {
      match this
      case Up => Descending
      case Descending => Down
      case Down => Ascending
      case Ascending => Up
    }

    /** Position in the cycle, UP being 0. */
    function Stage(): nat {
      match this
      case Up => 0
      case Descending => 1
      case Down => 2
      case Ascending => 3
    }
  }

  /** The reported phase name; a counter that has not seen a frame yet is initialising. */
  function PhaseName(p: Option<PushUpPhase>): (name: string)
    ensures p.Some? ==> name == p.value.Value()
    ensures name == "initialisation" <==> p.None?
  {
    match p
    case None => "initialisation"
    case Some(q) => q.Value()
  }

  datatype PushUpMetrics = PushUpMetrics(elbowAngle: real, bodyHeight: real, isValid: bool, feedback: string)

  function Seen(k: Keypoint): bool {
    IsKeypointVisible(k, 0.5)
  }

  predicate LeftSideVisible(kps: seq<Keypoint>)
    requires 24 < |kps|
  {
    Seen(kps[LEFT_SHOULDER]) && Seen(kps[LEFT_ELBOW]) && Seen(kps[LEFT_WRIST]) && Seen(kps[LEFT_HIP])
  }

  predicate RightSideVisible(kps: seq<Keypoint>)
    requires 24 < |kps|
  {
    Seen(kps[RIGHT_SHOULDER]) && Seen(kps[RIGHT_ELBOW]) && Seen(kps[RIGHT_WRIST]) && Seen(kps[RIGHT_HIP])
  }

  /** The side the elbow angle is taken from, absent when no side is completely visible. */
  function VisibleSide(kps: seq<Keypoint>): (side: Option<Side>)
    requires 24 < |kps|
    ensures side.None? <==> !LeftSideVisible(kps) && !RightSideVisible(kps)
    ensures side == Some(BothSides) <==> LeftSideVisible(kps) && RightSideVisible(kps)
    ensures side == Some(LeftSide) <==> LeftSideVisible(kps) && !RightSideVisible(kps)
    ensures side == Some(RightSide) <==> RightSideVisible(kps) && !LeftSideVisible(kps)
  {
    var left, right := LeftSideVisible(kps), RightSideVisible(kps);
    if left && right then Some(BothSides)
    else if left then Some(LeftSide)
    else if right then Some(RightSide)
    else None
  }

  function LeftElbow(m: AngleMeasure, kps: seq<Keypoint>): real requires 24 < |kps| {
    ElbowAngle(m, kps[LEFT_SHOULDER], kps[LEFT_ELBOW], kps[LEFT_WRIST])
  }
  function RightElbow(m: AngleMeasure, kps: seq<Keypoint>): real requires 24 < |kps| {
    ElbowAngle(m, kps[RIGHT_SHOULDER], kps[RIGHT_ELBOW], kps[RIGHT_WRIST])
  }

  /** The elbow angle of a frame: the mean of both sides when both are visible, else the visible side's. */
  function FrameElbowAngle(m: AngleMeasure, kps: seq<Keypoint>, side: Side): (e: real)
    requires 24 < |kps|
    ensures 0.0 <= e <= 180.0
    ensures side == BothSides ==>
              Min(LeftElbow(m, kps), RightElbow(m, kps)) <= e <= Max(LeftElbow(m, kps), RightElbow(m, kps))
    ensures side == BothSides ==> e - LeftElbow(m, kps) == RightElbow(m, kps) - e
    ensures side == LeftSide ==> e == LeftElbow(m, kps)
    ensures side == RightSide ==> e == RightElbow(m, kps)
  {
    match side
    case BothSides => (LeftElbow(m, kps) + RightElbow(m, kps)) / 2.0
    case LeftSide => LeftElbow(m, kps)
    case RightSide => RightElbow(m, kps)
  }

  /** The phase a fresh counter takes from its first accepted frame, before the normal transition. */
  function InitialPhase(elbow: real): (p: PushUpPhase)
    ensures p != Ascending
    ensures p == Up <==> elbow >= 150.0
    ensures p == Down <==> elbow <= 110.0
    ensures p == Descending <==> 110.0 < elbow < 150.0
  {
    if elbow >= MAX_ELBOW_ANGLE - 10.0 then Up
    else if elbow <= MIN_ELBOW_ANGLE + 10.0 then Down
    else Descending
  }

  /**
   * The normal transitions: UP leaves below 150°, DESCENDING reaches DOWN
   * at 100° or less, DOWN leaves above 105°, ASCENDING returns to UP at
   * 150° or more.
   */
  function Transition(p: PushUpPhase, elbow: real): (q: PushUpPhase)
    ensures q == p || q == p.Next()
    ensures q != p <==> match p
                        case Up => elbow < MAX_ELBOW_ANGLE - 10.0
                        case Descending => elbow <= MIN_ELBOW_ANGLE
                        case Down => elbow > MIN_ELBOW_ANGLE + 5.0
                        case Ascending => elbow >= MAX_ELBOW_ANGLE - 10.0
  {
    match p
    case Up => if elbow < MAX_ELBOW_ANGLE - 10.0 then Descending else p
    case Descending => if elbow <= MIN_ELBOW_ANGLE then Down else p
    case Down => if elbow > MIN_ELBOW_ANGLE + 5.0 then Ascending else p
    case Ascending => if elbow >= MAX_ELBOW_ANGLE - 10.0 then Up else p
  }

  /**
   * `_update_phase`: an established phase makes one normal transition at
   * most; on the first frame the phase is initialised and then the normal
   * transition applies in the same call, so the first phase is UP from
   * 150°, DESCENDING above 110°, ASCENDING above 105° and DOWN below.
   */
  function NextPhase(p: Option<PushUpPhase>, elbow: real): (q: PushUpPhase)
    ensures p.Some? ==> q == p.value || q == p.value.Next()
    ensures p.Some? ==> q == Transition(p.value, elbow)
    ensures p.None? ==> q == (if elbow >= MAX_ELBOW_ANGLE - 10.0 then Up
                              else if elbow > MIN_ELBOW_ANGLE + 10.0 then Descending
                              else if elbow > MIN_ELBOW_ANGLE + 5.0 then Ascending
                              else Down)
  {
    match p
    case None => Transition(InitialPhase(elbow), elbow)
    case Some(q) => Transition(q, elbow)
  }

  /** `_analyze_pushup`: validity and the metric's own remark. */
  function Analyze(elbow: real, bodyHeight: real): (mt: PushUpMetrics)
    ensures mt.elbowAngle == elbow && mt.bodyHeight == bodyHeight
    ensures mt.isValid <==> elbow <= MIN_ELBOW_ANGLE
    ensures mt.feedback == "Descends plus bas" <==> elbow > MIN_ELBOW_ANGLE + 20.0
    ensures mt.feedback == "Bonne profondeur !" <==> mt.isValid
    ensures mt.feedback == "" <==> MIN_ELBOW_ANGLE < elbow <= MIN_ELBOW_ANGLE + 20.0
  {
    var valid := elbow <= MIN_ELBOW_ANGLE;
    var remark :=
      if elbow > MIN_ELBOW_ANGLE + 20.0 then "Descends plus bas"
      else if valid then "Bonne profondeur !"
      else "";
    PushUpMetrics(elbow, bodyHeight, valid, remark)
  }

  /**
   * `_generate_feedback`: the phase message; every phase has one, and since
   * validity is exactly "elbow at most 100°", DOWN never falls through to
   * its last message.
   */
  function PhaseFeedback(mt: PushUpMetrics, p: PushUpPhase): (msg: string)
    ensures msg != ""
    ensures p == Down && (mt.isValid <==> mt.elbowAngle <= MIN_ELBOW_ANGLE) ==>
              msg == (if mt.isValid then "✅ Parfait ! Remonte maintenant" else "⚠️ Descends encore un peu")
    ensures msg == "⬇️ Continue de descendre" <==> p == Descending && mt.elbowAngle > MIN_ELBOW_ANGLE + 20.0
    ensures p == Up ==> msg == "✅ Prêt pour la prochaine pompe"
    ensures p == Ascending ==> msg == "⬆️ Bonne poussée !"
    ensures p == Descending && mt.elbowAngle <= MIN_ELBOW_ANGLE + 20.0 ==> msg == "⬇️ Bonne descente"
    ensures p == Down && mt.isValid ==> msg == "✅ Parfait ! Remonte maintenant"
    ensures p == Down && !mt.isValid ==>
              msg == (if mt.elbowAngle > MIN_ELBOW_ANGLE then "⚠️ Descends encore un peu" else "⬆️ Remonte maintenant")
  {
    match p
    case Up => "✅ Prêt pour la prochaine pompe"
    case Descending =>
      if mt.elbowAngle > MIN_ELBOW_ANGLE + 20.0 then "⬇️ Continue de descendre" else "⬇️ Bonne descente"
    case Down =>
      if mt.isValid then "✅ Parfait ! Remonte maintenant"
      else if mt.elbowAngle > MIN_ELBOW_ANGLE then "⚠️ Descends encore un peu"
      else "⬆️ Remonte maintenant"
    case Ascending => "⬆️ Bonne poussée !"
  }

  datatype PushUpState = PushUpState(count: nat, phase: Option<PushUpPhase>, lastRepTime: real,
                                     repHistory: seq<PushUpMetrics>)

  /** What `update` returns: the metrics are absent when the frame was refused. */
  datatype PushUpReport = PushUpReport(count: nat, phase: string, metrics: Option<PushUpMetrics>,
                                       feedback: string)

  /** The state after construction: no phase yet. */
  function Fresh(): PushUpState {
    PushUpState(0, None, 0.0, [])
  }

  /** The state after `reset`: unlike construction, the phase is UP. */
  function AfterReset(): PushUpState {
    PushUpState(0, Some(Up), 0.0, [])
  }

  predicate Consistent(s: PushUpState) {
    |s.repHistory| == s.count
  }

  /** The part of `update` after the gate, on the frame's elbow angle and body height. */
  function AngleStep(s: PushUpState, elbow: real, bodyHeight: real, now: real): (r: (PushUpState, PushUpReport))
    ensures r.0.phase == Some(NextPhase(s.phase, elbow))
    ensures r.0.count == s.count || r.0.count == s.count + 1
    ensures r.0.count == s.count + 1 <==>
              s.phase == Some(Ascending) && r.0.phase == Some(Up) && now - s.lastRepTime >= MIN_TIME_BETWEEN_REPS
    ensures r.0.count == s.count + 1 ==>
              r.0.lastRepTime == now && r.0.repHistory == s.repHistory + [Analyze(elbow, bodyHeight)]
    ensures r.0.count == s.count ==> r.0.lastRepTime == s.lastRepTime && r.0.repHistory == s.repHistory
    ensures r.1 == PushUpReport(r.0.count, r.0.phase.value.Value(), Some(Analyze(elbow, bodyHeight)),
                                PhaseFeedback(Analyze(elbow, bodyHeight), r.0.phase.value))
  {
    var mt := Analyze(elbow, bodyHeight);
    var next := NextPhase(s.phase, elbow);
    var counted := s.phase == Some(Ascending) && next == Up && now - s.lastRepTime >= MIN_TIME_BETWEEN_REPS;
    var s' := if counted then PushUpState(s.count + 1, Some(next), now, s.repHistory + [mt])
              else s.(phase := Some(next));
    (s', PushUpReport(s'.count, next.Value(), Some(mt), PhaseFeedback(mt, next)))
  }

  /** One call of `update` on the frame `kps` at time `now`. */
  function PushUpStep(m: AngleMeasure, s: PushUpState, kps: seq<Keypoint>, now: real): (r: (PushUpState, PushUpReport))
    requires 24 < |kps|
    ensures VisibleSide(kps).None? ==>
              r.0 == s && r.1 == PushUpReport(s.count, PhaseName(s.phase), None, MSG_SHOW_PROFILE)
    ensures VisibleSide(kps).Some? ==>
              r == AngleStep(s, FrameElbowAngle(m, kps, VisibleSide(kps).value),
                             VerticalDistance(kps[LEFT_SHOULDER], kps[LEFT_HIP]), now)
    ensures VisibleSide(kps).Some? ==> r.0.phase.Some?
    ensures r.0.count == s.count || r.0.count == s.count + 1
    ensures s.phase.Some? ==> r.0.phase == s.phase || r.0.phase == Some(s.phase.value.Next())
    ensures r.0.count == s.count + 1 <==>
              VisibleSide(kps).Some? && s.phase == Some(Ascending) && r.0.phase == Some(Up)
              && now - s.lastRepTime >= MIN_TIME_BETWEEN_REPS
    ensures r.0.count == s.count + 1 ==> r.0.lastRepTime == now
    ensures r.0.count == s.count + 1 ==>
              |r.0.repHistory| == |s.repHistory| + 1 && r.0.repHistory[..|s.repHistory|] == s.repHistory
              && r.0.repHistory[|s.repHistory|].bodyHeight == VerticalDistance(kps[LEFT_SHOULDER], kps[LEFT_HIP])
    ensures r.0.lastRepTime >= s.lastRepTime + MIN_TIME_BETWEEN_REPS * (r.0.count - s.count) as real
    ensures Consistent(s) ==> Consistent(r.0)
    ensures r.1.count == r.0.count && r.1.feedback != ""
  {
    match VisibleSide(kps)
    case None => (s, PushUpReport(s.count, PhaseName(s.phase), None, MSG_SHOW_PROFILE))
    case Some(side) =>
      var elbow := FrameElbowAngle(m, kps, side);
      AngleStep(s, elbow, VerticalDistance(kps[LEFT_SHOULDER], kps[LEFT_HIP]), now)
  }

  /** A frame: the keypoints of one image and the clock reading when it is processed. */
  type Frame = (seq<Keypoint>, real)

  predicate WellFormed(frames: seq<Frame>) {
    forall i :: 0 <= i < |frames| ==> 24 < |frames[i].0|
  }

  /** The state after feeding `frames` one by one to `update`. */
  function Run(m: AngleMeasure, s: PushUpState, frames: seq<Frame>): PushUpState
    requires WellFormed(frames)
    decreases |frames|
  {
    if frames == [] then s else Run(m, PushUpStep(m, s, frames[0].0, frames[0].1).0, frames[1..])
  }

  /** Over any run the count never falls and counted reps are at least 0.3 s apart. */
  lemma {:induction false} RunDebounced(m: AngleMeasure, s: PushUpState, frames: seq<Frame>)
    requires WellFormed(frames)
    ensures Run(m, s, frames).count >= s.count
    ensures Run(m, s, frames).lastRepTime
            >= s.lastRepTime + MIN_TIME_BETWEEN_REPS * (Run(m, s, frames).count - s.count) as real
    decreases |frames|
  {
    if frames != [] {
      RunDebounced(m, PushUpStep(m, s, frames[0].0, frames[0].1).0, frames[1..]);
    }
  }

  /** Consistency of the rep history with the count holds over any run. */
  lemma {:induction false} RunConsistent(m: AngleMeasure, s: PushUpState, frames: seq<Frame>)
    requires WellFormed(frames) && Consistent(s)
    ensures Consistent(Run(m, s, frames))
    decreases |frames|
  {
    if frames != [] {
      RunConsistent(m, PushUpStep(m, s, frames[0].0, frames[0].1).0, frames[1..]);
    }
  }

  /**
   * Progress through the cycle, a counter without a phase counting as
   * being at DOWN: its first frame can land on ASCENDING.
   */
  function StageOf(p: Option<PushUpPhase>): nat {
    match p
    case None => 2
    case Some(q) => q.Stage()
  }

  /**
   * A rep takes a full cycle: each frame advances at most one phase and a
   * rep is counted only on the step from ASCENDING back to UP, so n frames
   * count at most (n + stage) / 4 reps. For a fresh counter the stage is 2,
   * so two frames can already count one rep.
   */
  lemma {:induction false} RunNeedsFullCycles(m: AngleMeasure, s: PushUpState, frames: seq<Frame>)
    requires WellFormed(frames)
    ensures 4 * Run(m, s, frames).count + StageOf(Run(m, s, frames).phase)
            <= 4 * s.count + StageOf(s.phase) + |frames|
    decreases |frames|
  {
    if frames != [] {
      var s1 := PushUpStep(m, s, frames[0].0, frames[0].1).0;
      assert 4 * s1.count + StageOf(s1.phase) <= 4 * s.count + StageOf(s.phase) + 1;
      RunNeedsFullCycles(m, s1, frames[1..]);
    }
  }

  /** The state after feeding accepted frames, given as (elbow, body height, time) samples. */
  function RunAngles(s: PushUpState, samples: seq<(real, real, real)>): PushUpState
    decreases |samples|
  {
    if samples == [] then s
    else RunAngles(AngleStep(s, samples[0].0, samples[0].1, samples[0].2).0, samples[1..])
  }

  /** A fresh counter that first sees the arms at 107° and then straight counts one rep at once. */
  lemma MidRepStart()
    ensures RunAngles(Fresh(), [(107.0, 0.3, 10.0), (155.0, 0.3, 10.5)]).count == 1
  {
  }

  /** From UP, one full push-up counts one rep; a second within 0.3 s of it does not count. */
  lemma OnePushUpThenBounce()
    ensures var s := RunAngles(AfterReset(), [(160.0, 0.3, 10.0), (120.0, 0.3, 10.5), (90.0, 0.3, 11.0),
                                              (130.0, 0.3, 11.5), (165.0, 0.3, 12.0)]);
            s.count == 1 && s.phase == Some(Up)
            && RunAngles(s, [(120.0, 0.3, 12.05), (90.0, 0.3, 12.1), (130.0, 0.3, 12.15),
                             (165.0, 0.3, 12.2)]).count == 1
  {
  }

  datatype PushUpStats = PushUpStats(totalReps: nat, validReps: nat, successRate: real)

  /** `get_stats`: total and valid reps, and valid reps as a percentage. */
  function StatsOf(s: PushUpState): (st: PushUpStats)
    requires Consistent(s)
    ensures st.totalReps == s.count && st.validReps <= st.totalReps
    ensures st.validReps == Stats.CountWhere(s.repHistory, (mt: PushUpMetrics) => mt.isValid)
    ensures 0.0 <= st.successRate <= 100.0
    ensures st.totalReps == 0 ==> st.successRate == 0.0
    ensures st.totalReps > 0 ==> (st.successRate == 100.0 <==> st.validReps == st.totalReps)
    ensures st.successRate * st.totalReps as real == st.validReps as real * 100.0
  {
    var valid := Stats.CountWhere(s.repHistory, (mt: PushUpMetrics) => mt.isValid);
    PushUpStats(s.count, valid, if s.count > 0 then Stats.Percent(valid, s.count) else 0.0)
  }

  class PushUpCounter {
    var count: nat
    var currentPhase: Option<PushUpPhase>
    var lastRepTime: real
    var repHistory: seq<PushUpMetrics>

    function State(): PushUpState
      reads this
    {
      PushUpState(count, currentPhase, lastRepTime, repHistory)
    }

    constructor ()
      ensures State() == Fresh()
    {
      count := 0;
      currentPhase := None;
      lastRepTime := 0.0;
      repHistory := [];
    }

    /** `reset`. */
    method Reset()
      modifies this
      ensures State() == AfterReset()
    {
      count := 0;
      currentPhase := Some(Up);
      lastRepTime := 0.0;
      repHistory := [];
    }

    /** `_update_phase`. */
    method UpdatePhase(elbow: real)
      modifies this`currentPhase
      ensures currentPhase == Some(NextPhase(old(currentPhase), elbow))
    {
      if currentPhase.None? {
        if elbow >= MAX_ELBOW_ANGLE - 10.0 {
          currentPhase := Some(Up);
        } else if elbow <= MIN_ELBOW_ANGLE + 10.0 {
          currentPhase := Some(Down);
        } else {
          currentPhase := Some(Descending);
        }
      }
      var p := currentPhase.value;
      if p == Up {
        if elbow < MAX_ELBOW_ANGLE - 10.0 {
          currentPhase := Some(Descending);
        }
      } else if p == Descending {
        if elbow <= MIN_ELBOW_ANGLE {
          currentPhase := Some(Down);
        }
      } else if p == Down {
        if elbow > MIN_ELBOW_ANGLE + 5.0 {
          currentPhase := Some(Ascending);
        }
      } else {
        if elbow >= MAX_ELBOW_ANGLE - 10.0 {
          currentPhase := Some(Up);
        }
      }
    }

    /** `update`: processes one frame, read at time `now`. */
    method Update(m: AngleMeasure, kps: seq<Keypoint>, now: real) returns (report: PushUpReport)
      requires 24 < |kps|
      modifies this
      ensures (State(), report) == PushUpStep(m, old(State()), kps, now)
    {
      var side := VisibleSide(kps);
      if side.None? {
        return PushUpReport(count, PhaseName(currentPhase), None, MSG_SHOW_PROFILE);
      }
      var elbow := FrameElbowAngle(m, kps, side.value);
      var bodyHeight := VerticalDistance(kps[LEFT_SHOULDER], kps[LEFT_HIP]);
      var metrics := Analyze(elbow, bodyHeight);
      var previous := currentPhase;
      UpdatePhase(elbow);
      if previous == Some(Ascending) && currentPhase == Some(Up) {
        if now - lastRepTime >= MIN_TIME_BETWEEN_REPS {
          count := count + 1;
          lastRepTime := now;
          repHistory := repHistory + [metrics];
        }
      }
      var feedback := PhaseFeedback(metrics, currentPhase.value);
      report := PushUpReport(count, PhaseName(currentPhase), Some(metrics), feedback);
    }

    /** `get_stats`. */
    function GetStats(): (st: PushUpStats)
      reads this
      requires Consistent(State())
      ensures st == StatsOf(State())
    {
      StatsOf(State())
    }
  }
}

=== FILE: squat_counter.dfy ===
/**
 * The squat repetition counter: a frame gate (one complete side visible,
 * body upright), the knee and hip angles of the visible side(s), a
 * four-phase state machine on the knee angle with hysteresis, a debounced
 * count on the ASCENDING → STANDING transition, per-rep metrics and the
 * textual feedback of each phase.
 *
 * The counter's state is the class SquatCounter; its `Update` is proved
 * against the pure step SquatStep, and the properties of runs of frames
 * (the count never falls, counted reps are at least 0.5 s apart, a rep
 * takes a full cycle of four phase changes) are lemmas about SquatStep.
 */
module SquatCounting {
  import opened Wrappers
  import opened Pose
  import opened Geometry
  import Stats

  const MIN_KNEE_ANGLE: real := 165.0
  const MAX_KNEE_ANGLE: real := 175.0
  const MIN_HIP_ANGLE: real := 160.0
  const MIN_TIME_BETWEEN_REPS: real := 0.5

  const MSG_WHOLE_BODY := "⚠️ Position toi de façon à être entièrement visible"
  const MSG_FEET := "⚠️ Reculez pour qu'on voie vos pieds"
  const MSG_HEAD := "⚠️ Reculez pour qu'on voie votre tête"
  const MSG_STAND_UP := "⚠️ Mets-toi debout pour les squats"

  datatype SquatPhase = Standing | Descending | Bottom | Ascending {
    /** The phase name reported to the caller. */
    function Value(): string {
      match this
      case Standing => "debout"
      case Descending => "descente"
      case Bottom => "position_basse"
      case Ascending => "montée"
    }

    /** The phase that follows this one in a repetition. */
    function Next(): SquatPhase {
      match this
      case Standing => Descending
      case Descending => Bottom
      case Bottom => Ascending
      case Ascending => Standing
    }

    /** Position in the cycle, STANDING being 0. */
    function Stage(): nat {
      match this
      case Standing => 0
      case Descending => 1
      case Bottom => 2
      case Ascending => 3
    }
  }

  datatype SquatMetrics = SquatMetrics(kneeAngle: real, hipAngle: real, depthScore: real,
                                       isValid: bool, feedback: string)

  /** The verdict on a frame: refused with a hint, or accepted for a side. */
  datatype Gate = Rejected(hint: string) | Accepted(side: Side)

  function Seen(k: Keypoint): bool {
    IsKeypointVisible(k, 0.5)
  }

  predicate LeftSideVisible(kps: seq<Keypoint>)
    requires 28 < |kps|
  {
    Seen(kps[LEFT_HIP]) && Seen(kps[LEFT_KNEE]) && Seen(kps[LEFT_ANKLE]) && Seen(kps[LEFT_SHOULDER])
  }

  predicate RightSideVisible(kps: seq<Keypoint>)
    requires 28 < |kps|
  {
    Seen(kps[RIGHT_HIP]) && Seen(kps[RIGHT_KNEE]) && Seen(kps[RIGHT_ANKLE]) && Seen(kps[RIGHT_SHOULDER])
  }

  predicate HipsSeen(kps: seq<Keypoint>) requires 28 < |kps| {
    Seen(kps[LEFT_HIP]) || Seen(kps[RIGHT_HIP])
  }

  predicate AnklesSeen(kps: seq<Keypoint>) requires 28 < |kps| {
    Seen(kps[LEFT_ANKLE]) || Seen(kps[RIGHT_ANKLE])
  }

  predicate ShouldersSeen(kps: seq<Keypoint>) requires 28 < |kps| {
    Seen(kps[LEFT_SHOULDER]) || Seen(kps[RIGHT_SHOULDER])
  }

  /** The hint given when neither side is completely visible. */
  function RejectionHint(kps: seq<Keypoint>): (hint: string)
    requires 28 < |kps|
    ensures hint == MSG_FEET <==> HipsSeen(kps) && !AnklesSeen(kps)
    ensures hint == MSG_HEAD <==> HipsSeen(kps) && AnklesSeen(kps) && !ShouldersSeen(kps)
    ensures hint == MSG_WHOLE_BODY <==> !HipsSeen(kps) || (AnklesSeen(kps) && ShouldersSeen(kps))
  {
    if HipsSeen(kps) && !AnklesSeen(kps) then MSG_FEET
    else if HipsSeen(kps) && !ShouldersSeen(kps) then MSG_HEAD
    else MSG_WHOLE_BODY
  }

  /** Hips lower in the image than shoulders by more than 0.05 (y grows downwards). */
  predicate IsUpright(kps: seq<Keypoint>): (upright: bool)
    requires 28 < |kps|
    ensures upright ==> (kps[LEFT_HIP].y + kps[RIGHT_HIP].y) / 2.0 > (kps[LEFT_SHOULDER].y + kps[RIGHT_SHOULDER].y) / 2.0
  {
    (kps[LEFT_HIP].y + kps[RIGHT_HIP].y) / 2.0 - (kps[LEFT_SHOULDER].y + kps[RIGHT_SHOULDER].y) / 2.0 > 0.05
  }

  /** The frame gate of `update`: visibility first, then uprightness. */
  function CheckFrame(kps: seq<Keypoint>): (g: Gate)
    requires 28 < |kps|
    ensures g.Accepted? <==> (LeftSideVisible(kps) || RightSideVisible(kps)) && IsUpright(kps)
    ensures g.Accepted? ==> (g.side == BothSides <==> LeftSideVisible(kps) && RightSideVisible(kps))
    ensures g.Accepted? && g.side == LeftSide ==> LeftSideVisible(kps) && !RightSideVisible(kps)
    ensures g.Accepted? && g.side == RightSide ==> RightSideVisible(kps) && !LeftSideVisible(kps)
    ensures g.Rejected? && !LeftSideVisible(kps) && !RightSideVisible(kps) ==> g.hint == RejectionHint(kps)
    ensures g.Rejected? && (LeftSideVisible(kps) || RightSideVisible(kps)) ==> g.hint == MSG_STAND_UP
  {
    var left, right := LeftSideVisible(kps), RightSideVisible(kps);
    if !(left || right) then Rejected(RejectionHint(kps))
    else if !IsUpright(kps) then Rejected(MSG_STAND_UP)
    else if left && right then Accepted(BothSides)
    else if left then Accepted(LeftSide)
    else Accepted(RightSide)
  }

  function LeftKnee(m: AngleMeasure, kps: seq<Keypoint>): real requires 28 < |kps| {
    KneeAngle(m, kps[LEFT_HIP], kps[LEFT_KNEE], kps[LEFT_ANKLE])
  }
  function RightKnee(m: AngleMeasure, kps: seq<Keypoint>): real requires 28 < |kps| {
    KneeAngle(m, kps[RIGHT_HIP], kps[RIGHT_KNEE], kps[RIGHT_ANKLE])
  }
  function LeftHip(m: AngleMeasure, kps: seq<Keypoint>): real requires 28 < |kps| {
    HipAngle(m, kps[LEFT_SHOULDER], kps[LEFT_HIP], kps[LEFT_KNEE])
  }
  function RightHip(m: AngleMeasure, kps: seq<Keypoint>): real requires 28 < |kps| {
    HipAngle(m, kps[RIGHT_SHOULDER], kps[RIGHT_HIP], kps[RIGHT_KNEE])
  }

  /**
   * The (knee, hip) angles of a frame: the mean of both sides when both
   * are visible, else those of the visible side.
   */
  function FrameAngles(m: AngleMeasure, kps: seq<Keypoint>, side: Side): (r: (real, real))
    requires 28 < |kps|
    ensures 0.0 <= r.0 <= 180.0 && 0.0 <= r.1 <= 180.0
    ensures Min(LeftKnee(m, kps), RightKnee(m, kps)) <= r.0 <= Max(LeftKnee(m, kps), RightKnee(m, kps))
            || side != BothSides
    ensures side == BothSides ==>
              r.0 - LeftKnee(m, kps) == RightKnee(m, kps) - r.0 && r.1 - LeftHip(m, kps) == RightHip(m, kps) - r.1
    ensures side == LeftSide ==> r == (LeftKnee(m, kps), LeftHip(m, kps))
    ensures side == RightSide ==> r == (RightKnee(m, kps), RightHip(m, kps))
  {
    match side
    case BothSides =>
      ((LeftKnee(m, kps) + RightKnee(m, kps)) / 2.0, (LeftHip(m, kps) + RightHip(m, kps)) / 2.0)
    case LeftSide => (LeftKnee(m, kps), LeftHip(m, kps))
    case RightSide => (RightKnee(m, kps), RightHip(m, kps))
  }

  /**
   * `_update_phase`: one transition at most per frame. STANDING leaves
   * below 165°, DESCENDING reaches BOTTOM at 165° or less, BOTTOM leaves
   * above 170°, ASCENDING returns to STANDING at 165° or more.
   */
  function NextPhase(p: SquatPhase, knee: real): (q: SquatPhase)
    ensures q == p || q == p.Next()
    ensures q != p <==> match p
                        case Standing => knee < MAX_KNEE_ANGLE - 10.0
                        case Descending => knee <= MIN_KNEE_ANGLE
                        case Bottom => knee > MIN_KNEE_ANGLE + 5.0
                        case Ascending => knee >= MAX_KNEE_ANGLE - 10.0
  {
    match p
    case Standing => if knee < MAX_KNEE_ANGLE - 10.0 then Descending else p
    case Descending => if knee <= MIN_KNEE_ANGLE then Bottom else p
    case Bottom => if knee > MIN_KNEE_ANGLE + 5.0 then Ascending else p
    case Ascending => if knee >= MAX_KNEE_ANGLE - 10.0 then Standing else p
  }

  /** `_analyze_squat`: depth score, validity and the metric's own remark. */
  function Analyze(knee: real, hip: real): (mt: SquatMetrics)
    ensures mt.kneeAngle == knee && mt.hipAngle == hip
    ensures 0.0 <= mt.depthScore <= 1.0
    ensures knee <= MIN_KNEE_ANGLE ==> mt.depthScore == 1.0
    ensures knee >= MAX_KNEE_ANGLE ==> mt.depthScore == 0.0
    ensures MIN_KNEE_ANGLE < knee < MAX_KNEE_ANGLE ==> mt.depthScore == (MAX_KNEE_ANGLE - knee) / 10.0
    ensures mt.isValid <==> knee <= MIN_KNEE_ANGLE && hip <= MIN_HIP_ANGLE + 20.0
    ensures mt.isValid ==> mt.depthScore == 1.0 && mt.feedback == "Bonne profondeur !"
    ensures mt.feedback == "Descends plus bas" <==> knee > MIN_KNEE_ANGLE + 20.0
    ensures mt.feedback == "Penche-toi plus en avant" <==> knee <= MIN_KNEE_ANGLE + 20.0 && hip > MIN_HIP_ANGLE + 30.0
    ensures mt.feedback == "" <==> knee <= MIN_KNEE_ANGLE + 20.0 && hip <= MIN_HIP_ANGLE + 30.0 && !mt.isValid
  {
    var ratio := (MAX_KNEE_ANGLE - knee) / (MAX_KNEE_ANGLE - MIN_KNEE_ANGLE);
    var depth := if ratio < 0.0 then 0.0 else if ratio > 1.0 then 1.0 else ratio;
    var valid := knee <= MIN_KNEE_ANGLE && hip <= MIN_HIP_ANGLE + 20.0;
    var remark :=
      if knee > MIN_KNEE_ANGLE + 20.0 then "Descends plus bas"
      else if hip > MIN_HIP_ANGLE + 30.0 then "Penche-toi plus en avant"
      else if valid then "Bonne profondeur !"
      else "";
    SquatMetrics(knee, hip, depth, valid, remark)
  }

  /** A deeper squat (smaller knee angle) never scores a smaller depth. */
  lemma DepthMonotone(k1: real, k2: real, hip: real)
    requires k1 <= k2
    ensures Analyze(k1, hip).depthScore >= Analyze(k2, hip).depthScore
  {
  }

  /**
   * Joint angles never exceed 180°, so on real frames the hip condition of
   * validity always holds, and the remarks that need an angle above 185°
   * or 190° are never given.
   */
  lemma RemarksWithinRange(knee: real, hip: real, p: SquatPhase)
    requires 0.0 <= knee <= 180.0 && 0.0 <= hip <= 180.0
    ensures Analyze(knee, hip).isValid <==> knee <= MIN_KNEE_ANGLE
    ensures Analyze(knee, hip).feedback == (if knee <= MIN_KNEE_ANGLE then "Bonne profondeur !" else "")
    ensures PhaseFeedback(Analyze(knee, hip), p) != "⬇️ Continue de descendre"
    ensures PhaseFeedback(Analyze(knee, hip), p) != "⬆️ Remonte maintenant"
  {
  }

  /** `_generate_feedback`: the phase message; every phase has one. */
  function PhaseFeedback(mt: SquatMetrics, p: SquatPhase): (msg: string)
    ensures msg != ""
    ensures msg == "⚠️ Descends encore un peu" <==> p == Bottom && !mt.isValid && mt.kneeAngle > MIN_KNEE_ANGLE
    ensures msg == "⬇️ Continue de descendre" <==> p == Descending && mt.kneeAngle > MIN_KNEE_ANGLE + 20.0
    ensures p == Standing ==> msg == "✅ Prêt pour le prochain squat"
    ensures p == Ascending ==> msg == "⬆️ Bonne remontée !"
    ensures p == Descending && mt.kneeAngle <= MIN_KNEE_ANGLE + 20.0 ==> msg == "⬇️ Bonne descente"
    ensures p == Bottom && mt.isValid ==> msg == "✅ Parfait ! Remonte maintenant"
    ensures p == Bottom && !mt.isValid && mt.kneeAngle <= MIN_KNEE_ANGLE ==> msg == "⬆️ Remonte maintenant"
  {
    match p
    case Standing => "✅ Prêt pour le prochain squat"
    case Descending =>
      if mt.kneeAngle > MIN_KNEE_ANGLE + 20.0 then "⬇️ Continue de descendre" else "⬇️ Bonne descente"
    case Bottom =>
      if mt.isValid then "✅ Parfait ! Remonte maintenant"
      else if mt.kneeAngle > MIN_KNEE_ANGLE then "⚠️ Descends encore un peu"
      else "⬆️ Remonte maintenant"
    case Ascending => "⬆️ Bonne remontée !"
  }

  datatype SquatState = SquatState(count: nat, phase: SquatPhase, lastRepTime: real,
                                   repHistory: seq<SquatMetrics>)

  /** What `update` returns: the metrics are absent when the frame was refused. */
  datatype SquatReport = SquatReport(count: nat, phase: string, metrics: Option<SquatMetrics>,
                                     feedback: string)

  /** The state after construction and after `reset`. */
  function Initial(): SquatState {
    SquatState(0, Standing, 0.0, [])
  }

  /** Every counted rep has its metrics, and every depth score is in [0, 1]. */
  predicate Consistent(s: SquatState) {
    |s.repHistory| == s.count &&
    forall i :: 0 <= i < |s.repHistory| ==> 0.0 <= s.repHistory[i].depthScore <= 1.0
  }

  /** The part of `update` after the gate, on the angles of the frame. */
  function AngleStep(s: SquatState, knee: real, hip: real, now: real): (r: (SquatState, SquatReport))
    ensures r.0.phase == NextPhase(s.phase, knee)
    ensures r.0.count == s.count || r.0.count == s.count + 1
    ensures r.0.count == s.count + 1 <==>
              s.phase == Ascending && r.0.phase == Standing && now - s.lastRepTime >= MIN_TIME_BETWEEN_REPS
    ensures r.0.count == s.count + 1 ==>
              r.0.lastRepTime == now && r.0.repHistory == s.repHistory + [Analyze(knee, hip)]
    ensures r.0.count == s.count ==> r.0.lastRepTime == s.lastRepTime && r.0.repHistory == s.repHistory
    ensures r.1 == SquatReport(r.0.count, r.0.phase.Value(), Some(Analyze(knee, hip)),
                               PhaseFeedback(Analyze(knee, hip), r.0.phase))
  {
    var mt := Analyze(knee, hip);
    var next := NextPhase(s.phase, knee);
    var counted := s.phase == Ascending && next == Standing && now - s.lastRepTime >= MIN_TIME_BETWEEN_REPS;
    var s' := if counted then SquatState(s.count + 1, next, now, s.repHistory + [mt]) else s.(phase := next);
    (s', SquatReport(s'.count, next.Value(), Some(mt), PhaseFeedback(mt, next)))
  }

  /** One call of `update` on the frame `kps` at time `now`. */
  function SquatStep(m: AngleMeasure, s: SquatState, kps: seq<Keypoint>, now: real): (r: (SquatState, SquatReport))
    requires 28 < |kps|
    ensures CheckFrame(kps).Rejected? ==>
              r.0 == s && r.1 == SquatReport(s.count, s.phase.Value(), None, CheckFrame(kps).hint)
    ensures CheckFrame(kps).Accepted? ==>
              var a := FrameAngles(m, kps, CheckFrame(kps).side); r == AngleStep(s, a.0, a.1, now)
    ensures r.0.count == s.count || r.0.count == s.count + 1
    ensures r.0.phase == s.phase || r.0.phase == s.phase.Next()
    ensures r.0.count == s.count + 1 <==>
              CheckFrame(kps).Accepted? && s.phase == Ascending && r.0.phase == Standing
              && now - s.lastRepTime >= MIN_TIME_BETWEEN_REPS
    ensures r.0.count == s.count + 1 ==> r.0.lastRepTime == now
    ensures r.0.lastRepTime >= s.lastRepTime + MIN_TIME_BETWEEN_REPS * (r.0.count - s.count) as real
    ensures Consistent(s) ==> Consistent(r.0)
    ensures r.1.count == r.0.count && r.1.feedback != ""
  {
    match CheckFrame(kps)
    case Rejected(hint) => (s, SquatReport(s.count, s.phase.Value(), None, hint))
    case Accepted(side) =>
      var angles := FrameAngles(m, kps, side);
      AngleStep(s, angles.0, angles.1, now)
  }

  /** A frame: the keypoints of one image and the clock reading when it is processed. */
  type Frame = (seq<Keypoint>, real)

  predicate WellFormed(frames: seq<Frame>) {
    forall i :: 0 <= i < |frames| ==> 28 < |frames[i].0|
  }

  /** The state after feeding `frames` one by one to `update`. */
  function Run(m: AngleMeasure, s: SquatState, frames: seq<Frame>): SquatState
    requires WellFormed(frames)
    decreases |frames|
  {
    if frames == [] then s else Run(m, SquatStep(m, s, frames[0].0, frames[0].1).0, frames[1..])
  }

  /**
   * Over any run the count never falls, and the counted reps are at least
   * MIN_TIME_BETWEEN_REPS apart: the last one is that far past the one
   * before the run for each rep counted in between.
   */
  lemma {:induction false} RunDebounced(m: AngleMeasure, s: SquatState, frames: seq<Frame>)
    requires WellFormed(frames)
    ensures Run(m, s, frames).count >= s.count
    ensures Run(m, s, frames).lastRepTime
            >= s.lastRepTime + MIN_TIME_BETWEEN_REPS * (Run(m, s, frames).count - s.count) as real
    decreases |frames|
  {
    if frames != [] {
      var s1 := SquatStep(m, s, frames[0].0, frames[0].1).0;
      RunDebounced(m, s1, frames[1..]);
    }
  }

  /** Consistency of the rep history with the count holds over any run. */
  lemma {:induction false} RunConsistent(m: AngleMeasure, s: SquatState, frames: seq<Frame>)
    requires WellFormed(frames) && Consistent(s)
    ensures Consistent(Run(m, s, frames))
    decreases |frames|
  {
    if frames != [] {
      RunConsistent(m, SquatStep(m, s, frames[0].0, frames[0].1).0, frames[1..]);
    }
  }

  /**
   * A rep takes a full cycle: each frame advances the phase by one step at
   * most, and a rep is counted only on the step from ASCENDING back to
   * STANDING, so n frames count at most (n + stage) / 4 reps.
   */
  lemma {:induction false} RunNeedsFullCycles(m: AngleMeasure, s: SquatState, frames: seq<Frame>)
    requires WellFormed(frames)
    ensures 4 * Run(m, s, frames).count + Run(m, s, frames).phase.Stage()
            <= 4 * s.count + s.phase.Stage() + |frames|
    decreases |frames|
  {
    if frames != [] {
      var s1 := SquatStep(m, s, frames[0].0, frames[0].1).0;
      assert 4 * s1.count + s1.phase.Stage() <= 4 * s.count + s.phase.Stage() + 1;
      RunNeedsFullCycles(m, s1, frames[1..]);
    }
  }

  /** The state after feeding accepted frames, given as (knee, hip, time) samples. */
  function RunAngles(s: SquatState, samples: seq<(real, real, real)>): SquatState
    decreases |samples|
  {
    if samples == [] then s
    else RunAngles(AngleStep(s, samples[0].0, samples[0].1, samples[0].2).0, samples[1..])
  }

  /**
   * One squat, sampled 0.5 s apart: the knee angles 175, 170, 150, 120, 90,
   * 160, 175 end in ASCENDING with nothing counted, since each frame makes
   * one transition and 90 and 160 both stay in BOTTOM; one more upright
   * frame completes the rep.
   */
  lemma OneSquat()
    ensures var s := RunAngles(Initial(), [(175.0, 170.0, 100.0), (170.0, 170.0, 100.5), (150.0, 150.0, 101.0),
                                           (120.0, 120.0, 101.5), (90.0, 100.0, 102.0), (160.0, 150.0, 102.5),
                                           (175.0, 170.0, 103.0)]);
            s.phase == Ascending && s.count == 0
            && RunAngles(s, [(175.0, 170.0, 103.5)]).count == 1
            && RunAngles(s, [(175.0, 170.0, 103.5)]).phase == Standing
  {
  }

  /** The same squat done twice within 0.3 s counts once: the debounce blocks the second. */
  lemma BounceSuppressed()
    ensures RunAngles(Initial(), [(175.0, 170.0, 100.00), (150.0, 150.0, 100.02), (120.0, 120.0, 100.04),
                                  (175.0, 170.0, 100.06), (175.0, 170.0, 100.08),
                                  (150.0, 150.0, 100.10), (120.0, 120.0, 100.12),
                                  (175.0, 170.0, 100.14), (175.0, 170.0, 100.16)]).count == 1
  {
  }

  /** The average depth score of the counted reps, 0 with none. */
  function AverageDepth(history: seq<SquatMetrics>): (avg: real)
    ensures history == [] ==> avg == 0.0
    ensures (forall i :: 0 <= i < |history| ==> 0.0 <= history[i].depthScore <= 1.0) ==> 0.0 <= avg <= 1.0
    ensures avg * |history| as real == Stats.Sum(Depths(history))
  {
    if history == [] then 0.0
    else
      MeanDepthBounded(history);
      Stats.Mean(Depths(history))
  }

  function Depths(history: seq<SquatMetrics>): (d: seq<real>)
    ensures |d| == |history| && forall i :: 0 <= i < |history| ==> d[i] == history[i].depthScore
  {
    seq(|history|, i requires 0 <= i < |history| => history[i].depthScore)
  }

  lemma MeanDepthBounded(history: seq<SquatMetrics>)
    requires history != []
    ensures (forall i :: 0 <= i < |history| ==> 0.0 <= history[i].depthScore <= 1.0)
            ==> 0.0 <= Stats.Mean(Depths(history)) <= 1.0
  {
    if forall i :: 0 <= i < |history| ==> 0.0 <= history[i].depthScore <= 1.0 {
      Stats.MeanBounds(Depths(history), 0.0, 1.0);
    }
  }

  datatype SquatStats = SquatStats(totalReps: nat, validReps: nat, averageDepth: real, successRate: real)

  /** `get_stats`: total and valid reps, mean depth, and valid reps as a percentage. */
  function StatsOf(s: SquatState): (st: SquatStats)
    requires Consistent(s)
    ensures st.totalReps == s.count && st.validReps <= st.totalReps
    ensures st.validReps == Stats.CountWhere(s.repHistory, (mt: SquatMetrics) => mt.isValid)
    ensures 0.0 <= st.averageDepth <= 1.0
    ensures 0.0 <= st.successRate <= 100.0
    ensures st.totalReps == 0 ==> st.successRate == 0.0
    ensures st.totalReps > 0 ==> (st.successRate == 100.0 <==> st.validReps == st.totalReps)
    ensures st.successRate * st.totalReps as real == st.validReps as real * 100.0
    ensures st.averageDepth == AverageDepth(s.repHistory)
  {
    var valid := Stats.CountWhere(s.repHistory, (mt: SquatMetrics) => mt.isValid);
    SquatStats(s.count, valid, AverageDepth(s.repHistory),
               if s.count > 0 then Stats.Percent(valid, s.count) else 0.0)
  }

  class SquatCounter {
    var count: nat
    var currentPhase: SquatPhase
    var lastRepTime: real
    var repHistory: seq<SquatMetrics>

    function State(): SquatState
      reads this
    {
      SquatState(count, currentPhase, lastRepTime, repHistory)
    }

    constructor ()
      ensures State() == Initial()
    {
      count := 0;
      currentPhase := Standing;
      lastRepTime := 0.0;
      repHistory := [];
    }

    /** `reset`: back to the initial state. */
    method Reset()
      modifies this
      ensures State() == Initial()
    {
      count := 0;
      currentPhase := Standing;
      lastRepTime := 0.0;
      repHistory := [];
    }

    /** `_update_phase`. */
    method UpdatePhase(knee: real, hip: real)
      modifies this`currentPhase
      ensures currentPhase == NextPhase(old(currentPhase), knee)
    {
      if currentPhase == Standing {
        if knee < MAX_KNEE_ANGLE - 10.0 {
          currentPhase := Descending;
        }
      } else if currentPhase == Descending {
        if knee <= MIN_KNEE_ANGLE {
          currentPhase := Bottom;
        }
      } else if currentPhase == Bottom {
        if knee > MIN_KNEE_ANGLE + 5.0 {
          currentPhase := Ascending;
        }
      } else {
        if knee >= MAX_KNEE_ANGLE - 10.0 {
          currentPhase := Standing;
        }
      }
    }

    /** `update`: processes one frame, read at time `now`. */
    method Update(m: AngleMeasure, kps: seq<Keypoint>, now: real) returns (report: SquatReport)
      requires 28 < |kps|
      modifies this
      ensures (State(), report) == SquatStep(m, old(State()), kps, now)
    {
      var gate := CheckFrame(kps);
      if gate.Rejected? {
        return SquatReport(count, currentPhase.Value(), None, gate.hint);
      }
      var angles := FrameAngles(m, kps, gate.side);
      var metrics := Analyze(angles.0, angles.1);
      var previous := currentPhase;
      UpdatePhase(angles.0, angles.1);
      if previous == Ascending && currentPhase == Standing {
        if now - lastRepTime >= MIN_TIME_BETWEEN_REPS {
          count := count + 1;
          lastRepTime := now;
          repHistory := repHistory + [metrics];
        }
      }
      var feedback := PhaseFeedback(metrics, currentPhase);
      report := SquatReport(count, currentPhase.Value(), Some(metrics), feedback);
    }

    /** `get_stats`. */
    function GetStats(): (st: SquatStats)
      reads this
      requires Consistent(State())
      ensures st == StatsOf(State())
    {
      StatsOf(State())
    }
  }
}

=== FILE: stats.dfy ===
/**
 * Aggregates shared by the analyzer, the feedback generator and the session:
 * sums and means of scores, filtered counts, the four quality bands
 * (cut-offs 85/70/50) and the bounded FIFO history used for every capped
 * list or `deque(maxlen=...)` of the core.
 */
module Stats {

  function Sum(s: seq<real>): real {
    if s == [] then 0.0 else s[0] + Sum(s[1..])
  }

  lemma {:induction false} SumAppend(s: seq<real>, x: real)
    ensures Sum(s + [x]) == Sum(s) + x
  {
    if s != [] {
      assert (s + [x])[1..] == s[1..] + [x];
      SumAppend(s[1..], x);
    }
  }

  /** Every element in [lo, hi] puts the sum in [|s|·lo, |s|·hi]. */
  lemma {:induction false} SumBounds(s: seq<real>, lo: real, hi: real)
    requires forall i :: 0 <= i < |s| ==> lo <= s[i] <= hi
    ensures |s| as real * lo <= Sum(s) <= |s| as real * hi
  {
    if s != [] {
      SumBounds(s[1..], lo, hi);
    }
  }

  /** Python's `sum(s) / len(s)` on a non-empty list. */
  function Mean(s: seq<real>): (r: real)
    requires |s| > 0
    ensures r * |s| as real == Sum(s)
  {
    Sum(s) / |s| as real
  }

  /** The mean of values in [lo, hi] lies in [lo, hi]. */
  lemma MeanBounds(s: seq<real>, lo: real, hi: real)
    requires |s| > 0
    requires forall i :: 0 <= i < |s| ==> lo <= s[i] <= hi
    ensures lo <= Mean(s) <= hi
  {
    SumBounds(s, lo, hi);
    var n := |s| as real;
    assert n * lo <= Sum(s) <= n * hi;
    assert Sum(s) / n >= lo by { assert Sum(s) >= lo * n; }
    assert Sum(s) / n <= hi by { assert Sum(s) <= hi * n; }
  }

  /** Python's `sum(1 for x in s if p(x))`. */
  function CountWhere<T>(s: seq<T>, p: T -> bool): (n: nat)
    ensures n <= |s|
  {
    if s == [] then 0 else (if p(s[0]) then 1 else 0) + CountWhere(s[1..], p)
  }

  lemma {:induction false} CountWhereAppend<T>(s: seq<T>, x: T, p: T -> bool)
    ensures CountWhere(s + [x], p) == CountWhere(s, p) + (if p(x) then 1 else 0)
  {
    if s != [] {
      assert (s + [x])[1..] == s[1..] + [x];
      CountWhereAppend(s[1..], x, p);
    }
  }

  /** The four quality bands, with the cut-offs 85, 70 and 50. */
  datatype Band = Excellent | Good | Medium | Poor

  function BandOf(q: real): Band {
    if q >= 85.0 then Excellent
    else if q >= 70.0 then Good
    else if q >= 50.0 then Medium
    else Poor
  }

  function CountBand(s: seq<real>, b: Band): (n: nat)
    ensures n <= |s|
  {
    if s == [] then 0 else (if BandOf(s[0]) == b then 1 else 0) + CountBand(s[1..], b)
  }

  /** Counts of scores per band: excellent, good, medium, poor. */
  datatype Distribution = Distribution(excellent: nat, good: nat, medium: nat, poor: nat)

  function DistributionOf(s: seq<real>): (d: Distribution)
    ensures d.excellent + d.good + d.medium + d.poor == |s|
  {
    PartitionBands(s);
    Distribution(CountBand(s, Excellent), CountBand(s, Good), CountBand(s, Medium), CountBand(s, Poor))
  }

  /** The four bands partition the scores: every score is in exactly one. */
  lemma {:induction false} PartitionBands(s: seq<real>)
    ensures CountBand(s, Excellent) + CountBand(s, Good) + CountBand(s, Medium) + CountBand(s, Poor) == |s|
  {
    if s != [] {
      PartitionBands(s[1..]);
    }
  }

  /**
   * Appending to a history bounded by `cap`, evicting the oldest entry
   * when full: Python's `deque(maxlen=cap).append(x)`, and equally
   * `h.append(x); if len(h) > cap: h.pop(0)` on a list kept within `cap`.
   */
  function Push<T>(h: seq<T>, x: T, cap: nat): (r: seq<T>)
    requires |h| <= cap
    ensures |r| == if |h| < cap then |h| + 1 else cap
    ensures r == (h + [x])[|h| + 1 - |r|..]
    ensures cap > 0 ==> r[|r| - 1] == x
  {
    if |h| < cap then h + [x] else (h + [x])[1..]
  }

  /** A history whose entries and new entry lie in [lo, hi] stays within [lo, hi]. */
  lemma PushWithin(h: seq<real>, x: real, cap: nat, lo: real, hi: real)
    requires |h| <= cap
    ensures (forall i :: 0 <= i < |h| ==> lo <= h[i] <= hi) && lo <= x <= hi ==>
            forall i :: 0 <= i < |Push(h, x, cap)| ==> lo <= Push(h, x, cap)[i] <= hi
  {
    var r := Push(h, x, cap);
    if (forall i :: 0 <= i < |h| ==> lo <= h[i] <= hi) && lo <= x <= hi {
      forall i | 0 <= i < |r| ensures lo <= r[i] <= hi {
        var j := |h| + 1 - |r| + i;
        assert r[i] == (h + [x])[j];
      }
    }
  }

  /** `part / total * 100` for a count out of a positive total: a percentage in [0, 100]. */
  function Percent(part: nat, total: nat): (p: real)
    requires 0 < total && part <= total
    ensures 0.0 <= p <= 100.0
    ensures p == 100.0 <==> part == total
    ensures p * total as real == part as real * 100.0
  {
    var q := part as real / total as real;
    assert q * total as real == part as real;
    assert q <= 1.0;
    assert q == 1.0 <==> part == total;
    assert (q * 100.0) * total as real == (q * total as real) * 100.0;
    q * 100.0
  }
}

=== FILE: tally.dfy ===
/**
 * Frequency counters keyed by error type. Python's dicts keep insertion
 * order, and `sorted(..., reverse=True)` is stable, so the order of first
 * occurrence decides ties among the "top errors". A counter is therefore an
 * association list in insertion order rather than a `map`.
 */
module Tally {

  type Counts = seq<(string, nat)>

  predicate KeysUnique(t: Counts) {
    forall i, j :: 0 <= i < j < |t| ==> t[i].0 != t[j].0
  }

  /** Python's `counts.get(k, 0)`. */
  function Lookup(t: Counts, k: string): nat {
    if t == [] then 0 else if t[0].0 == k then t[0].1 else Lookup(t[1..], k)
  }

  predicate HasKey(t: Counts, k: string) {
    exists i :: 0 <= i < |t| && t[i].0 == k
  }

  /** In a counter with unique keys, each entry holds its key's count. */
  lemma {:induction false} LookupEntry(t: Counts, i: nat)
    requires KeysUnique(t) && i < |t|
    ensures Lookup(t, t[i].0) == t[i].1
  {
    if i > 0 {
      assert t[1..][i - 1] == t[i];
      LookupEntry(t[1..], i - 1);
    }
  }

  /** Python's `counts[k] = counts.get(k, 0) + 1`: an existing key keeps its place, a new one goes last. */
  function Bump(t: Counts, k: string): (r: Counts)
    ensures KeysUnique(t) ==> KeysUnique(r)
    ensures KeysUnique(t) ==> Lookup(r, k) == Lookup(t, k) + 1
    ensures forall j :: j != k ==> Lookup(r, j) == Lookup(t, j)
    ensures forall i :: 0 <= i < |r| ==> r[i].0 == k || HasKey(t, r[i].0)
    ensures |r| == |t| || |r| == |t| + 1
    ensures !HasKey(t, k) ==> r == t + [(k, 1)]
    ensures HasKey(t, k) ==> |r| == |t| && forall i :: 0 <= i < |t| ==> r[i].0 == t[i].0
  {
    if t == [] then [(k, 1)]
    else if t[0].0 == k then
      assert HasKey(t, k);
      [(k, t[0].1 + 1)] + t[1..]
    else
      var rest := Bump(t[1..], k);
      BumpBehind(t, k, rest);
      [t[0]] + rest
  }

  /** What `Bump(t, k)` promises about its result `r`. */
  ghost predicate Bumped(t: Counts, k: string, r: Counts) {
    && (KeysUnique(t) ==> KeysUnique(r))
    && (KeysUnique(t) ==> Lookup(r, k) == Lookup(t, k) + 1)
    && (forall j :: j != k ==> Lookup(r, j) == Lookup(t, j))
    && (forall i :: 0 <= i < |r| ==> r[i].0 == k || HasKey(t, r[i].0))
    && (|r| == |t| || |r| == |t| + 1)
    && (!HasKey(t, k) ==> r == t + [(k, 1)])
    && (HasKey(t, k) ==> |r| == |t| && forall i :: 0 <= i < |t| ==> r[i].0 == t[i].0)
  }

  /** Bumping behind a first entry with another key keeps that entry in front. */
  lemma BumpBehind(t: Counts, k: string, rest: Counts)
    requires t != [] && t[0].0 != k
    requires Bumped(t[1..], k, rest)
    ensures Bumped(t, k, [t[0]] + rest)
  {
    assert ([t[0]] + rest)[1..] == rest;
    HasKeyBehind(t, k);
    KeysBehind(t, k, rest);
    OrderBehind(t, k, rest);
  }

  lemma KeysBehind(t: Counts, k: string, rest: Counts)
    requires t != [] && t[0].0 != k
    requires forall i :: 0 <= i < |rest| ==> rest[i].0 == k || HasKey(t[1..], rest[i].0)
    ensures forall i :: 0 <= i < |[t[0]] + rest| ==> ([t[0]] + rest)[i].0 == k || HasKey(t, ([t[0]] + rest)[i].0)
    ensures KeysUnique(t) && KeysUnique(rest) ==> KeysUnique([t[0]] + rest)
  {
    var r := [t[0]] + rest;
    forall i | 0 <= i < |r| ensures r[i].0 == k || HasKey(t, r[i].0) {
      if i > 0 && r[i].0 != k {
        assert r[i] == rest[i - 1];
        var j :| 0 <= j < |t[1..]| && t[1..][j].0 == r[i].0;
        assert t[j + 1].0 == r[i].0;
      }
    }
    if KeysUnique(t) && KeysUnique(rest) {
      forall i | 0 <= i < |rest| ensures rest[i].0 != t[0].0 {
        if rest[i].0 != k {
          var j :| 0 <= j < |t[1..]| && t[1..][j].0 == rest[i].0;
          assert t[j + 1].0 == rest[i].0;
        }
      }
    }
  }

  lemma OrderBehind(t: Counts, k: string, rest: Counts)
    requires t != [] && t[0].0 != k
    requires !HasKey(t[1..], k) ==> rest == t[1..] + [(k, 1)]
    requires HasKey(t[1..], k) ==> |rest| == |t[1..]| && forall i :: 0 <= i < |t[1..]| ==> rest[i].0 == t[1..][i].0
    ensures !HasKey(t, k) ==> [t[0]] + rest == t + [(k, 1)]
    ensures HasKey(t, k) ==> |[t[0]] + rest| == |t| && forall i :: 0 <= i < |t| ==> ([t[0]] + rest)[i].0 == t[i].0
  {
    HasKeyBehind(t, k);
    assert t == [t[0]] + t[1..];
    if HasKey(t, k) {
      var r := [t[0]] + rest;
      forall i | 0 <= i < |t| ensures r[i].0 == t[i].0 {
        if i > 0 {
          assert r[i] == rest[i - 1] && t[i] == t[1..][i - 1];
        }
      }
    }
  }

  lemma HasKeyBehind(t: Counts, k: string)
    requires t != [] && t[0].0 != k
    ensures HasKey(t, k) <==> HasKey(t[1..], k)
  {
    if HasKey(t, k) {
      var i :| 0 <= i < |t| && t[i].0 == k;
      assert t[1..][i - 1].0 == k;
    }
    if HasKey(t[1..], k) {
      var i :| 0 <= i < |t[1..]| && t[1..][i].0 == k;
      assert t[i + 1].0 == k;
    }
  }

  /** The number of times `k` occurs in `keys`. */
  function Occurrences(keys: seq<string>, k: string): nat {
    if keys == [] then 0
    else Occurrences(keys[..|keys| - 1], k) + (if keys[|keys| - 1] == k then 1 else 0)
  }

  /** `for k in keys: counts[k] = counts.get(k, 0) + 1`, one key after another. */
  function BumpAll(t: Counts, keys: seq<string>): (r: Counts)
    ensures KeysUnique(t) ==> KeysUnique(r)
  {
    if keys == [] then t else Bump(BumpAll(t, keys[..|keys| - 1]), keys[|keys| - 1])
  }

  /** Counting a list of keys adds exactly each key's number of occurrences. */
  lemma {:induction false} BumpAllCounts(t: Counts, keys: seq<string>, k: string)
    requires KeysUnique(t)
    ensures Lookup(BumpAll(t, keys), k) == Lookup(t, k) + Occurrences(keys, k)
  {
    if keys != [] {
      BumpAllCounts(t, keys[..|keys| - 1], k);
    }
  }

  /** The keys of a counter, in its order. */
  function Keys(t: Counts): (ks: seq<string>)
    ensures |ks| == |t| && forall i :: 0 <= i < |t| ==> ks[i] == t[i].0
  {
    seq(|t|, i requires 0 <= i < |t| => t[i].0)
  }

  /** The distinct keys of `keys`, each where it first occurs. */
  function FirstOccurrences(keys: seq<string>): seq<string> {
    if keys == [] then []
    else
      var seen := FirstOccurrences(keys[..|keys| - 1]);
      if keys[|keys| - 1] in seen then seen else seen + [keys[|keys| - 1]]
  }

  /**
   * Counting a list of keys into an empty counter orders the counter by
   * first occurrence, the order a stable sort then keeps among ties.
   */
  lemma {:induction false} BumpAllOrder(keys: seq<string>)
    ensures Keys(BumpAll([], keys)) == FirstOccurrences(keys)
  {
    if keys != [] {
      var init, k := keys[..|keys| - 1], keys[|keys| - 1];
      var t := BumpAll([], init);
      BumpAllOrder(init);
      assert HasKey(t, k) <==> k in Keys(t) by {
        if k in Keys(t) {
          var i :| 0 <= i < |Keys(t)| && Keys(t)[i] == k;
          assert t[i].0 == k;
        }
      }
      if !HasKey(t, k) {
        assert Keys(t + [(k, 1)]) == Keys(t) + [k];
      }
    }
  }

  lemma BumpAllAppend(t: Counts, keys: seq<string>, k: string)
    ensures BumpAll(t, keys + [k]) == Bump(BumpAll(t, keys), k)
  {
    assert (keys + [k])[..|keys|] == keys;
  }

  // ----- ranking -----------------------------------------------------------

  /** Non-increasing counts. */
  predicate SortedDesc(t: Counts) {
    forall i, j :: 0 <= i < j < |t| ==> t[i].1 >= t[j].1
  }

  /** Every count in `s` is at most `c`. */
  predicate AllAtMost(s: Counts, c: nat) {
    forall i :: 0 <= i < |s| ==> s[i].1 <= c
  }

  lemma MultisetAtMost(s: Counts, s': Counts, c: nat)
    requires AllAtMost(s, c)
    requires multiset(s') <= multiset(s)
    ensures AllAtMost(s', c)
  {
    forall i | 0 <= i < |s'| ensures s'[i].1 <= c {
      assert s'[i] in multiset(s');
      assert s'[i] in s;
    }
  }

  /** Inserts `x` before the first entry whose count does not exceed its own. */
  function Insert(x: (string, nat), s: Counts): (r: Counts)
    requires SortedDesc(s)
    ensures SortedDesc(r)
    ensures multiset(r) == multiset(s) + multiset{x}
  {
    if s == [] || s[0].1 <= x.1 then
      ConsSorted(x, s);
      [x] + s
    else
      var rest := Insert(x, s[1..]);
      assert s == [s[0]] + s[1..];
      TailAtMost(s, x);
      assert multiset(rest) == multiset(s[1..] + [x]);
      MultisetAtMost(s[1..] + [x], rest, s[0].1);
      ConsSorted(s[0], rest);
      [s[0]] + rest
  }

  /** A sorted counter stays sorted behind an entry that outranks all of it. */
  lemma ConsSorted(y: (string, nat), r: Counts)
    requires SortedDesc(r) && AllAtMost(r, y.1)
    ensures SortedDesc([y] + r)
  {
    forall i, j | 0 <= i < j < |[y] + r| ensures ([y] + r)[i].1 >= ([y] + r)[j].1 {
      if i > 0 {
        assert ([y] + r)[i] == r[i - 1] && ([y] + r)[j] == r[j - 1];
      } else {
        assert ([y] + r)[j] == r[j - 1];
      }
    }
  }

  lemma TailAtMost(s: Counts, x: (string, nat))
    requires SortedDesc(s) && s != [] && x.1 < s[0].1
    ensures AllAtMost(s[1..] + [x], s[0].1)
  {
    forall i | 0 <= i < |s[1..] + [x]| ensures (s[1..] + [x])[i].1 <= s[0].1 {
      if i < |s| - 1 {
        assert (s[1..] + [x])[i] == s[i + 1];
      }
    }
  }

  /** The entries of `s` whose count is `c`, in their order in `s`. */
  function WithCount(s: Counts, c: nat): Counts {
    if s == [] then [] else (if s[0].1 == c then [s[0]] else []) + WithCount(s[1..], c)
  }

  lemma WithCountCons(y: (string, nat), s: Counts, c: nat)
    ensures WithCount([y] + s, c) == (if y.1 == c then [y] else []) + WithCount(s, c)
  {
    assert ([y] + s)[1..] == s;
  }

  /** Inserting `x` puts it ahead of every entry with the same count. */
  lemma {:induction false} InsertAhead(x: (string, nat), s: Counts, c: nat)
    requires SortedDesc(s)
    ensures WithCount(Insert(x, s), c) == (if x.1 == c then [x] else []) + WithCount(s, c)
  {
    if s == [] || s[0].1 <= x.1 {
      WithCountCons(x, s, c);
    } else {
      var rest := Insert(x, s[1..]);
      var ws := WithCount(s[1..], c);
      assert Insert(x, s) == [s[0]] + rest;
      WithCountCons(s[0], rest, c);
      InsertAhead(x, s[1..], c);
      assert s == [s[0]] + s[1..];
      WithCountCons(s[0], s[1..], c);
      if x.1 == c {
        assert WithCount(rest, c) == [x] + ws && WithCount(s, c) == ws;
      } else if s[0].1 == c {
        assert WithCount(rest, c) == ws && WithCount(s, c) == [s[0]] + ws;
      } else {
        assert WithCount(rest, c) == ws && WithCount(s, c) == ws;
      }
    }
  }

  /**
   * Python's `sorted(counts.items(), key=count, reverse=True)`, which is
   * stable: entries with the same count keep their order in the counter.
   */
  function SortDesc(t: Counts): (r: Counts)
    ensures SortedDesc(r)
    ensures multiset(r) == multiset(t)
    ensures forall c: nat :: WithCount(r, c) == WithCount(t, c)
  {
    if t == [] then []
    else
      assert t == [t[0]] + t[1..];
      var rest := SortDesc(t[1..]);
      forall c: nat ensures WithCount(Insert(t[0], rest), c) == WithCount(t, c) {
        InsertAhead(t[0], rest, c);
      }
      Insert(t[0], rest)
  }

  lemma {:induction false} WithCountAll(s: Counts, c: nat)
    requires forall i :: 0 <= i < |s| ==> s[i].1 == c
    ensures WithCount(s, c) == s
  {
    if s != [] {
      WithCountAll(s[1..], c);
    }
  }

  /** Entries that all share one count keep their counter order when sorted. */
  lemma AllTiedKeepOrder(t: Counts, c: nat)
    requires forall i :: 0 <= i < |t| ==> t[i].1 == c
    ensures SortDesc(t) == t
  {
    var r := SortDesc(t);
    forall i | 0 <= i < |r| ensures r[i].1 == c {
      assert r[i] in multiset(r);
      assert r[i] in t;
    }
    WithCountAll(t, c);
    WithCountAll(r, c);
  }

  /** In a sorted counter, nothing after position `k` outranks anything before it. */
  lemma SortedSplit(s: Counts, k: nat)
    requires SortedDesc(s) && k <= |s|
    ensures forall x, y :: x in multiset(s[k..]) && y in s[..k] ==> x.1 <= y.1
  {
    forall x, y | x in multiset(s[k..]) && y in s[..k] ensures x.1 <= y.1 {
      assert x in s[k..];
      var i :| 0 <= i < |s[k..]| && s[k..][i] == x;
      var j :| 0 <= j < k && s[..k][j] == y;
      assert s[k + i] == x && s[j] == y;
    }
  }

  /**
   * Python's `sorted(counts.items(), key=count, reverse=True)[:3]`: at most
   * three entries, taken from the counter, in non-increasing order, and no
   * entry left out has a larger count than any entry kept.
   */
  function TopThree(t: Counts): (r: Counts)
    ensures |r| == if |t| < 3 then |t| else 3
    ensures SortedDesc(r)
    ensures multiset(r) <= multiset(t)
    ensures forall x, y :: x in multiset(t) - multiset(r) && y in r ==> x.1 <= y.1
    ensures r == SortDesc(t)[..|r|]
  {
    var s := SortDesc(t);
    assert |s| == |t| by { assert |multiset(s)| == |multiset(t)|; }
    var k := if |s| < 3 then |s| else 3;
    PrefixSorted(s, k);
    assert s == s[..k] + s[k..];
    assert multiset(s) == multiset(s[..k]) + multiset(s[k..]);
    SortedSplit(s, k);
    forall x, y | x in multiset(t) - multiset(s[..k]) && y in s[..k] ensures x.1 <= y.1 {
      assert x in multiset(s[k..]);
    }
    s[..k]
  }

  lemma PrefixSorted(s: Counts, k: nat)
    requires SortedDesc(s) && k <= |s|
    ensures SortedDesc(s[..k])
  {
  }

  /** The three most frequent keys are reported with their true number of occurrences. */
  lemma TopThreeCounts(keys: seq<string>, e: (string, nat))
    requires e in TopThree(BumpAll([], keys))
    ensures e.1 == Occurrences(keys, e.0)
  {
    var counts := BumpAll([], keys);
    var j := EntryIndex(e, TopThree(counts), counts);
    LookupEntry(counts, j);
    BumpAllCounts([], keys, e.0);
  }

  lemma EntryIndex(e: (string, nat), r: Counts, t: Counts) returns (j: nat)
    requires multiset(r) <= multiset(t) && e in r
    ensures j < |t| && t[j] == e
  {
    assert e in multiset(r);
    assert e in multiset(t);
    j :| 0 <= j < |t| && t[j] == e;
  }
}

=== FILE: text.dfy ===
/**
 * Small string utilities the core relies on: decimal rendering of
 * integers (for messages such as "2m 30s" or "10 répétitions !"),
 * ASCII lower-casing and substring search (for dispatch on exercise names).
 */
module Text {

  predicate IsDigit(c: char) {
    '0' <= c <= '9'
  }

  predicate AllDigits(s: string) {
    forall i :: 0 <= i < |s| ==> IsDigit(s[i])
  }

  function DigitChar(d: nat): (c: char)
    requires d < 10
    ensures IsDigit(c) && c as int - '0' as int == d
  {
    ('0' as int + d) as char
  }

  /** Decimal rendering of a natural number, as Python's `str` gives it. */
  function NatToString(n: nat): (s: string)
    ensures 1 <= |s|
    ensures AllDigits(s)
    ensures |s| > 1 ==> s[0] != '0'
    decreases n
  {
    if n < 10 then [DigitChar(n)] else NatToString(n / 10) + [DigitChar(n % 10)]
  }

  /** The value of a string of decimal digits. */
  function ParseDigits(s: string): nat
    requires AllDigits(s)
  {
    if s == [] then 0
    else ParseDigits(s[..|s| - 1]) * 10 + (s[|s| - 1] as int - '0' as int)
  }

  /** Rendering a number and reading it back gives the number. */
  lemma {:induction false} ParseNatToString(n: nat)
    ensures ParseDigits(NatToString(n)) == n
    decreases n
  {
    var s := NatToString(n);
    if n >= 10 {
      ParseNatToString(n / 10);
      assert s[..|s| - 1] == NatToString(n / 10);
    }
  }

  /** Rendering is injective: distinct numbers give distinct strings. */
  lemma NatToStringInjective(m: nat, n: nat)
    requires NatToString(m) == NatToString(n)
    ensures m == n
  {
    ParseNatToString(m);
    ParseNatToString(n);
  }

  function LowerChar(c: char): char {
    if 'A' <= c <= 'Z' then (c as int + ('a' as int - 'A' as int)) as char else c
  }

  /** Python's `str.lower()`, restricted to the ASCII letters. */
  function ToLower(s: string): (r: string)
    ensures |r| == |s|
    ensures forall i :: 0 <= i < |s| ==> r[i] == LowerChar(s[i])
    ensures forall i :: 0 <= i < |s| ==> !('A' <= r[i] <= 'Z')
  {
    seq(|s|, i requires 0 <= i < |s| => LowerChar(s[i]))
  }

  /** `sub` occurs in `s` starting at position `i`. */
  predicate OccursAt(s: string, sub: string, i: int) {
    0 <= i <= |s| - |sub| && s[i..i + |sub|] == sub
  }

  /** One mismatching character rules out an occurrence at `i`. */
  lemma MismatchAt(s: string, sub: string, i: int, j: int)
    requires 0 <= j < |sub| && 0 <= i && i + j < |s| && s[i + j] != sub[j]
    ensures !OccursAt(s, sub, i)
  {
  }

  /** Python's `sub in s` for strings. */
  function Contains(s: string, sub: string): (r: bool)
    ensures r <==> exists i :: OccursAt(s, sub, i)
    decreases |s|
  {
    if |s| < |sub| then false
    else if s[..|sub|] == sub then assert OccursAt(s, sub, 0); true
    else
      var r' := Contains(s[1..], sub);
      assert r' ==> exists i :: OccursAt(s, sub, i) by {
        if r' {
          var i :| OccursAt(s[1..], sub, i);
          assert s[i + 1..i + 1 + |sub|] == s[1..][i..i + |sub|];
          assert OccursAt(s, sub, i + 1);
        }
      }
      assert (exists i :: OccursAt(s, sub, i)) ==> r' by {
        if exists i :: OccursAt(s, sub, i) {
          var i :| OccursAt(s, sub, i);
          assert i != 0;
          assert s[1..][i - 1..i - 1 + |sub|] == s[i..i + |sub|];
          assert OccursAt(s[1..], sub, i - 1);
        }
      }
      r'
  }
}

=== FILE: workout_session.dfy ===
/**
 * A workout session: the repetitions done with their quality scores, the
 * feedback shown, the error types seen, the pauses, and the statistics
 * derived from all of that at a given moment.  The clock is the explicit
 * parameter `now`.
 */
module Session {
  import opened Wrappers
  import Stats
  import Tally
  import Text

  /** One recorded repetition; `timestamp` is measured from the start of the session. */
  datatype RepDetail = RepDetail(repNumber: nat, timestamp: real, qualityScore: real, angles: map<string, real>)

  /** A feedback message as the session keeps it. */
  datatype FeedbackEntry = FeedbackEntry(timestamp: real, message: string, priority: string,
                                         qualityScore: real, errorType: Option<string>)

  /** The fields of a feedback message handed to the session, each possibly absent. */
  datatype FeedbackIn = FeedbackIn(message: Option<string>, priority: Option<string>,
                                   qualityScore: Option<real>, errorType: Option<string>)

  datatype SessionState = SessionState(
    exercise: string, userName: string, startTime: real, endTime: Option<real>,
    repCount: nat, qualityScores: seq<real>, feedbackHistory: seq<FeedbackEntry>,
    errorsDetected: Tally.Counts, repDetails: seq<RepDetail>,
    isActive: bool, isPaused: bool, pauseTime: real, totalPauseDuration: real)

  /** Whether a message names an error that gets counted (a present, non-empty type). */
  predicate Reported(errorType: Option<string>) {
    errorType.Some? && errorType.value != ""
  }

  /** The counted error types of the feedback history, in order. */
  function ReportedErrors(h: seq<FeedbackEntry>): seq<string> {
    if h == [] then []
    else
      var last := h[|h| - 1];
      ReportedErrors(h[..|h| - 1]) + (if Reported(last.errorType) then [last.errorType.value] else [])
  }

  /**
   * What the session keeps in step: one score and one detail per counted
   * repetition, numbered from 1; the error counts are those of the
   * feedback history; a session that is not paused has no pause start.
   */
  predicate Consistent(s: SessionState) {
    && |s.qualityScores| == s.repCount
    && |s.repDetails| == s.repCount
    && (forall i :: 0 <= i < |s.repDetails| ==>
          s.repDetails[i].repNumber == i + 1 && s.repDetails[i].qualityScore == s.qualityScores[i])
    && s.errorsDetected == Tally.BumpAll([], ReportedErrors(s.feedbackHistory))
    && (!s.isPaused ==> s.pauseTime == 0.0)
  }

  /** A new session started at `now`: active, not paused, nothing recorded. */
  function Start(exercise: string, userName: string, now: real): (s: SessionState)
    ensures Consistent(s)
    ensures s.isActive && !s.isPaused && s.repCount == 0 && s.endTime.None?
  {
    SessionState(exercise, userName, now, None, 0, [], [], [], [], true, false, 0.0, 0.0)
  }

  /** `add_repetition`: counts a repetition and records its score and details. */
  function WithRepetition(s: SessionState, quality: real, now: real, angles: map<string, real> := map[])
    : (r: SessionState)
    requires Consistent(s)
    ensures Consistent(r)
    ensures r.repCount == s.repCount + 1
    ensures r.qualityScores == s.qualityScores + [quality]
    ensures r.repDetails[s.repCount] == RepDetail(r.repCount, now - s.startTime, quality, angles)
    ensures r.(repCount := s.repCount, qualityScores := s.qualityScores, repDetails := s.repDetails) == s
  {
    s.(repCount := s.repCount + 1,
       qualityScores := s.qualityScores + [quality],
       repDetails := s.repDetails + [RepDetail(s.repCount + 1, now - s.startTime, quality, angles)])
  }

  /** The entry `add_feedback` stores, with the defaults of absent fields. */
  function EntryOf(fb: FeedbackIn, s: SessionState, now: real): FeedbackEntry {
    FeedbackEntry(now - s.startTime, fb.message.GetOr(""), fb.priority.GetOr("low"),
                  fb.qualityScore.GetOr(0.0), fb.errorType)
  }

  /**
   * `add_feedback`: always appends one entry; the count of its error type
   * goes up by one when it names one, and no other count changes.
   */
  function WithFeedback(s: SessionState, fb: FeedbackIn, now: real): (r: SessionState)
    requires Consistent(s)
    ensures Consistent(r)
    ensures r.feedbackHistory == s.feedbackHistory + [EntryOf(fb, s, now)]
    ensures forall k :: Tally.Lookup(r.errorsDetected, k)
                        == Tally.Lookup(s.errorsDetected, k) + if Reported(fb.errorType) && fb.errorType.value == k then 1 else 0
    ensures r.(feedbackHistory := s.feedbackHistory, errorsDetected := s.errorsDetected) == s
  {
    var h := s.feedbackHistory + [EntryOf(fb, s, now)];
    CountsAfter(s.feedbackHistory, EntryOf(fb, s, now));
    if Reported(fb.errorType) then
      s.(feedbackHistory := h, errorsDetected := Tally.Bump(s.errorsDetected, fb.errorType.value))
    else
      s.(feedbackHistory := h)
  }

  /** The error counter of a history extended by one entry. */
  lemma CountsAfter(h: seq<FeedbackEntry>, e: FeedbackEntry)
    ensures Tally.BumpAll([], ReportedErrors(h + [e]))
            == if Reported(e.errorType) then Tally.Bump(Tally.BumpAll([], ReportedErrors(h)), e.errorType.value)
               else Tally.BumpAll([], ReportedErrors(h))
  {
    var h' := h + [e];
    assert h'[..|h'| - 1] == h && h'[|h'| - 1] == e;
    if Reported(e.errorType) {
      assert ReportedErrors(h') == ReportedErrors(h) + [e.errorType.value];
      Tally.BumpAllAppend([], ReportedErrors(h), e.errorType.value);
    } else {
      assert ReportedErrors(h') == ReportedErrors(h) + [];
      assert ReportedErrors(h) + [] == ReportedErrors(h);
    }
  }

  /** `pause`: only an active session that is not already paused starts a pause. */
  function Paused(s: SessionState, now: real): (r: SessionState)
    requires Consistent(s)
    ensures Consistent(r)
    ensures s.isActive && !s.isPaused ==> r == s.(isPaused := true, pauseTime := now)
    ensures !(s.isActive && !s.isPaused) ==> r == s
  {
    if s.isActive && !s.isPaused then s.(isPaused := true, pauseTime := now) else s
  }

  /** `resume`: ends a pause and adds its length to the total pause time. */
  function Resumed(s: SessionState, now: real): (r: SessionState)
    requires Consistent(s)
    ensures Consistent(r)
    ensures !r.isPaused
    ensures s.isPaused ==> r.totalPauseDuration == s.totalPauseDuration + (now - s.pauseTime)
    ensures !s.isPaused ==> r == s
    ensures r.(isPaused := s.isPaused, pauseTime := s.pauseTime, totalPauseDuration := s.totalPauseDuration) == s
  {
    if s.isPaused then
      s.(isPaused := false, totalPauseDuration := s.totalPauseDuration + (now - s.pauseTime), pauseTime := 0.0)
    else s
  }

  /** The end of the measured period: the end time once one is set (a zero one counts as unset), else now. */
  function EndOf(s: SessionState, now: real): (end: real)
    ensures s.endTime.None? || s.endTime.value == 0.0 ==> end == now
    ensures s.endTime.Some? && s.endTime.value != 0.0 ==> end == s.endTime.value
  {
    if s.endTime.Some? && s.endTime.value != 0.0 then s.endTime.value else now
  }

  /** The time from the start to the end of the measured period, less every pause. */
  function ActiveTime(s: SessionState, now: real): (t: real)
    ensures !s.isPaused ==> t == EndOf(s, now) - s.startTime - s.totalPauseDuration
    ensures s.isPaused && EndOf(s, now) == now ==> t == s.pauseTime - s.startTime - s.totalPauseDuration
  {
    EndOf(s, now) - s.startTime - s.totalPauseDuration - (if s.isPaused then now - s.pauseTime else 0.0)
  }

  /** `get_duration`: the active time, never negative. */
  function Duration(s: SessionState, now: real): (d: real)
    ensures d >= 0.0
    ensures d >= ActiveTime(s, now)
    ensures d == 0.0 || d == ActiveTime(s, now)
  {
    var active := ActiveTime(s, now);
    if active > 0.0 then active else 0.0
  }

  /** While a session is paused and not ended, its duration does not grow. */
  lemma PausedClockStops(s: SessionState, t1: real, t2: real)
    requires s.isPaused && EndOf(s, t1) == t1 && EndOf(s, t2) == t2
    ensures Duration(s, t1) == Duration(s, t2)
  {
  }

  /** Pausing does not change the duration at the moment of the pause. */
  lemma PauseKeepsDuration(s: SessionState, now: real)
    requires Consistent(s)
    ensures Duration(Paused(s, now), now) == Duration(s, now)
  {
  }

  /** Resuming does not change the duration at the moment of resuming: the pause is accounted for either way. */
  lemma ResumeKeepsDuration(s: SessionState, now: real)
    requires Consistent(s)
    ensures Duration(Resumed(s, now), now) == Duration(s, now)
  {
  }

  /** `end_session`'s change of state: the end is fixed and the session no longer active. */
  function Ended(s: SessionState, now: real): (r: SessionState)
    requires Consistent(s)
    ensures Consistent(r)
    ensures r == s.(endTime := Some(now), isActive := false)
  {
    s.(endTime := Some(now), isActive := false)
  }

  /** Once a session has ended outside a pause, its duration no longer depends on the clock. */
  lemma EndFreezesDuration(s: SessionState, t: real, later: real)
    requires Consistent(s) && !s.isPaused && t != 0.0
    ensures Duration(Ended(s, t), later) == Duration(s.(endTime := None), t)
  {
  }

  /**
   * A session ended during a pause is not frozen: the pause is never
   * closed, so the active time goes on falling with the clock after the
   * end, by exactly the time that passes.
   */
  lemma EndedWhilePausedKeepsFalling(s: SessionState, t: real, later: real)
    requires Consistent(s) && s.isPaused && t != 0.0
    ensures ActiveTime(Ended(s, t), later) == ActiveTime(Ended(s, t), t) - (later - t)
  {
  }

  /** `get_average_quality`: 0 without repetitions, otherwise the mean score. */
  function AverageQuality(s: SessionState): (a: real)
    ensures s.qualityScores == [] ==> a == 0.0
    ensures s.qualityScores != [] ==> a == Stats.Mean(s.qualityScores)
    ensures (forall i :: 0 <= i < |s.qualityScores| ==> 0.0 <= s.qualityScores[i] <= 100.0) ==> 0.0 <= a <= 100.0
  {
    if s.qualityScores == [] then 0.0
    else
      MeanQualityBounded(s.qualityScores);
      Stats.Mean(s.qualityScores)
  }

  lemma MeanQualityBounded(qs: seq<real>)
    requires qs != []
    ensures (forall i :: 0 <= i < |qs| ==> 0.0 <= qs[i] <= 100.0) ==> 0.0 <= Stats.Mean(qs) <= 100.0
  {
    if forall i :: 0 <= i < |qs| ==> 0.0 <= qs[i] <= 100.0 {
      Stats.MeanBounds(qs, 0.0, 100.0);
    }
  }

  // ----- calories ----------------------------------------------------------

  /** Calories per repetition, looked up by the first name the exercise contains. */
  const CALORIES_PER_REP: seq<(string, real)> := [
    ("squat", 0.32), ("push-up", 0.29), ("pompe", 0.29), ("lunge", 0.35), ("fente", 0.35)
  ]
  const DEFAULT_CALORIES_PER_REP: real := 0.3

  /** The position of the first entry whose name occurs in `name`. */
  function FirstMatch(name: string, table: seq<(string, real)>): (r: Option<nat>)
    ensures r.Some? ==> r.value < |table| && Text.Contains(name, table[r.value].0)
    ensures r.Some? ==> forall j :: 0 <= j < r.value ==> !Text.Contains(name, table[j].0)
    ensures r.None? <==> forall j :: 0 <= j < |table| ==> !Text.Contains(name, table[j].0)
  {
    if table == [] then None
    else if Text.Contains(name, table[0].0) then Some(0)
    else
      match FirstMatch(name, table[1..])
      case None => None
      case Some(i) => Some(i + 1)
  }

  /** The calories of one repetition of `exercise`, 0.3 when no known name occurs in it. */
  function BaseCalories(exercise: string): (b: real)
    ensures 0.29 <= b <= 0.35
    ensures b == DEFAULT_CALORIES_PER_REP <==>
            forall j :: 0 <= j < |CALORIES_PER_REP| ==> !Text.Contains(Text.ToLower(exercise), CALORIES_PER_REP[j].0)
    ensures forall i :: 0 <= i < |CALORIES_PER_REP| && Text.Contains(Text.ToLower(exercise), CALORIES_PER_REP[i].0)
              && (forall j :: 0 <= j < i ==> !Text.Contains(Text.ToLower(exercise), CALORIES_PER_REP[j].0))
              ==> b == CALORIES_PER_REP[i].1
  {
    match FirstMatch(Text.ToLower(exercise), CALORIES_PER_REP)
    case None => DEFAULT_CALORIES_PER_REP
    case Some(i) => CALORIES_PER_REP[i].1
  }

  /** Any spelling of "squat" gets the squat rate. */
  lemma SquatCalories()
    ensures BaseCalories("Squat") == 0.32
  {
    assert Text.ToLower("Squat") == "squat";
    assert Text.OccursAt("squat", "squat", 0);
  }

  /**
   * `get_calories_estimate` (unrounded): repetitions times the rate, raised
   * by a tenth per active minute and at most doubled.
   */
  function CaloriesEstimate(s: SessionState, now: real): (c: real)
    ensures Between(c, s.repCount, BaseCalories(s.exercise))
    ensures s.repCount == 0 ==> c == 0.0
  {
    Scaled(s.repCount, BaseCalories(s.exercise), DurationFactor(Duration(s, now)))
  }

  /**
   * The estimate exactly: repetitions times the exercise's rate times the
   * duration factor of the active time, hence doubled from ten minutes on.
   */
  lemma CaloriesFormula(s: SessionState, now: real)
    ensures CaloriesEstimate(s, now)
            == s.repCount as real * BaseCalories(s.exercise) * DurationFactor(Duration(s, now))
    ensures Duration(s, now) >= 600.0 ==>
              CaloriesEstimate(s, now) == 2.0 * (s.repCount as real * BaseCalories(s.exercise))
  {
    ScaledByDuration(s.repCount, BaseCalories(s.exercise), Duration(s, now));
  }

  lemma ScaledByDuration(n: nat, b: real, seconds: real)
    requires b >= 0.0 && seconds >= 0.0
    ensures Scaled(n, b, DurationFactor(seconds)) == n as real * b * DurationFactor(seconds)
    ensures seconds >= 600.0 ==> Scaled(n, b, DurationFactor(seconds)) == 2.0 * (n as real * b)
  {
  }

  /** The duration adjustment: a tenth more per minute, at most double. */
  function DurationFactor(seconds: real): (f: real)
    requires seconds >= 0.0
    ensures 1.0 <= f <= 2.0
    ensures seconds < 600.0 ==> (f - 1.0) * 600.0 == seconds
    ensures seconds >= 600.0 ==> f == 2.0
  {
    var factor := 1.0 + seconds / 60.0 * 0.1;
    if factor < 2.0 then factor else 2.0
  }

  /** `c` lies between `n` repetitions at `b` calories each and twice that. */
  predicate Between(c: real, n: nat, b: real) {
    n as real * b <= c <= 2.0 * (n as real * b)
  }

  /** `n` repetitions at `b` calories each, scaled by `f`. */
  function Scaled(n: nat, b: real, f: real): (c: real)
    requires b >= 0.0 && 1.0 <= f <= 2.0
    ensures Between(c, n, b)
    ensures n == 0 ==> c == 0.0
    ensures c == n as real * b * f
  {
    var a := n as real * b;
    NonNegProduct(n as real, b);
    NonNegProduct(a, f - 1.0);
    NonNegProduct(a, 2.0 - f);
    a * f
  }

  lemma NonNegProduct(x: real, y: real)
    requires x >= 0.0 && y >= 0.0
    ensures x * y >= 0.0
  {
  }

  // ----- formatting --------------------------------------------------------

  /** Whole minutes and the whole seconds left over, as `_format_duration` computes them. */
  function DurationParts(seconds: real): (r: (int, nat))
    ensures r.1 < 60
    ensures 60.0 * r.0 as real + r.1 as real <= seconds < 60.0 * r.0 as real + r.1 as real + 1.0
  {
    var minutes := (seconds / 60.0).Floor;
    var rest := seconds - 60.0 * minutes as real;
    assert 0.0 <= rest < 60.0;
    var secs := rest.Floor;
    (minutes, secs)
  }

  /** `_format_duration`: "Mm Ss" from one minute on, "Ss" below. */
  function FormatDuration(seconds: real): (r: string)
    ensures |r| >= 2 && r[|r| - 1] == 's'
    ensures DurationParts(seconds).0 > 0 <==> 'm' in r
  {
    var (minutes, secs) := DurationParts(seconds);
    var tail := Text.NatToString(secs) + "s";
    assert 'm' !in Text.NatToString(secs);
    if minutes > 0 then
      assert 'm' !in Text.NatToString(minutes);
      Text.NatToString(minutes) + "m " + tail
    else tail
  }

  /** The number of leading digits of `r`. */
  function DigitRun(r: string): (k: nat)
    ensures k <= |r| && Text.AllDigits(r[..k])
    ensures k < |r| ==> !Text.IsDigit(r[k])
  {
    if r == [] || !Text.IsDigit(r[0]) then 0
    else
      var k := DigitRun(r[1..]);
      assert r[..k + 1] == [r[0]] + r[1..][..k];
      k + 1
  }

  lemma {:induction false} DigitRunOf(d: string, rest: string)
    requires Text.AllDigits(d)
    requires rest == [] || !Text.IsDigit(rest[0])
    ensures DigitRun(d + rest) == |d|
  {
    if d != [] {
      assert (d + rest)[1..] == d[1..] + rest;
      DigitRunOf(d[1..], rest);
    }
  }

  /**
   * A formatted duration reads back: its leading digits are the minutes
   * followed by "m " and the seconds, or, below a minute, the seconds alone.
   */
  lemma FormatDurationReadsBack(seconds: real)
    ensures var r := FormatDuration(seconds);
            var (minutes, secs) := DurationParts(seconds);
            var k := DigitRun(r);
            && (minutes > 0 ==> k + 2 < |r| && r[k..k + 2] == "m "
                                && Text.AllDigits(r[k + 2..|r| - 1])
                                && Text.ParseDigits(r[..k]) == minutes
                                && Text.ParseDigits(r[k + 2..|r| - 1]) == secs)
            && (minutes <= 0 ==> k == |r| - 1 && Text.ParseDigits(r[..k]) == secs)
  {
    var (minutes, secs) := DurationParts(seconds);
    var r := FormatDuration(seconds);
    if minutes > 0 {
      assert r == Text.NatToString(minutes) + "m " + Text.NatToString(secs) + "s";
      MinutesReadBack(minutes, secs);
    } else {
      assert r == Text.NatToString(secs) + "s";
      SecondsReadBack(secs);
    }
  }

  /** "Mm Ss": the leading digits are the minutes, then "m " and the seconds. */
  lemma MinutesReadBack(minutes: nat, secs: nat)
    ensures var ms := Text.NatToString(minutes);
            var r := ms + "m " + Text.NatToString(secs) + "s";
            var k := DigitRun(r);
            k + 2 < |r| && r[k..k + 2] == "m " && Text.AllDigits(r[k + 2..|r| - 1])
            && Text.ParseDigits(r[..k]) == minutes && Text.ParseDigits(r[k + 2..|r| - 1]) == secs
  {
    var ms := Text.NatToString(minutes);
    var ss := Text.NatToString(secs);
    Text.ParseNatToString(secs);
    Text.ParseNatToString(minutes);
    MinutesLayout(ms, ss);
  }

  /** In "Mm Ss" built from digit strings, the leading digit run is the minutes' text. */
  lemma MinutesLayout(ms: string, ss: string)
    requires Text.AllDigits(ms) && Text.AllDigits(ss)
    ensures var r := ms + "m " + ss + "s";
            var k := DigitRun(r);
            k == |ms| && k + 2 < |r| && r[..k] == ms && r[k..k + 2] == "m " && r[k + 2..|r| - 1] == ss
  {
    var r := ms + "m " + ss + "s";
    assert r == ms + ("m " + ss + "s");
    DigitRunOf(ms, "m " + ss + "s");
    assert r[..|ms|] == ms;
    assert r[|ms|..|ms| + 2] == "m ";
    assert r[|ms| + 2..|r| - 1] == ss;
  }

  /** "Ss": the digits before the final 's' are the seconds. */
  lemma SecondsReadBack(secs: nat)
    ensures var r := Text.NatToString(secs) + "s";
            var k := DigitRun(r);
            k == |r| - 1 && Text.ParseDigits(r[..k]) == secs
  {
    var ss := Text.NatToString(secs);
    Text.ParseNatToString(secs);
    DigitRunOf(ss, "s");
    assert (ss + "s")[..|ss|] == ss;
  }

  // ----- statistics --------------------------------------------------------

  datatype SessionStats = SessionStats(
    userName: string, exercise: string, duration: real, durationFormatted: string,
    repetitions: nat, averageQuality: real, qualityDistribution: Stats.Distribution,
    topErrors: Tally.Counts, totalFeedback: nat, caloriesEstimate: real,
    repsPerMinute: real, isActive: bool, repDetails: seq<RepDetail>)

  /** The pace: repetitions per minute of active time, 0 when no time has passed. */
  function RepsPerMinute(reps: nat, duration: real): (p: real)
    ensures p >= 0.0 || duration < 0.0
    ensures duration <= 0.0 ==> p == 0.0
    ensures duration > 0.0 ==> p * duration == reps as real * 60.0
  {
    if duration > 0.0 then reps as real / duration * 60.0 else 0.0
  }

  /**
   * `get_statistics` at time `now` (unrounded, without the session id and
   * the start date): the quality bands partition the repetitions, and the
   * top errors are the three most frequent error types.
   */
  function Statistics(s: SessionState, now: real): (r: SessionStats)
    requires Consistent(s)
    ensures r.duration >= 0.0 && r.repsPerMinute >= 0.0
    ensures r.repetitions == s.repCount && r.totalFeedback == |s.feedbackHistory|
    ensures var d := r.qualityDistribution; d.excellent + d.good + d.medium + d.poor == s.repCount
    ensures r.qualityDistribution == Stats.DistributionOf(s.qualityScores)
    ensures r.topErrors == Tally.TopThree(s.errorsDetected)
    ensures r.durationFormatted == FormatDuration(r.duration)
    ensures r.isActive == s.isActive && r.repDetails == s.repDetails
    ensures r.duration == Duration(s, now) && r.averageQuality == AverageQuality(s)
    ensures r.caloriesEstimate == CaloriesEstimate(s, now)
    ensures r.repsPerMinute == RepsPerMinute(s.repCount, r.duration)
    ensures r.duration == 0.0 ==> r.repsPerMinute == 0.0
  {
    var duration := Duration(s, now);
    SessionStats(s.userName, s.exercise, duration, FormatDuration(duration), s.repCount,
                 AverageQuality(s), Stats.DistributionOf(s.qualityScores), Tally.TopThree(s.errorsDetected),
                 |s.feedbackHistory|, CaloriesEstimate(s, now), RepsPerMinute(s.repCount, duration),
                 s.isActive, s.repDetails)
  }

  /**
   * The top errors carry their true number of reports (that none left out
   * was reported more often is TopThree's own contract).
   */
  lemma TopErrorsCounted(s: SessionState)
    requires Consistent(s)
    ensures var top := Tally.TopThree(s.errorsDetected);
            forall i :: 0 <= i < |top| ==> top[i].1 == Tally.Occurrences(ReportedErrors(s.feedbackHistory), top[i].0)
  {
    var top := Tally.TopThree(s.errorsDetected);
    forall i | 0 <= i < |top| ensures top[i].1 == Tally.Occurrences(ReportedErrors(s.feedbackHistory), top[i].0) {
      Tally.TopThreeCounts(ReportedErrors(s.feedbackHistory), top[i]);
    }
  }

  class WorkoutSession {
    var exercise: string
    var userName: string
    var startTime: real
    var endTime: Option<real>
    var repCount: nat
    var qualityScores: seq<real>
    var feedbackHistory: seq<FeedbackEntry>
    var errorsDetected: Tally.Counts
    var repDetails: seq<RepDetail>
    var isActive: bool
    var isPaused: bool
    var pauseTime: real
    var totalPauseDuration: real

    function State(): SessionState
      reads this
    {
      SessionState(exercise, userName, startTime, endTime, repCount, qualityScores, feedbackHistory,
                   errorsDetected, repDetails, isActive, isPaused, pauseTime, totalPauseDuration)
    }

    constructor (exercise: string, now: real, userName: string := "User")
      ensures State() == Start(exercise, userName, now)
    {
      this.exercise := exercise;
      this.userName := userName;
      startTime := now;
      endTime := None;
      repCount := 0;
      qualityScores := [];
      feedbackHistory := [];
      errorsDetected := [];
      repDetails := [];
      isActive := true;
      isPaused := false;
      pauseTime := 0.0;
      totalPauseDuration := 0.0;
    }

    method AddRepetition(quality: real, now: real, angles: map<string, real> := map[])
      requires Consistent(State())
      modifies this
      ensures State() == WithRepetition(old(State()), quality, now, angles)
    {
      repCount := repCount + 1;
      qualityScores := qualityScores + [quality];
      repDetails := repDetails + [RepDetail(repCount, now - startTime, quality, angles)];
    }

    method AddFeedback(fb: FeedbackIn, now: real)
      requires Consistent(State())
      modifies this
      ensures State() == WithFeedback(old(State()), fb, now)
    {
      feedbackHistory := feedbackHistory + [EntryOf(fb, State(), now)];
      if fb.errorType.Some? && fb.errorType.value != "" {
        errorsDetected := Tally.Bump(errorsDetected, fb.errorType.value);
      }
    }

    method Pause(now: real)
      requires Consistent(State())
      modifies this
      ensures State() == Paused(old(State()), now)
    {
      if isActive && !isPaused {
        isPaused := true;
        pauseTime := now;
      }
    }

    method Resume(now: real)
      requires Consistent(State())
      modifies this
      ensures State() == Resumed(old(State()), now)
    {
      if isPaused {
        isPaused := false;
        totalPauseDuration := totalPauseDuration + (now - pauseTime);
        pauseTime := 0.0;
      }
    }

    /** `end_session`: ends the session and reports its final statistics. */
    method EndSession(now: real) returns (stats: SessionStats)
      requires Consistent(State())
      modifies this
      ensures State() == Ended(old(State()), now)
      ensures stats == Statistics(State(), now)
    {
      endTime := Some(now);
      isActive := false;
      stats := Statistics(State(), now);
    }
  }
}

=== FILE: wrappers.dfy ===
/** Optional values: the model's stand-in for Python's `None`. */
module Wrappers {

  datatype Option<+T> = None | Some(value: T) {

    /** The wrapped value, or `default` when there is none. */
    function GetOr(default: T): T {
      match this
      case Some(v) => v
      case None => default
    }
  }
}
